=== FILE: README.md ===
# Workflow control blocks: merge, loop, stop-and-error, wait

This project models the execution engines of four workflow blocks. Each block
takes a JSON input and a configuration. Every block also returns
statistics; merge returns them when asked to collect them, and always in
simulation mode.

- **Merge** (`executeMerge`) combines named inputs in one of several modes:
  - `concat`: the inputs are coerced to arrays and concatenated. Duplicate
    removal, sorting and flattening can then be applied.
  - `merge`: the inputs are combined as objects by the `replace`, `keep`,
    `deep` or `custom` strategy. Keys can then be renamed by prefix rules.
  - `auto`: picks `concat` or `merge` from the kinds of the inputs.
  - `union`, `intersection` and `custom`.

  Optional pre- and post-transforms run around the merge. An error either
  propagates or is replaced by a default value, depending on the
  error-handling strategy.
- **Loop** (`executeLoop`) performs one step of an iteration over a
  collection: an array, an object's entries, a numeric range or a "custom"
  value. It supports a limit, an item transform with four error policies,
  an exit condition and a result transform. It has three modes:
  - `sequential`: one item per call;
  - `parallel`: every item at once;
  - `batch`: a slice per call.
- **Stop and error** (`executeStopError`) decides whether to stop the workflow.
  The decision depends on simulation mode and an optional condition. The
  block also builds the line it logs.
- **Wait** (`executeWait`) models its three modes without sleeping:
  - a fixed delay in a time unit;
  - a wait until a target time;
  - a single check of a condition, with an optional timeout.

JSON values are the datatype `Json.Json`. Objects are sequences of entries in
key order. User code is a function parameter that returns
`Results.Outcome` (`Ok` or `Err`). This covers the pre-transform,
post-transform, custom merge, item transform, exit condition, result
transform and the stop and wait conditions. The clock is a pair of integer
parameters: `now` is the reading at the start and `later` is any later
reading.

Files:

| File | Module | Contents |
|---|---|---|
| `results.dfy` | `Results` | `Option` and `Outcome` |
| `json.dfy` | `Json` | the JSON datatype, key lookup and JavaScript truthiness |
| `merge_arrays.dfy` | `MergeArrays` | `concat`, the array options, `union` and `intersection` |
| `merge_objects.dfy` | `MergeObjects` | the object strategies and key prefixes |
| `merge_engine.dfy` | `MergeEngine` | the mode switch, transforms, statistics and error handling |
| `merge_array_examples.dfy` | `MergeArrayExamples` | the union and intersection cases of the block's tests |
| `loop_engine.dfy` | `LoopEngine` | the loop block |
| `stop_error.dfy` | `StopError` | the stop-and-error block |
| `wait_engine.dfy` | `WaitEngine` | the wait block |

## Model

| member | source | states |
|---|---|---|
| MergeArrays.ConcatOntoAppends | apps/sim/blocks/blocks/merge_execution.ts:271-281 | the concatenating `reduce` only appends to its accumulator, so starting it from any prefix prepends that prefix |
| MergeArrays.ConcatSplits | apps/sim/blocks/blocks/merge_execution.ts:271-281 | concatenating two groups of inputs is concatenating each group and joining the results |
| MergeArrays.ConcatSingle | apps/sim/blocks/blocks/merge_execution.ts:272-278 | one input contributes nothing when null, its elements when an array, and itself as a one-element array otherwise |
| MergeArrays.ConcatLength | apps/sim/blocks/blocks/merge_execution.ts:271-281 | the concatenation is exactly as long as the coerced inputs put together |
| MergeArrays.DedupeFrom | apps/sim/blocks/blocks/merge_execution.ts:286-323 | duplicate removal never adds items and keeps only items that were in the input |
| MergeArrays.DedupeIdentitiesFresh | apps/sim/blocks/blocks/merge_execution.ts:287-306 | no kept item has an identity already seen, and no two kept items share an identity |
| MergeArrays.DedupeComplete | apps/sim/blocks/blocks/merge_execution.ts:291-306 | every item without an identifier field is kept, and every unseen identity is represented among the kept items |
| MergeArrays.SeenBeforeMembers | apps/sim/blocks/blocks/merge_execution.ts:290-305 | the `seen` set at position i holds exactly the identities of the items before i |
| MergeArrays.FirstOfIdentityIffUnseen | apps/sim/blocks/blocks/merge_execution.ts:296-305 | an item is the first of its identity exactly when its identity is not yet in the `seen` set |
| MergeArrays.DedupeFromMatchesReference | apps/sim/blocks/blocks/merge_execution.ts:286-323 | the filter with a `seen` set equals the reference definition "keep an item when no earlier item has its identity" |
| MergeArrays.RemoveDuplicatesIsFirstOccurrences | apps/sim/blocks/blocks/merge_execution.ts:286-323 | duplicate removal keeps exactly the first item of each identity, plus the items without one, in input order |
| MergeArrays.RemoveDuplicatesByValue | apps/sim/blocks/blocks/merge_execution.ts:307-318 | removal by JSON text keeps every distinct value of the input exactly once and nothing else |
| MergeArrays.DroppedCountIsLengthDifference | apps/sim/blocks/blocks/merge_execution.ts:298-321 | the number of items the filter drops equals the input length minus the output length, which is the `duplicatesRemoved` count |
| MergeArrays.Insert | apps/sim/blocks/blocks/merge_execution.ts:333-348 | inserting one item into a sorted run adds exactly that item |
| MergeArrays.CompareDecidesOrder | apps/sim/blocks/blocks/merge_execution.ts:333-361 | on integer keys the comparator is positive exactly when two items are out of order, and that order is total and transitive |
| MergeArrays.InsertKeepsSorted | apps/sim/blocks/blocks/merge_execution.ts:333-348 | inserting a keyed item into a sorted keyed run leaves it sorted |
| MergeArrays.SortItems | apps/sim/blocks/blocks/merge_execution.ts:326-363 | the sort option returns a permutation of its input which, when every item has an integer key, is ordered in the requested direction |
| MergeArrays.LeavesAppend | apps/sim/blocks/blocks/merge_execution.ts:378-389 | the non-array values of a concatenation are those of each part, in order |
| MergeArrays.NestingDepthAppend | apps/sim/blocks/blocks/merge_execution.ts:378-389 | the nesting depth of a concatenation is the larger of the parts' depths |
| MergeArrays.FlattenKeepsLeaves | apps/sim/blocks/blocks/merge_execution.ts:378-389 | flattening to any depth keeps every non-array value, in order |
| MergeArrays.FlattenRemovesLevels | apps/sim/blocks/blocks/merge_execution.ts:378-389 | flattening d levels lowers the nesting depth by d, down to zero |
| MergeArrays.FlattenUnboundedIsLeaves | apps/sim/blocks/blocks/merge_execution.ts:366-369 | flattening with no depth or depth 0 (`Infinity`) gives all non-array values, leaving no nesting |
| MergeArrays.FlattenFlatIsIdentity | apps/sim/blocks/blocks/merge_execution.ts:378-389 | flattening an array with no nested arrays changes nothing |
| MergeArrays.ConcatWithoutOptions | apps/sim/blocks/blocks/merge_execution.ts:263-373 | with no array option on, `concat` is plain concatenation and its length is the sum of the coerced lengths |
| MergeArrays.ArrayOptionsKeepLeaves | apps/sim/blocks/blocks/merge_execution.ts:284-370 | without duplicate removal or sorting, the options keep every non-array value in order |
| MergeArrays.UnionItemsIsDedupe | apps/sim/blocks/blocks/merge_execution.ts:593-603 | the union's inner loop appends exactly the items not yet seen, first occurrence only, and marks all of them seen |
| MergeArrays.DedupeByValueAppend | apps/sim/blocks/blocks/merge_execution.ts:591-603 | removal by value over two parts is removal over the first, then over the second with the first's values already seen |
| MergeArrays.UnionOntoIsDedupe | apps/sim/blocks/blocks/merge_execution.ts:580-603 | the union's outer loop equals value-based duplicate removal over the concatenated coerced inputs |
| MergeArrays.UnionIsDedupeOfConcat | apps/sim/blocks/blocks/merge_execution.ts:572-645 | without sorting, `union` holds each value of any input exactly once, nothing else, in first-seen order |
| MergeArrays.NonEmptyArrays | apps/sim/blocks/blocks/merge_execution.ts:659-665 | the arrays the intersection considers are all non-empty |
| MergeArrays.ArraysContainingBound | apps/sim/blocks/blocks/merge_execution.ts:681-695 | an item's count is at most the number of arrays, and reaches it exactly when every array contains the item |
| MergeArrays.KeepCountedMembers | apps/sim/blocks/blocks/merge_execution.ts:697-703 | the selected items are exactly the candidates present in every array |
| MergeArrays.KeepCountedDistinct | apps/sim/blocks/blocks/merge_execution.ts:697-703 | selecting from distinct candidates yields distinct items |
| MergeArrays.FlatMembers | apps/sim/blocks/blocks/merge_execution.ts:681-695 | a value is among the candidates exactly when some array contains it |
| MergeArrays.IntersectionIsCommonValues | apps/sim/blocks/blocks/merge_execution.ts:650-745 | with two or more non-empty inputs and no sort, the intersection holds exactly the values common to every non-empty input, each once |
| MergeArrays.ConcatExample | apps/sim/blocks/blocks/merge.test.ts:45-66 | `[1,2,3]` and `[4,5,6]` concatenate to `[1,2,3,4,5,6]` |
| MergeArrays.DedupeStep | apps/sim/blocks/blocks/merge_execution.ts:307-318 | one step of the value filter: an unseen item is kept and marked seen, a seen item is dropped |
| MergeArrays.KeepCountedStep | apps/sim/blocks/blocks/merge_execution.ts:699-703 | one step of the selection keeps a candidate exactly when it is in every array |
| MergeArrayExamples.OverlappingSpliced | apps/sim/blocks/blocks/merge.test.ts:141-162 | the union test's inputs `[1,2,3,4]` and `[3,4,5,6]` concatenate to `[1,2,3,4,3,4,5,6]` |
| MergeArrayExamples.SplicedDeduped | apps/sim/blocks/blocks/merge.test.ts:141-162 | value-based duplicate removal of that sequence gives `[1..6]` |
| MergeArrayExamples.UnionExample | apps/sim/blocks/blocks/merge.test.ts:141-162 | the union of the test's inputs is `[1,2,3,4,5,6]` |
| MergeArrayExamples.OverlappingCount | apps/sim/blocks/blocks/merge.test.ts:164-185 | in the intersection test, the count of each value is the number of inputs containing it |
| MergeArrayExamples.IntersectionExample | apps/sim/blocks/blocks/merge.test.ts:164-185 | the intersection of `[1,2,3,4]` and `[3,4,5,6]` is `[3,4]` |
| MergeObjects.AsObject | apps/sim/blocks/blocks/merge_execution.ts:403-409 | null becomes the empty object, an object stays itself, and anything else is wrapped as `{value: …}` |
| MergeObjects.Objects | apps/sim/blocks/blocks/merge_execution.ts:403-409 | every input is coerced, in key order |
| MergeObjects.KeySetAppend | apps/sim/blocks/blocks/merge_execution.ts:415-418 | the keys of joined entry lists are the union of their keys |
| MergeObjects.LastLookup | apps/sim/blocks/blocks/merge_execution.ts:415-418 | a key has a last binding exactly when the key is present |
| MergeObjects.LastLookupIsLookup | apps/sim/blocks/blocks/merge_execution.ts:415-418 | with distinct keys, the last binding is the only binding |
| MergeObjects.Spread | apps/sim/blocks/blocks/merge_execution.ts:417 | `{...acc, ...obj}` has the keys of both, keeps keys distinct, and takes each key from `obj` when `obj` has it |
| MergeObjects.AllKeys | apps/sim/blocks/blocks/merge_execution.ts:415-456 | a key belongs to the inputs exactly when some input object has it |
| MergeObjects.ReplaceKeys | apps/sim/blocks/blocks/merge_execution.ts:415-418 | `replace` produces every key of every input exactly once |
| MergeObjects.ReplaceLastWins | apps/sim/blocks/blocks/merge_execution.ts:415-418 | under `replace`, a key takes its value from the last input that has it |
| MergeObjects.Without | apps/sim/blocks/blocks/merge_execution.ts:423-431 | deleting the accumulator's keys from an object removes exactly those keys and leaves the other bindings |
| MergeObjects.KeepKeys | apps/sim/blocks/blocks/merge_execution.ts:420-434 | `keep` produces every key of every input exactly once |
| MergeObjects.KeepFirstWins | apps/sim/blocks/blocks/merge_execution.ts:420-434 | under `keep`, a key takes its value from the first input that has it |
| MergeObjects.DeepMerge | apps/sim/blocks/blocks/merge_execution.ts:470-503 | a deep merge has the keys of target and source, and keeps them distinct when the target's are |
| MergeObjects.DeepMergeEmpty | apps/sim/blocks/blocks/merge_execution.ts:470-503 | deep-merging an empty source changes nothing |
| MergeObjects.DeepMergeValues | apps/sim/blocks/blocks/merge_execution.ts:477-500 | a key missing from the source keeps the target's value; two plain objects under one key merge recursively; otherwise the source's value wins |
| MergeObjects.DeepKeys | apps/sim/blocks/blocks/merge_execution.ts:436-439 | `deep` produces every key of every input exactly once |
| MergeObjects.RenameFirstMatch | apps/sim/blocks/blocks/merge_execution.ts:515-525 | a key is prefixed by the first rule whose source key it starts with, and kept as is when no rule matches |
| MergeObjects.PrefixedKeys | apps/sim/blocks/blocks/merge_execution.ts:508-532 | the prefixed object's keys are the renamed keys of the original, without repeats |
| MergeObjects.RenamedAdd | apps/sim/blocks/blocks/merge_execution.ts:515-528 | renaming a key set one key at a time adds that key's new name |
| MergeObjects.PrefixedValues | apps/sim/blocks/blocks/merge_execution.ts:527 | when renaming keeps keys apart, every value is found under its key's new name |
| MergeObjects.ReplaceExample | apps/sim/blocks/blocks/merge.test.ts:68-89 | `{a:1,b:2}` and `{b:3,c:4}` under `replace` give `a:1, b:3, c:4` |
| MergeObjects.KeepExample | apps/sim/blocks/blocks/merge.test.ts:91-112 | the same inputs under `keep` give `a:1, b:2, c:4` |
| MergeObjects.DeepCollisionExample | apps/sim/blocks/blocks/merge.test.ts:114-139 | in the nested objects of the deep test, `y` takes the later value 3 |
| MergeObjects.PrefixExample | apps/sim/blocks/blocks/merge.test.ts:322-354 | with prefix rules keyed `input1`/`input2`, none of the keys `a`..`d` starts with a rule's key, so no key is renamed and `src1_a` is absent |
| MergeObjects.PrefixExampleValues | apps/sim/blocks/blocks/merge.test.ts:322-354 | the values of that test keep their original keys |
| MergeEngine.InputCounts | apps/sim/blocks/blocks/merge_execution.ts:111-121 | one count per input, in key order: 0 for null, the length of an array, 1 otherwise |
| MergeEngine.Fallback | apps/sim/blocks/blocks/merge_execution.ts:236-257 | a failure propagates exactly under the `stop` strategy |
| MergeEngine.ExecuteMerge | apps/sim/blocks/blocks/merge_execution.ts:96-258 | the merge fails only under `stop`; a success is a simulation echo exactly in simulation mode, and otherwise carries statistics exactly when they are collected |
| MergeEngine.Proceed | apps/sim/blocks/blocks/merge_execution.ts:149-257 | the same guarantees hold from the point after the pre-transform |
| MergeEngine.ProceedCarriesErrors | apps/sim/blocks/blocks/merge_execution.ts:142-145 | an error recorded by the pre-transform leaves the data unchanged and precedes every later error in the statistics |
| MergeEngine.SimulationShortCircuit | apps/sim/blocks/blocks/merge_execution.ts:150-159 | simulation mode echoes the inputs and configuration with statistics of zero output and no error, whatever the merge code does |
| MergeEngine.ErrorPolicy | apps/sim/blocks/blocks/merge_execution.ts:236-257 | a failing merge is re-raised under `stop`, becomes `{}` under `default` and `null` under `ignore`, and is recorded as one `execution` error |
| MergeEngine.SuccessfulMerge | apps/sim/blocks/blocks/merge_execution.ts:111-235 | a successful merge returns its result with per-input counts, an output count by the result's kind, no conflicts and no errors |
| MergeEngine.PreTransformFailure | apps/sim/blocks/blocks/merge_execution.ts:125-147 | a failing pre-transform aborts under `stop`; otherwise the merge runs on the original inputs and the error is recorded first |
| MergeEngine.PostTransformFailure | apps/sim/blocks/blocks/merge_execution.ts:194-216 | a failing post-transform aborts under `stop`; otherwise the untransformed result is returned and the error recorded |
| MergeEngine.UnknownModeFails | apps/sim/blocks/blocks/merge_execution.ts:189-190 | an unknown mode fails with a message naming it |
| MergeEngine.AutoMergeChoice | apps/sim/blocks/blocks/merge_execution.ts:537-567 | `auto` acts as `concat` when every input is an array or null, as `merge` when every input is an object or null, and as `concat` otherwise |
| MergeEngine.ObjectMergeKeys | apps/sim/blocks/blocks/merge_execution.ts:394-465 | the built-in object strategies succeed with distinct keys: all input keys, renamed when prefixing is on |
| MergeEngine.ConcatCounts | apps/sim/blocks/blocks/merge_execution.ts:218-227 | with no array option, `concat` reports as output count the total coerced length of the inputs |
| MergeEngine.CustomErrorExample | apps/sim/blocks/blocks/merge.test.ts:409-433 | a throwing custom merge under `default` returns `{}` and records one error wrapping the thrown message |
| LoopEngine.ItemAt | apps/sim/blocks/blocks/loop_execution.ts:410-450 | every index below the collection size has an item |
| LoopEngine.Pairs | apps/sim/blocks/blocks/loop_execution.ts:418-426 | an object's items are `{key, value}` pairs, one per entry, in key order |
| LoopEngine.Span | apps/sim/blocks/blocks/loop_execution.ts:387-391 | a range holds `end - start + 1` consecutive integers from `start`, or none |
| LoopEngine.SizeAndItems | apps/sim/blocks/blocks/loop_execution.ts:377-450 | the size and item functions agree with one list of elements per collection type |
| LoopEngine.Reach | apps/sim/blocks/blocks/loop_execution.ts:121-150 | the number of items visited is the size or the positive limit, whichever is smaller; a limit of 0 or below leaves the whole collection |
| LoopEngine.ProcessFrom | apps/sim/blocks/blocks/loop_execution.ts:455-482 | processing from i to n returns one value per index |
| LoopEngine.ProcessFromMeaning | apps/sim/blocks/blocks/loop_execution.ts:455-482 | processing succeeds exactly when every item transform succeeds, and then returns the transformed items in order |
| LoopEngine.ProcessAllUntransformed | apps/sim/blocks/blocks/loop_execution.ts:455-482 | without an item transform, processing returns the elements up to the size or the limit |
| LoopEngine.SliceIsElements | apps/sim/blocks/blocks/loop_execution.ts:285-308 | a batch's slice is the corresponding range of the collection's elements |
| LoopEngine.ProcessFromSameShape | apps/sim/blocks/blocks/loop_execution.ts:455-482 | processing does not depend on the error policy, the exit condition or the result transform |
| LoopEngine.ShapeSameShape | apps/sim/blocks/blocks/loop_execution.ts:257-308 | the mode-specific result does not depend on the error policy, the exit condition or the result transform |
| LoopEngine.AfterItemSkipsPolicy | apps/sim/blocks/blocks/loop_execution.ts:208-352 | once an item is transformed, the rest of the step does not depend on the error policy |
| LoopEngine.ExecuteLoop | apps/sim/blocks/blocks/loop_execution.ts:96-372 | every step reports the collection size and an iteration count of at least the index; past the limit or the end it returns the accumulator complete and untouched; a parallel step always completes |
| LoopEngine.SequentialStep | apps/sim/blocks/blocks/loop_execution.ts:257-269 | a plain sequential step returns the item at the index and appends it to the accumulator; it completes exactly on the last index the size and limit allow |
| LoopEngine.RunSequential | apps/sim/blocks/blocks/loop.ts:355-362 | the block's driver goes on only in sequential mode, resuming after the index the step reports and feeding back its data as the accumulator; a sequential run ends on a complete result, and any other mode returns its single step |
| LoopEngine.SequentialRunRebuilds | apps/sim/blocks/blocks/loop_execution.ts:208-269 | the repeated sequential run accumulates every element from the index up to the size or the limit |
| LoopEngine.SequentialRunIsCollection | apps/sim/blocks/blocks/loop_execution.ts:96-269 | without a limit, a full sequential run accumulates the whole collection |
| LoopEngine.BreakStops | apps/sim/blocks/blocks/loop_execution.ts:184-195 | under `break`, a failing item transform completes the loop with the accumulator unchanged and one error |
| LoopEngine.IgnoreIsDefault | apps/sim/blocks/blocks/loop_execution.ts:196-205 | under `ignore`, a failing item transform behaves exactly as under `default`, counting the error |
| LoopEngine.ContinueSkipsOne | apps/sim/blocks/blocks/loop_execution.ts:196-198 | under `continue`, a failing item transform hands the step to the next index with the accumulator untouched |
| LoopEngine.SequentialPasses | apps/sim/blocks/blocks/loop_execution.ts:208-269 | a sequential step on a passing item, with no exit condition or result transform, pushes the transformed item and stays incomplete at its own index before the last one |
| LoopEngine.ContinueResumesAfterSkip | apps/sim/blocks/blocks/loop.ts:355-362 | under `continue`, a run whose item fails and whose next item passes goes on two indices later with only the next item's transform appended, so the skipped item is neither pushed nor revisited |
| LoopEngine.ContinueSkipsToEnd | apps/sim/blocks/blocks/loop_execution.ts:196-198 | under `continue`, when every transform fails the loop skips to the end and returns the accumulator unchanged |
| LoopEngine.ExitConditionStops | apps/sim/blocks/blocks/loop_execution.ts:214-236 | a truthy exit condition completes the loop at the current item |
| LoopEngine.ShapeCountsErrors | apps/sim/blocks/blocks/loop_execution.ts:257-308 | one more error before the mode step shows as exactly one more error in its result |
| LoopEngine.AfterItemExitError | apps/sim/blocks/blocks/loop_execution.ts:237-252 | a throwing exit condition is ignored except for one extra error |
| LoopEngine.ExitConditionErrorCounts | apps/sim/blocks/blocks/loop_execution.ts:214-252 | a step whose exit condition throws equals the step without one, plus one error |
| LoopEngine.ParallelStep | apps/sim/blocks/blocks/loop_execution.ts:270-284 | a plain parallel step returns every element up to the limit at once and completes |
| LoopEngine.ParallelFailureCaught | apps/sim/blocks/blocks/loop_execution.ts:270-284 | a transform failing during parallel processing ends in the global catch: complete, with the pushed accumulator and one error |
| LoopEngine.ResultTransformWaits | apps/sim/blocks/blocks/loop_execution.ts:324-352 | a sequential step before the last index never applies the result transform |
| LoopEngine.AfterItemFailedResult | apps/sim/blocks/blocks/loop_execution.ts:333-351 | a step whose result transform always fails returns what the step without it returns |
| LoopEngine.ResultTransformFailureKeeps | apps/sim/blocks/blocks/loop_execution.ts:324-352 | a result transform that always fails leaves every loop result as if it were absent |
| LoopEngine.RunBatches | apps/sim/blocks/blocks/loop_execution.ts:285-308 | repeated batch steps produce at least one batch |
| LoopEngine.BatchStep | apps/sim/blocks/blocks/loop_execution.ts:285-308 | a plain batch step returns the slice from the index, reports the slice's last index, and completes when the slice reaches the end or the limit |
| LoopEngine.RunBatchesStep | apps/sim/blocks/blocks/loop_execution.ts:285-308 | one batch step is a non-empty slice followed by the batches from its end |
| LoopEngine.PartitionsCons | apps/sim/blocks/blocks/loop_execution.ts:285-308 | adding a full batch in front of a partition partitions the joined sequence |
| LoopEngine.BatchesPartition | apps/sim/blocks/blocks/loop_execution.ts:285-308 | without a limit, repeated batch steps cut the collection into full batches and a non-empty last batch |
| LoopEngine.RangeExample | apps/sim/blocks/blocks/loop.test.ts:84-103 | the range `{start: 5, end: 8}` has the four items 5, 6, 7, 8 |
| LoopEngine.ObjectExample | apps/sim/blocks/blocks/loop.test.ts:66-82 | an object's items are its `{key, value}` pairs in order |
| LoopEngine.CountExample | apps/sim/blocks/blocks/loop_execution.ts:398-446 | a positive number as custom collection counts from 0, and a negative one is empty |
| StopError.ExecuteStopError | apps/sim/blocks/blocks/stop_error_execution.ts:86-222 | `stopped`, `errorThrown` and the statistics' `errorThrown` always agree; the statistics carry the timestamp, severity and strategy |
| StopError.StopsIffFires | apps/sim/blocks/blocks/stop_error_execution.ts:103-205 | the block stops exactly when it is not simulating and has no condition or a truthy one, and then echoes the configured error and records a set condition as evaluated with its value |
| StopError.LoggedIffEnabled | apps/sim/blocks/blocks/stop_error_execution.ts:150-184 | when the block fires, the error is marked logged exactly when logging is on |
| StopError.SimulationEchoes | apps/sim/blocks/blocks/stop_error_execution.ts:103-123 | simulation stops nothing, echoes the configuration and ignores the input and the condition |
| StopError.ConditionFalse | apps/sim/blocks/blocks/stop_error_execution.ts:125-146 | a falsy condition stops nothing, logs nothing, and records that it was evaluated and its value |
| StopError.ConditionThrows | apps/sim/blocks/blocks/stop_error_execution.ts:207-221 | a throwing condition stops nothing and reports the exception's message |
| StopError.NoConditionIgnoresCode | apps/sim/blocks/blocks/stop_error_execution.ts:126-147 | without a condition the condition code is never run or recorded |
| StopError.Upper | apps/sim/blocks/blocks/stop_error_execution.ts:157 | upper-casing keeps the length and maps exactly the ASCII lower-case letters |
| StopError.LabelValues | apps/sim/blocks/blocks/stop_error_execution.ts:157 | the labels are `WARNING`, `ERROR` and `FATAL` |
| StopError.LogMessageParts | apps/sim/blocks/blocks/stop_error_execution.ts:151-161 | the log line is the optional timestamp, then label, colon and message, then a code suffix exactly when a non-empty code is set |
| StopError.ReadSeverityOfLabel | apps/sim/blocks/blocks/stop_error_execution.ts:157 | a line opening with a label and colon is read back as that severity |
| StopError.ReadSeverityOfLog | apps/sim/blocks/blocks/stop_error_execution.ts:151-161 | a log line without timestamp is read back as the configured severity |
| StopError.LogExample | apps/sim/blocks/blocks/stop_error.test.ts:25-45 | the coded error of the tests logs as `ERROR: Erreur avec code (Code: ERR_001)` |
| WaitEngine.FixedDelayMonotone | apps/sim/blocks/blocks/wait_execution.ts:218-231 | a larger delay value never gives a shorter wait, in any unit |
| WaitEngine.FixedDelayUnits | apps/sim/blocks/blocks/wait_execution.ts:218-231 | conversion keeps the sign, and an hour is 60 minutes, a minute 60 seconds, a second 1000 milliseconds |
| WaitEngine.ExecuteConditionalWait | apps/sim/blocks/blocks/wait_execution.ts:236-336 | a completed condition wait has no error, and the start time is kept |
| WaitEngine.ExecuteWait | apps/sim/blocks/blocks/wait_execution.ts:86-213 | the statistics start now and record the mode; an end time comes with a duration and equals the start plus it; an error means not completed, with that error as the only one recorded; a completed wait is neither failed nor interrupted |
| WaitEngine.SimulationCompletes | apps/sim/blocks/blocks/wait_execution.ts:98-111 | simulation completes at once in every mode, whatever the condition and the clock |
| WaitEngine.FixedWait | apps/sim/blocks/blocks/wait_execution.ts:117-195 | a fixed wait completes after the converted delay, or at once when it is not positive |
| WaitEngine.UntilWait | apps/sim/blocks/blocks/wait_execution.ts:121-195 | a wait until a target completes at the target, or at once when the target is not in the future |
| WaitEngine.ConfigurationErrors | apps/sim/blocks/blocks/wait_execution.ts:121-160 | `until` without a target, `condition` without a condition, and an unknown mode fail with their messages |
| WaitEngine.UnknownModeMessage | apps/sim/blocks/blocks/wait_execution.ts:158-159 | the error of an unknown mode ends with the mode's name |
| WaitEngine.ConditionWaitOutcomes | apps/sim/blocks/blocks/wait_execution.ts:251-317 | the condition is checked once: truthy completes, falsy with a timeout interrupts at the timeout, falsy without one leaves the wait open |
| WaitEngine.ConditionWaitThrows | apps/sim/blocks/blocks/wait_execution.ts:319-335 | a throwing condition fails the wait with its message, with no check counted |

## Left out

- Logging to the console, the simulated log file and stack traces are left out. They are output only. The log line itself is modelled (`StopError.LogMessage`).
- Clock readings are parameters. The merge `processingTime` is not modelled. A wait failure reads `Date.now()` twice, and both readings are taken as the same `later` value. `toISOString` formatting is left out: the timestamp text is a parameter of `StopError.LogMessage`.
- A wait's `targetDate` is given already in milliseconds. `new Date(string)` parsing is not modelled. A missing target is `None`.
- User code (`new Function(…)`) is a function parameter returning `Ok` or `Err`. JavaScript evaluation is not modelled.
- A merge pre-transform that returns a value other than an object is not modelled. The model's pre-transform returns inputs again.
- Merge `conflicts` and `duplicatesRemoved` are not modelled. The functions that update them increment a `stats` that is not the one `executeMerge` returns, so the returned `conflicts` is always 0. `MergeArrays.DroppedCountIsLengthDifference` states the count duplicate removal would report.
- MergeArrays.SortItems: models only integer sort keys. JavaScript's `<` on mixed types, strings and objects, and the engine's sort algorithm, are not modelled. Items without an integer key compare equal to everything, and the ordering guarantee is stated only when every item has a key.
- MergeArrays.DedupeFrom: identities are compared by value. A JavaScript `Set` compares object identifiers by reference. An identifier field is only looked up in objects: `field in item` on an array is not modelled.
- MergeArrays.IntersectionIsCommonValues: stated without sorting. A single non-empty input is returned as it is, unsorted and with its duplicates, as the source does.
- Object key order follows the entries as given. JavaScript's ordering of integer-like keys first is not modelled.
- Configuration fields the engines never read are not modelled:
  - merge `batchProcessing`;
  - loop `includeMetadata`, `simulationMode`, `exitStrategy` and `overlap`;
  - wait `interruptStrategy`, `interruptSignal`, `interruptTimeout`, `checkInterval` and `retryCount`.
- The loop's `stats.errors` list is not modelled; only `errorCount` is.
- The caller's accumulator array, which the source mutates with `push`, is modelled by value. The pushed sequence is visible wherever the source returns it: as the data of a sequential step, of a truthy exit condition and of the parallel catch. In batch mode and in a successful parallel step the source returns other data, and the push onto the caller's array is not modelled there.
- LoopEngine.RunSequential: when results are not accumulated, the block's driver feeds the step's data, the item, back as the next accumulator. Only an exit condition could read it. The model keeps the previous accumulator sequence instead.
- JSON numbers are modelled as integers (`JInt`). Non-integer numbers, `NaN` and `Infinity` are not modelled, either as items or as configuration. The fields affected are:
  - wait `delay` (a `1.5`-second delay is 1500 ms in the source), the target date and the condition `timeout`;
  - loop `limit` and `batchSize` (a fractional limit never equals `currentIndex + 1`, so the source completes only through the early return once the index has passed the limit);
  - the numeric collection of a custom loop, and range bounds.
- Range bounds other than numbers, null and booleans give an empty range in the model. The `start || 0` default is modelled; fractional bounds are not.
- LoopEngine.BatchesPartition: stated only without a limit. With a limit, a batch's slice is not cut at the limit, and completion is what `LoopEngine.BatchStep` states.
- LoopEngine.ResultTransformWaits: stated for `sequential` without the `continue` policy. Under `continue`, the recursive call reaches the last index itself.
- LoopEngine.IgnoreIsDefault: the code keeps the untransformed item under `ignore`, exactly as under `default`. The block's test expects `undefined`. The model follows the code.
- A loop result transform that fails counts its error in the statistics of the current step only. The returned result keeps the count from before the failure, as the code does (`LoopEngine.ResultTransformFailureKeeps`).
- The merge key-prefix test expects every key renamed. The code matches each key against the prefix rules' source names (`input1`, `input2`), so keys `a`..`d` stay as they are. The model follows the code (`MergeObjects.PrefixExample`).
- Wait: the `conditionOptions` default `checkInterval` and `retryCount` are unused by the code and not modelled. The condition is checked once, as the code does; the repeated polling the configuration suggests is not implemented.

=== FILE: json.dfy ===
/**
 * The data the engines work on: JSON-like values whose objects keep their
 * keys in insertion order, so that structural equality of two values agrees
 * with equality of their JSON.stringify texts.
 */
module Json {
  import opened Results

  datatype Json =
    | JNull
    | JBool(b: bool)
    | JInt(n: int)
    | JStr(s: string)
    | JArr(items: seq<Json>)
    | JObj(entries: seq<Entry>)

  /** One own property of an object. */
  datatype Entry = Entry(key: string, value: Json)

  /** The keys of an entry list. */
  function KeySet(es: seq<Entry>): (ks: set<string>)
    ensures forall i :: 0 <= i < |es| ==> es[i].key in ks
    ensures forall k :: k in ks ==> exists i :: 0 <= i < |es| && es[i].key == k
  {
    if |es| == 0 then {} else {es[0].key} + KeySet(es[1..])
  }

  /** A well-formed object: no key occurs twice. */
  predicate DistinctKeys(es: seq<Entry>) {
    |es| == 0 || (es[0].key !in KeySet(es[1..]) && DistinctKeys(es[1..]))
  }

  /** The value stored under `k`, as `obj[k]` reads it. */
  function Lookup(es: seq<Entry>, k: string): (r: Option<Json>)
    ensures r.Some? <==> k in KeySet(es)
  {
    if |es| == 0 then None
    else if es[0].key == k then Some(es[0].value)
    else Lookup(es[1..], k)
  }

  /** Property assignment `obj[k] = v`: an existing key keeps its position and
      takes the new value, a new key is appended. */
  function Put(es: seq<Entry>, k: string, v: Json): (r: seq<Entry>)
    ensures KeySet(r) == KeySet(es) + {k}
    ensures Lookup(r, k) == Some(v)
    ensures forall k' :: k' != k ==> Lookup(r, k') == Lookup(es, k')
    ensures |r| == if k in KeySet(es) then |es| else |es| + 1
    ensures DistinctKeys(es) ==> DistinctKeys(r)
  {
    if |es| == 0 then [Entry(k, v)]
    else if es[0].key == k then [Entry(k, v)] + es[1..]
    else [es[0]] + Put(es[1..], k, v)
  }

  /** JavaScript truthiness of a value. */
  predicate Truthy(v: Json) {
    match v
    case JNull => false
    case JBool(b) => b
    case JInt(n) => n != 0
    case JStr(s) => s != ""
    case _ => true
  }

  /** A value that `typeof v === 'object' && v !== null && !Array.isArray(v)`
      accepts. */
  predicate IsPlainObject(v: Json) {
    v.JObj?
  }

  /** The decimal text of a natural number, as JavaScript writes an array
      index when it is used as a property key. */
  function NatToString(n: nat): (s: string)
    ensures |s| >= 1
    ensures forall i :: 0 <= i < |s| ==> '0' <= s[i] <= '9'
    decreases n
  {
    var d := ['0', '1', '2', '3', '4', '5', '6', '7', '8', '9'][n % 10];
    if n < 10 then [d] else NatToString(n / 10) + [d]
  }

  /** The own enumerable properties of a value as `for…in` and `Object.keys`
      see them: an object's entries, an array's or a string's indices, and
      nothing for a primitive. */
  function OwnEntries(v: Json): (es: seq<Entry>)
    ensures v.JObj? ==> es == v.entries
    ensures v.JArr? ==> |es| == |v.items|
    ensures v.JStr? ==> |es| == |v.s|
    ensures v.JNull? || v.JBool? || v.JInt? ==> es == []
  {
    match v
    case JObj(es) => es
    case JArr(xs) => seq(|xs|, i requires 0 <= i < |xs| => Entry(NatToString(i), xs[i]))
    case JStr(s) => seq(|s|, i requires 0 <= i < |s| => Entry(NatToString(i), JStr([s[i]])))
    case _ => []
  }

  /** The `{key, value}` pair an iteration over an object yields. */
  function KeyValuePair(e: Entry): Json {
    JObj([Entry("key", JStr(e.key)), Entry("value", e.value)])
  }
}

=== FILE: loop_engine.dfy ===
/**
 * One step of the loop block: the collection's size and items, the limit and
 * exhaustion checks, the item transform under the four error policies, the
 * exit condition, and the shape of the result in sequential, parallel and
 * batch mode. User code (the item transform, the exit condition and the
 * result transform) is a function parameter that returns `Ok` or `Err`.
 */
module LoopEngine {
  import opened Results
  import opened Json

  datatype CollectionType =
    | ArrayCollection
    | ObjectCollection
    | RangeCollection
    | CustomCollection
    | UnknownCollection(name: string)

  datatype LoopMode = Sequential | Parallel | Batch | UnknownMode(name: string)

  datatype ErrorHandling = Ignore | Break | Continue | Default

  /** The configuration fields the step reads. An absent string field is the
      empty string, and an absent batch size is 0: both are falsy. */
  datatype LoopConfig = LoopConfig(
    collectionType: CollectionType,
    mode: LoopMode,
    limit: int,
    batchSize: int,
    exitCondition: string,
    itemTransform: string,
    resultTransform: string,
    errorHandling: ErrorHandling,
    accumulateResults: bool)

  datatype LoopStats = LoopStats(
    totalItems: nat,
    processedItems: int,
    skippedItems: nat,
    errorCount: nat,
    iterationCount: nat)

  /** `currentItem`, `currentIndex` and `isLastIteration` are absent on the
      early returns. */
  datatype LoopResult = LoopResult(
    data: Json,
    currentItem: Option<Json>,
    currentIndex: Option<int>,
    isLastIteration: Option<bool>,
    isComplete: bool,
    stats: LoopStats)

  /** The user code a step may run: the item transform gets the item, its
      index and the collection; the exit condition also gets the
      accumulator; the result transform gets the result data, the
      collection and the step's statistics. */
  datatype LoopCode = LoopCode(
    itemTransform: (string, Json, nat, Json) -> Outcome<Json>,
    exitCondition: (string, Json, nat, Json, seq<Json>) -> Outcome<Json>,
    resultTransform: (string, Json, Json, LoopStats) -> Outcome<Json>)

  // ---------------------------------------------------------------------
  // The collection
  // ---------------------------------------------------------------------

  /** The number a range bound stands for in `end - start + 1`: integers,
      and `null` and booleans as JavaScript coerces them. */
  function RangeBound(v: Json): Option<int> {
    match v
    case JInt(n) => Some(n)
    case JNull => Some(0)
    case JBool(b) => Some(if b then 1 else 0)
    case _ => None
  }

  /** The `start` and `end` of an object that has both keys. */
  function RangeBounds(c: Json): Option<(int, int)> {
    if !c.JObj? then None
    else
      match (Lookup(c.entries, "start"), Lookup(c.entries, "end"))
      case (Some(s), Some(e)) =>
        (match (RangeBound(s), RangeBound(e))
         case (Some(lo), Some(hi)) => Some((lo, hi))
         case _ => None)
      case _ => None
  }

  /** `getCollectionSize`. */
  function CollectionSize(c: Json, t: CollectionType): nat {
    if c.JNull? then 0
    else
      match t
      case ArrayCollection => if c.JArr? then |c.items| else 0
      case ObjectCollection => if c.JArr? || c.JObj? then |OwnEntries(c)| else 0
      case RangeCollection =>
        (match RangeBounds(c)
         case Some((lo, hi)) => if hi - lo + 1 > 0 then hi - lo + 1 else 0
         case None => 0)
      case CustomCollection =>
        if c.JArr? then |c.items|
        else if c.JObj? then |c.entries|
        else if c.JInt? && c.n > 0 then c.n
        else 0
      case UnknownCollection(_) => 0
  }

  /** `getItemAtIndex`; `None` is `undefined`. */
  function ItemAt(c: Json, i: nat, t: CollectionType): (r: Option<Json>)
    ensures i < CollectionSize(c, t) ==> r.Some?
  {
    if c.JNull? then None
    else
      match t
      case ArrayCollection => if c.JArr? && i < |c.items| then Some(c.items[i]) else None
      case ObjectCollection =>
        if (c.JArr? || c.JObj?) && i < |OwnEntries(c)| then Some(KeyValuePair(OwnEntries(c)[i])) else None
      case RangeCollection =>
        (match RangeBounds(c)
         case Some((lo, _)) => Some(JInt(lo + i))
         case None => None)
      case CustomCollection =>
        if c.JArr? then (if i < |c.items| then Some(c.items[i]) else None)
        else if c.JObj? then (if i < |c.entries| then Some(KeyValuePair(c.entries[i])) else None)
        else if c.JInt? then Some(JInt(i))
        else None
      case UnknownCollection(_) => None
  }

  /** The `{key, value}` pairs of an entry list. */
  function Pairs(es: seq<Entry>): (r: seq<Json>)
    ensures |r| == |es|
    ensures forall i :: 0 <= i < |es| ==> r[i] == KeyValuePair(es[i])
  {
    seq(|es|, i requires 0 <= i < |es| => KeyValuePair(es[i]))
  }

  /** The integers from `lo` to `hi`, both included. */
  function Span(lo: int, hi: int): (r: seq<Json>)
    ensures |r| == if hi - lo + 1 > 0 then hi - lo + 1 else 0
    ensures forall i :: 0 <= i < |r| ==> r[i] == JInt(lo + i)
  {
    if hi < lo then [] else seq(hi - lo + 1, i => JInt(lo + i))
  }

  /** What an iteration over the collection visits, in order: a reference
      definition independent of the size and index functions. */
  function Elements(c: Json, t: CollectionType): seq<Json> {
    if c.JNull? then []
    else
      match t
      case ArrayCollection => if c.JArr? then c.items else []
      case ObjectCollection => if c.JArr? || c.JObj? then Pairs(OwnEntries(c)) else []
      case RangeCollection =>
        (match RangeBounds(c)
         case Some((lo, hi)) => Span(lo, hi)
         case None => [])
      case CustomCollection =>
        if c.JArr? then c.items
        else if c.JObj? then Pairs(c.entries)
        else if c.JInt? then Span(0, c.n - 1)
        else []
      case UnknownCollection(_) => []
  }

  /** The size is the number of elements, and the item at every index below
      it is that element. */
  lemma SizeAndItems(c: Json, t: CollectionType)
    ensures CollectionSize(c, t) == |Elements(c, t)|
    ensures forall i: nat :: i < CollectionSize(c, t) ==> ItemAt(c, i, t) == Some(Elements(c, t)[i])
  {
  }

  /** The item at one index is that element of the collection. */
  lemma ItemAtElement(c: Json, t: CollectionType, i: nat)
    requires i < CollectionSize(c, t)
    ensures i < |Elements(c, t)| && ItemAt(c, i, t) == Some(Elements(c, t)[i])
  {
    SizeAndItems(c, t);
  }

  // ---------------------------------------------------------------------
  // Processing everything at once (parallel mode)
  // ---------------------------------------------------------------------

  /** How many indices a run visits: the size, cut at a positive limit. */
  function Reach(size: nat, limit: int): (n: nat)
    ensures n <= size
    ensures limit > 0 ==> n <= limit
    ensures n == size || n == limit
    ensures limit <= 0 ==> n == size
    ensures limit > 0 ==> n == (if limit < size then limit else size)
  {
    if limit > 0 && limit < size then limit else size
  }

  /** The item transform applied to one item, or the item itself when no
      transform is configured. */
  function TransformItem(c: Json, config: LoopConfig, code: LoopCode, item: Json, i: nat): Outcome<Json> {
    if config.itemTransform == "" then Ok(item)
    else code.itemTransform(config.itemTransform, item, i, c)
  }

  const CustomCodeFailed := "Erreur dans le code personnalisé: "

  /** The loop of `processAllItems` from index `i` on: the first failing
      transform aborts the whole run. */
  function ProcessFrom(c: Json, config: LoopConfig, code: LoopCode, i: nat, n: nat): (r: Outcome<seq<Json>>)
    requires n <= CollectionSize(c, config.collectionType)
    ensures r.Ok? ==> |r.value| == n - i || (i > n && r.value == [])
    decreases n - i
  {
    if i >= n then Ok([])
    else
      match TransformItem(c, config, code, ItemAt(c, i, config.collectionType).value, i)
      case Err(m) => Err(CustomCodeFailed + m)
      case Ok(v) =>
        match ProcessFrom(c, config, code, i + 1, n)
        case Err(m) => Err(m)
        case Ok(rest) => Ok([v] + rest)
  }

  /** `processAllItems`. */
  function ProcessAllItems(c: Json, config: LoopConfig, code: LoopCode): Outcome<seq<Json>> {
    var size := CollectionSize(c, config.collectionType);
    ProcessFrom(c, config, code, 0, Reach(size, config.limit))
  }

  /** The transformed items from index `i` up to `n`, each one's transform
      succeeding, are what the loop returns; a failing index makes it fail. */
  lemma {:induction false} ProcessFromMeaning(c: Json, config: LoopConfig, code: LoopCode, i: nat, n: nat)
    requires i <= n <= CollectionSize(c, config.collectionType)
    ensures var r := ProcessFrom(c, config, code, i, n);
      var elems := Elements(c, config.collectionType);
      (r.Ok? <==> forall j :: i <= j < n ==> TransformItem(c, config, code, elems[j], j).Ok?) &&
      (r.Ok? ==>
        |r.value| == n - i &&
        forall j :: i <= j < n ==> r.value[j - i] == TransformItem(c, config, code, elems[j], j).value)
    decreases n - i
  {
    if i < n {
      var elems := Elements(c, config.collectionType);
      ItemAtElement(c, config.collectionType, i);
      var head := TransformItem(c, config, code, elems[i], i);
      var rest := ProcessFrom(c, config, code, i + 1, n);
      var r := ProcessFrom(c, config, code, i, n);
      ProcessFromMeaning(c, config, code, i + 1, n);
      if head.Err? {
        assert r.Err?;
      } else if rest.Err? {
        assert r.Err?;
      } else {
        assert r == Ok([head.value] + rest.value);
        forall j | i < j < n ensures r.value[j - i] == TransformItem(c, config, code, elems[j], j).value {
          assert r.value[j - i] == rest.value[j - (i + 1)];
        }
      }
    }
  }

  /** With no item transform, a parallel run returns the first `n` elements. */
  lemma ProcessAllUntransformed(c: Json, config: LoopConfig, code: LoopCode)
    requires config.itemTransform == ""
    ensures var size := CollectionSize(c, config.collectionType);
      ProcessAllItems(c, config, code) == Ok(Elements(c, config.collectionType)[..Reach(size, config.limit)])
  {
    var t := config.collectionType;
    var n := Reach(CollectionSize(c, t), config.limit);
    ProcessFromMeaning(c, config, code, 0, n);
    SizeAndItems(c, t);
    var r := ProcessFrom(c, config, code, 0, n);
    assert r.value == Elements(c, t)[..n];
  }

  // ---------------------------------------------------------------------
  // One step
  // ---------------------------------------------------------------------

  /** The data of an early return: the accumulator, or `null`. */
  function Accumulated(config: LoopConfig, acc: seq<Json>): Json {
    if config.accumulateResults then JArr(acc) else JNull
  }

  /** `isLastIteration` of the step at `index`. */
  predicate IsLastIndex(size: nat, limit: int, index: nat) {
    index == size - 1 || (limit > 0 && index == limit - 1)
  }

  /** Whether the step at `index` stops before touching an item. */
  predicate Exhausted(size: nat, limit: int, index: nat) {
    (limit > 0 && index >= limit) || index >= size
  }

  /** The batch size: `batchOptions.size || 10`. */
  function BatchSize(config: LoopConfig): int {
    if config.batchSize == 0 then 10 else config.batchSize
  }

  /** Where a batch starting at `index` ends: `min(index + size, total)`. */
  function BatchEnd(config: LoopConfig, size: nat, index: nat): int {
    if index + BatchSize(config) < size then index + BatchSize(config) else size
  }

  /** The items of `[lo, hi)`, looked up one by one. */
  function Slice(c: Json, t: CollectionType, lo: nat, hi: int): seq<Json>
    requires hi <= CollectionSize(c, t)
    decreases hi - lo
  {
    if hi <= lo then [] else [ItemAt(c, lo, t).value] + Slice(c, t, lo + 1, hi)
  }

  lemma {:induction false} SliceIsElements(c: Json, t: CollectionType, lo: nat, hi: int)
    requires lo <= hi <= CollectionSize(c, t)
    ensures Slice(c, t, lo, hi) == Elements(c, t)[lo..hi]
    decreases hi - lo
  {
    if lo < hi {
      SizeAndItems(c, t);
      SliceIsElements(c, t, lo + 1, hi);
      var elems := Elements(c, t);
      assert elems[lo..hi] == [elems[lo]] + elems[lo + 1..hi];
    }
  }

  /** The result of the step before the result transform, by mode. `item` is
      the processed item, `acc` the accumulator after the push, and `stats`
      the step's statistics. */
  function Shape(c: Json, config: LoopConfig, code: LoopCode, index: nat, acc: seq<Json>,
                 item: Json, isLast: bool, stats: LoopStats): (r: LoopResult)
    requires index < stats.totalItems == CollectionSize(c, config.collectionType)
    ensures r.stats.totalItems == stats.totalItems && r.stats.iterationCount == stats.iterationCount
    ensures config.mode == Parallel ==> r.isComplete
  {
    var data := if config.accumulateResults then JArr(acc) else item;
    match config.mode
    case Parallel =>
      if config.accumulateResults then
        match ProcessAllItems(c, config, code)
        case Err(_) =>
          // the global catch: no current item, one more error
          LoopResult(JArr(acc), None, None, None, true, stats.(errorCount := stats.errorCount + 1))
        case Ok(all) =>
          LoopResult(JArr(all), Some(item), Some(index), Some(true), true, stats.(processedItems := stats.totalItems))
      else LoopResult(item, Some(item), Some(index), Some(true), true, stats.(processedItems := stats.totalItems))
    case Batch =>
      var end := BatchEnd(config, stats.totalItems, index);
      var complete := end >= stats.totalItems || (config.limit > 0 && end >= config.limit);
      LoopResult(JArr(Slice(c, config.collectionType, index, end)), Some(item), Some(end - 1), Some(complete), complete,
        stats.(processedItems := end - index))
    case _ =>
      LoopResult(data, Some(item), Some(index), Some(isLast), isLast, stats)
  }

  /** Whether the shaped result came from the global catch. */
  predicate Caught(config: LoopConfig, r: LoopResult) {
    config.mode == Parallel && r.currentItem.None?
  }

  /** The result transform, run on the last iteration and always in parallel
      and batch mode; a failing transform leaves the result untransformed,
      and its error is counted only in the step's own statistics, which the
      result no longer shares. */
  function Finish(c: Json, config: LoopConfig, code: LoopCode, isLast: bool, stats: LoopStats, r: LoopResult): (r': LoopResult)
    ensures r' == r.(data := r'.data)
  {
    if Caught(config, r) then r
    else if config.resultTransform != "" && (isLast || config.mode == Parallel || config.mode == Batch) then
      match code.resultTransform(config.resultTransform, r.data, c, stats)
      case Ok(v) => r.(data := v)
      case Err(_) => r
    else r
  }

  /** The step after the item transform: push, exit condition, shape, result
      transform. `errors` counts the item transform's failure. */
  function AfterItem(c: Json, config: LoopConfig, code: LoopCode, index: nat, acc: seq<Json>,
                     item: Json, errors: nat): (r: LoopResult)
    requires index < CollectionSize(c, config.collectionType)
    ensures r.stats.totalItems == CollectionSize(c, config.collectionType) && r.stats.iterationCount == index
    ensures config.mode == Parallel ==> r.isComplete
    ensures config.mode == Sequential && !r.isComplete ==> r.currentIndex == Some(index)
  {
    var size := CollectionSize(c, config.collectionType);
    var isLast := IsLastIndex(size, config.limit, index);
    var acc' := if config.accumulateResults then acc + [item] else acc;
    var stats := LoopStats(size, 1, 0, errors, index);
    var exit := if config.exitCondition == "" then Ok(JBool(false))
      else code.exitCondition(config.exitCondition, item, index, c, acc');
    if exit.Ok? && Truthy(exit.value) then
      LoopResult(if config.accumulateResults then JArr(acc') else item, Some(item), Some(index), Some(true), true, stats)
    else
      var stats' := if exit.Err? then stats.(errorCount := errors + 1) else stats;
      Finish(c, config, code, isLast, stats', Shape(c, config, code, index, acc', item, isLast, stats'))
  }

  /** The configuration fields `Shape` reads. */
  predicate SameShape(a: LoopConfig, b: LoopConfig) {
    a.collectionType == b.collectionType && a.mode == b.mode && a.limit == b.limit &&
    a.batchSize == b.batchSize && a.itemTransform == b.itemTransform && a.accumulateResults == b.accumulateResults
  }

  lemma {:induction false} ProcessFromSameShape(c: Json, a: LoopConfig, b: LoopConfig, code: LoopCode, i: nat, n: nat)
    requires SameShape(a, b) && n <= CollectionSize(c, a.collectionType)
    ensures ProcessFrom(c, a, code, i, n) == ProcessFrom(c, b, code, i, n)
    decreases n - i
  {
    if i < n {
      ProcessFromSameShape(c, a, b, code, i + 1, n);
    }
  }

  lemma ShapeSameShape(c: Json, a: LoopConfig, b: LoopConfig, code: LoopCode, index: nat, acc: seq<Json>,
                       item: Json, isLast: bool, stats: LoopStats)
    requires SameShape(a, b) && index < stats.totalItems == CollectionSize(c, a.collectionType)
    ensures Shape(c, a, code, index, acc, item, isLast, stats) == Shape(c, b, code, index, acc, item, isLast, stats)
  {
    ProcessFromSameShape(c, a, b, code, 0, Reach(stats.totalItems, a.limit));
  }

  /** `AfterItem` spelled out over its exit condition and its shaped result. */
  lemma AfterItemUnfold(c: Json, config: LoopConfig, code: LoopCode, index: nat, acc: seq<Json>, item: Json, errors: nat)
    requires index < CollectionSize(c, config.collectionType)
    ensures var size := CollectionSize(c, config.collectionType);
      var isLast := IsLastIndex(size, config.limit, index);
      var acc' := if config.accumulateResults then acc + [item] else acc;
      var stats := LoopStats(size, 1, 0, errors, index);
      var exit := if config.exitCondition == "" then Ok(JBool(false))
        else code.exitCondition(config.exitCondition, item, index, c, acc');
      var stats' := if exit.Err? then stats.(errorCount := errors + 1) else stats;
      AfterItem(c, config, code, index, acc, item, errors) ==
        if exit.Ok? && Truthy(exit.value)
        then LoopResult(if config.accumulateResults then JArr(acc') else item, Some(item), Some(index), Some(true), true, stats)
        else Finish(c, config, code, isLast, stats', Shape(c, config, code, index, acc', item, isLast, stats'))
  {
  }

  /** The result transform does not read the error policy either. */
  lemma FinishSkipsPolicy(c: Json, a: LoopConfig, b: LoopConfig, code: LoopCode, isLast: bool, stats: LoopStats, r: LoopResult)
    requires SameShape(a, b) && a.resultTransform == b.resultTransform
    ensures Finish(c, a, code, isLast, stats, r) == Finish(c, b, code, isLast, stats, r)
  {
  }

  /** The step after the item transform does not read the error policy. */
  lemma AfterItemSkipsPolicy(c: Json, a: LoopConfig, b: LoopConfig, code: LoopCode, index: nat, acc: seq<Json>,
                             item: Json, errors: nat)
    requires SameShape(a, b) && a.exitCondition == b.exitCondition && a.resultTransform == b.resultTransform
    requires index < CollectionSize(c, a.collectionType)
    ensures AfterItem(c, a, code, index, acc, item, errors) == AfterItem(c, b, code, index, acc, item, errors)
  {
    var size := CollectionSize(c, a.collectionType);
    var isLast := IsLastIndex(size, a.limit, index);
    var acc' := if a.accumulateResults then acc + [item] else acc;
    var stats := LoopStats(size, 1, 0, errors, index);
    var exit := if a.exitCondition == "" then Ok(JBool(false))
      else code.exitCondition(a.exitCondition, item, index, c, acc');
    var stats' := if exit.Err? then stats.(errorCount := errors + 1) else stats;
    AfterItemUnfold(c, a, code, index, acc, item, errors);
    AfterItemUnfold(c, b, code, index, acc, item, errors);
    ShapeSameShape(c, a, b, code, index, acc', item, isLast, stats');
    FinishSkipsPolicy(c, a, b, code, isLast, stats', Shape(c, a, code, index, acc', item, isLast, stats'));
  }

  /** `executeLoop`: one step at `index`, with the accumulator threaded in. */
  function ExecuteLoop(c: Json, config: LoopConfig, index: nat, acc: seq<Json>, code: LoopCode): (r: LoopResult)
    ensures r.stats.totalItems == CollectionSize(c, config.collectionType)
    ensures r.stats.iterationCount >= index
    ensures Exhausted(CollectionSize(c, config.collectionType), config.limit, index) ==>
      r == LoopResult(Accumulated(config, acc), None, None, None, true,
        LoopStats(CollectionSize(c, config.collectionType), 0, 0, 0, index))
    ensures config.mode == Parallel ==> r.isComplete
    ensures config.mode == Sequential && !r.isComplete ==>
      r.currentIndex.Some? && index <= r.currentIndex.value < CollectionSize(c, config.collectionType)
    decreases CollectionSize(c, config.collectionType) - index
  {
    var size := CollectionSize(c, config.collectionType);
    if (config.limit > 0 && index >= config.limit) || index >= size then
      LoopResult(Accumulated(config, acc), None, None, None, true, LoopStats(size, 0, 0, 0, index))
    else
      var item := ItemAt(c, index, config.collectionType).value;
      match TransformItem(c, config, code, item, index)
      case Ok(v) => AfterItem(c, config, code, index, acc, v, 0)
      case Err(_) =>
        match config.errorHandling
        case Break =>
          LoopResult(Accumulated(config, acc), Some(item), Some(index), Some(IsLastIndex(size, config.limit, index)), true,
            LoopStats(size, 0, 0, 1, index))
        case Continue => ExecuteLoop(c, config, index + 1, acc, code)
        case _ => AfterItem(c, config, code, index, acc, item, 1)
  }

  // ---------------------------------------------------------------------
  // Properties of one step
  // ---------------------------------------------------------------------

  /** No user code configured. */
  predicate Plain(config: LoopConfig) {
    config.itemTransform == "" && config.exitCondition == "" && config.resultTransform == ""
  }

  /** A sequential step without user code returns the item at `index`,
      appends it to the accumulator, and completes exactly on the last
      index the size and the limit allow. */
  lemma SequentialStep(c: Json, config: LoopConfig, index: nat, acc: seq<Json>, code: LoopCode)
    requires Plain(config) && config.mode == Sequential
    requires !Exhausted(CollectionSize(c, config.collectionType), config.limit, index)
    ensures var size := CollectionSize(c, config.collectionType);
      var item := Elements(c, config.collectionType)[index];
      var r := ExecuteLoop(c, config, index, acc, code);
      r.currentItem == Some(item) && r.currentIndex == Some(index) &&
      r.isComplete == (index == Reach(size, config.limit) - 1) &&
      r.isLastIteration == Some(r.isComplete) &&
      r.data == (if config.accumulateResults then JArr(acc + [item]) else item) &&
      r.stats == LoopStats(size, 1, 0, 0, index)
  {
    SizeAndItems(c, config.collectionType);
  }

  /** Where the block's driver resumes after an incomplete step:
      `(result.currentIndex || 0) + 1`. */
  function NextIndex(step: LoopResult): int {
    (if step.currentIndex.Some? then step.currentIndex.value else 0) + 1
  }

  /** The block's driver: stepping on from `index`, resuming after the index
      the step reports and threading its data back in as the accumulator,
      until a step reports completion. Only a sequential loop is driven on;
      any other mode stops after its one step. */
  function RunSequential(c: Json, config: LoopConfig, code: LoopCode, index: nat, acc: seq<Json>): (r: LoopResult)
    ensures config.mode == Sequential ==> r.isComplete
    ensures config.mode != Sequential ==> r == ExecuteLoop(c, config, index, acc, code)
    decreases CollectionSize(c, config.collectionType) - index
  {
    var step := ExecuteLoop(c, config, index, acc, code);
    if step.isComplete || config.mode != Sequential then step
    else
      var acc' := if config.accumulateResults && step.data.JArr? then step.data.items else acc;
      RunSequential(c, config, code, NextIndex(step), acc')
  }

  /** A sequential run from `index` rebuilds the collection: the final data
      is the accumulator followed by every element up to the size or the
      limit, and the run ends on the last of them. */
  lemma {:induction false} SequentialRunRebuilds(c: Json, config: LoopConfig, code: LoopCode, index: nat, acc: seq<Json>)
    requires Plain(config) && config.mode == Sequential && config.accumulateResults
    requires index < Reach(CollectionSize(c, config.collectionType), config.limit)
    ensures var size := CollectionSize(c, config.collectionType);
      var n := Reach(size, config.limit);
      var elems := Elements(c, config.collectionType);
      RunSequential(c, config, code, index, acc) ==
        LoopResult(JArr(acc + elems[index..n]), Some(elems[n - 1]), Some(n - 1), Some(true), true, LoopStats(size, 1, 0, 0, n - 1))
    decreases Reach(CollectionSize(c, config.collectionType), config.limit) - index
  {
    var size := CollectionSize(c, config.collectionType);
    var n := Reach(size, config.limit);
    var elems := Elements(c, config.collectionType);
    SizeAndItems(c, config.collectionType);
    SequentialRunStep(c, config, code, index, acc);
    if index < n - 1 {
      SequentialRunRebuilds(c, config, code, index + 1, acc + [elems[index]]);
      AppendThenSlice(acc, elems, index, n);
    } else {
      assert index + 1 == n;
      assert |elems[index..n]| == 1 && elems[index..n][0] == elems[index];
      assert elems[index..n] == [elems[index]];
    }
  }

  /** Appending one element and then the rest of a slice is appending the
      whole slice. */
  lemma AppendThenSlice<T>(xs: seq<T>, s: seq<T>, lo: nat, hi: nat)
    requires lo < hi <= |s|
    ensures (xs + [s[lo]]) + s[lo + 1..hi] == xs + s[lo..hi]
  {
    assert s[lo..hi] == [s[lo]] + s[lo + 1..hi];
  }

  /** Two adjacent slices joined are the slice spanning both. */
  lemma SliceJoin<T>(s: seq<T>, lo: nat, mid: nat)
    requires lo <= mid <= |s|
    ensures s[lo..mid] + s[mid..] == s[lo..]
  {
  }

  /** One step of a sequential run without user code: it goes on with the
      item appended, or ends on the last index. */
  lemma SequentialRunStep(c: Json, config: LoopConfig, code: LoopCode, index: nat, acc: seq<Json>)
    requires Plain(config) && config.mode == Sequential && config.accumulateResults
    requires index < Reach(CollectionSize(c, config.collectionType), config.limit)
    ensures var size := CollectionSize(c, config.collectionType);
      var n := Reach(size, config.limit);
      var item := Elements(c, config.collectionType)[index];
      (index < n - 1 ==> RunSequential(c, config, code, index, acc) == RunSequential(c, config, code, index + 1, acc + [item])) &&
      (index == n - 1 ==>
        RunSequential(c, config, code, index, acc) ==
        LoopResult(JArr(acc + [item]), Some(item), Some(index), Some(true), true, LoopStats(size, 1, 0, 0, index)))
  {
    SequentialStep(c, config, index, acc, code);
  }

  /** From index 0 and an empty accumulator, the run returns the whole
      collection when there is no limit. */
  lemma SequentialRunIsCollection(c: Json, config: LoopConfig, code: LoopCode)
    requires Plain(config) && config.mode == Sequential && config.accumulateResults && config.limit <= 0
    requires CollectionSize(c, config.collectionType) > 0
    ensures RunSequential(c, config, code, 0, []).data == JArr(Elements(c, config.collectionType))
  {
    SizeAndItems(c, config.collectionType);
    SequentialRunRebuilds(c, config, code, 0, []);
    assert Elements(c, config.collectionType)[0..|Elements(c, config.collectionType)|] == Elements(c, config.collectionType);
  }

  /** A failing item transform under `break` ends the loop with the
      accumulator as it was and one error. */
  lemma BreakStops(c: Json, config: LoopConfig, index: nat, acc: seq<Json>, code: LoopCode)
    requires config.errorHandling == Break
    requires !Exhausted(CollectionSize(c, config.collectionType), config.limit, index)
    requires TransformItem(c, config, code, Elements(c, config.collectionType)[index], index).Err?
    ensures var r := ExecuteLoop(c, config, index, acc, code);
      r.isComplete && r.data == Accumulated(config, acc) && r.stats.errorCount == 1 &&
      r.currentItem == Some(Elements(c, config.collectionType)[index]) && r.currentIndex == Some(index)
  {
    SizeAndItems(c, config.collectionType);
  }

  /** A failing item transform under `ignore` or `default` keeps the
      untransformed item and counts the error; the two policies agree. */
  lemma IgnoreIsDefault(c: Json, config: LoopConfig, index: nat, acc: seq<Json>, code: LoopCode)
    requires config.errorHandling == Ignore
    requires !Exhausted(CollectionSize(c, config.collectionType), config.limit, index)
    requires TransformItem(c, config, code, Elements(c, config.collectionType)[index], index).Err?
    ensures var r := ExecuteLoop(c, config, index, acc, code);
      r == ExecuteLoop(c, config.(errorHandling := Default), index, acc, code) &&
      r.stats.errorCount >= 1 &&
      (r.currentItem.Some? ==> r.currentItem == Some(Elements(c, config.collectionType)[index]))
  {
    SizeAndItems(c, config.collectionType);
    var item := Elements(c, config.collectionType)[index];
    AfterItemSkipsPolicy(c, config, config.(errorHandling := Default), code, index, acc, item, 1);
  }

  /** Under `continue`, an item transform that fails on every item skips to
      the end: the loop completes where the size or the limit stops it, with
      the accumulator unchanged and no error left in the returned count. */
  lemma {:induction false} ContinueSkipsToEnd(c: Json, config: LoopConfig, index: nat, acc: seq<Json>, code: LoopCode)
    requires config.errorHandling == Continue
    requires forall i: nat :: i < CollectionSize(c, config.collectionType) ==>
      TransformItem(c, config, code, Elements(c, config.collectionType)[i], i).Err?
    ensures var size := CollectionSize(c, config.collectionType);
      var stop := Reach(size, config.limit);
      ExecuteLoop(c, config, index, acc, code) ==
        LoopResult(Accumulated(config, acc), None, None, None, true,
          LoopStats(size, 0, 0, 0, if index < stop then stop else index))
    decreases CollectionSize(c, config.collectionType) - index
  {
    var size := CollectionSize(c, config.collectionType);
    SizeAndItems(c, config.collectionType);
    if !Exhausted(size, config.limit, index) {
      ContinueSkipsToEnd(c, config, index + 1, acc, code);
    }
  }

  /** Under `continue`, a failing item transform hands the step on to the
      next index with the accumulator untouched. */
  lemma ContinueSkipsOne(c: Json, config: LoopConfig, code: LoopCode, index: nat, acc: seq<Json>)
    requires config.errorHandling == Continue
    requires index < Reach(CollectionSize(c, config.collectionType), config.limit)
    requires TransformItem(c, config, code, Elements(c, config.collectionType)[index], index).Err?
    ensures ExecuteLoop(c, config, index, acc, code) == ExecuteLoop(c, config, index + 1, acc, code)
  {
    ItemAtElement(c, config.collectionType, index);
  }

  /** A sequential step on a passing item, with no exit condition and no
      result transform, pushes the item and stays incomplete before the last
      index. */
  lemma SequentialPasses(c: Json, config: LoopConfig, code: LoopCode, index: nat, acc: seq<Json>)
    requires config.mode == Sequential && config.accumulateResults
    requires config.exitCondition == "" && config.resultTransform == ""
    requires index + 1 < Reach(CollectionSize(c, config.collectionType), config.limit)
    requires TransformItem(c, config, code, Elements(c, config.collectionType)[index], index).Ok?
    ensures var v := TransformItem(c, config, code, Elements(c, config.collectionType)[index], index).value;
      var r := ExecuteLoop(c, config, index, acc, code);
      r.data == JArr(acc + [v]) && r.currentIndex == Some(index) && !r.isComplete
  {
    ItemAtElement(c, config.collectionType, index);
    var v := TransformItem(c, config, code, Elements(c, config.collectionType)[index], index).value;
    AfterItemUnfold(c, config, code, index, acc, v, 0);
  }

  /** Under `continue`, a run resumes after the item the step settled on:
      when the item at `index` fails its transform and the next one passes,
      the failed item is never pushed and the run goes on two indices later
      with only the transformed next item appended. */
  lemma ContinueResumesAfterSkip(c: Json, config: LoopConfig, code: LoopCode, index: nat, acc: seq<Json>)
    requires config.mode == Sequential && config.errorHandling == Continue && config.accumulateResults
    requires config.exitCondition == "" && config.resultTransform == ""
    requires index + 2 < Reach(CollectionSize(c, config.collectionType), config.limit)
    requires TransformItem(c, config, code, Elements(c, config.collectionType)[index], index).Err?
    requires TransformItem(c, config, code, Elements(c, config.collectionType)[index + 1], index + 1).Ok?
    ensures var v := TransformItem(c, config, code, Elements(c, config.collectionType)[index + 1], index + 1).value;
      RunSequential(c, config, code, index, acc) == RunSequential(c, config, code, index + 2, acc + [v])
  {
    ContinueSkipsOne(c, config, code, index, acc);
    SequentialPasses(c, config, code, index + 1, acc);
  }

  /** A truthy exit condition ends the loop at the current item. */
  lemma ExitConditionStops(c: Json, config: LoopConfig, index: nat, acc: seq<Json>, code: LoopCode)
    requires config.exitCondition != ""
    requires !Exhausted(CollectionSize(c, config.collectionType), config.limit, index)
    requires var item := Elements(c, config.collectionType)[index];
      TransformItem(c, config, code, item, index) == Ok(item)
    requires var item := Elements(c, config.collectionType)[index];
      var acc' := if config.accumulateResults then acc + [item] else acc;
      var e := code.exitCondition(config.exitCondition, item, index, c, acc');
      e.Ok? && Truthy(e.value)
    ensures var r := ExecuteLoop(c, config, index, acc, code);
      r.isComplete && r.isLastIteration == Some(true) && r.currentIndex == Some(index) &&
      r.currentItem == Some(Elements(c, config.collectionType)[index])
  {
    SizeAndItems(c, config.collectionType);
  }

  /** One more error in a step's statistics is one more error in its shaped
      result, and nothing else. */
  lemma ShapeCountsErrors(c: Json, config: LoopConfig, code: LoopCode, index: nat, acc: seq<Json>,
                          item: Json, isLast: bool, stats: LoopStats)
    requires index < stats.totalItems == CollectionSize(c, config.collectionType)
    ensures var r := Shape(c, config, code, index, acc, item, isLast, stats);
      Shape(c, config, code, index, acc, item, isLast, stats.(errorCount := stats.errorCount + 1)) ==
        r.(stats := r.stats.(errorCount := r.stats.errorCount + 1))
  {
  }

  /** The step after an item whose exit condition fails. */
  lemma AfterItemExitError(c: Json, config: LoopConfig, code: LoopCode, index: nat, acc: seq<Json>,
                           item: Json, errors: nat)
    requires config.exitCondition != "" && config.resultTransform == ""
    requires forall item, acc' :: code.exitCondition(config.exitCondition, item, index, c, acc').Err?
    requires index < CollectionSize(c, config.collectionType)
    ensures var r := AfterItem(c, config, code, index, acc, item, errors);
      var r' := AfterItem(c, config.(exitCondition := ""), code, index, acc, item, errors);
      r == r'.(stats := r'.stats.(errorCount := r'.stats.errorCount + 1))
  {
    var size := CollectionSize(c, config.collectionType);
    var isLast := IsLastIndex(size, config.limit, index);
    var acc' := if config.accumulateResults then acc + [item] else acc;
    var stats := LoopStats(size, 1, 0, errors, index);
    var other := config.(exitCondition := "");
    ShapeSameShape(c, config, other, code, index, acc', item, isLast, stats);
    ShapeCountsErrors(c, config, code, index, acc', item, isLast, stats);
    var shaped := Shape(c, config, code, index, acc', item, isLast, stats.(errorCount := errors + 1));
    assert AfterItem(c, config, code, index, acc, item, errors) == Finish(c, config, code, isLast, stats.(errorCount := errors + 1), shaped);
    assert Finish(c, config, code, isLast, stats.(errorCount := errors + 1), shaped) == shaped;
    var plain := Shape(c, other, code, index, acc', item, isLast, stats);
    assert AfterItem(c, other, code, index, acc, item, errors) == Finish(c, other, code, isLast, stats, plain);
    assert Finish(c, other, code, isLast, stats, plain) == plain;
  }

  /** A failing exit condition only counts an error: the step is otherwise
      the one without an exit condition. */
  lemma ExitConditionErrorCounts(c: Json, config: LoopConfig, index: nat, acc: seq<Json>, code: LoopCode)
    requires config.exitCondition != "" && config.resultTransform == ""
    requires !Exhausted(CollectionSize(c, config.collectionType), config.limit, index)
    requires TransformItem(c, config, code, Elements(c, config.collectionType)[index], index).Ok? ||
      config.errorHandling == Ignore || config.errorHandling == Default
    requires forall item, acc' :: code.exitCondition(config.exitCondition, item, index, c, acc').Err?
    ensures var r' := ExecuteLoop(c, config.(exitCondition := ""), index, acc, code);
      ExecuteLoop(c, config, index, acc, code) == r'.(stats := r'.stats.(errorCount := r'.stats.errorCount + 1))
  {
    var other := config.(exitCondition := "");
    SizeAndItems(c, config.collectionType);
    var item := ItemAt(c, index, config.collectionType).value;
    var v := TransformItem(c, config, code, item, index);
    assert TransformItem(c, other, code, item, index) == v;
    if v.Ok? {
      AfterItemExitError(c, config, code, index, acc, v.value, 0);
      assert ExecuteLoop(c, config, index, acc, code) == AfterItem(c, config, code, index, acc, v.value, 0);
      assert ExecuteLoop(c, other, index, acc, code) == AfterItem(c, other, code, index, acc, v.value, 0);
    } else {
      AfterItemExitError(c, config, code, index, acc, item, 1);
      assert ExecuteLoop(c, config, index, acc, code) == AfterItem(c, config, code, index, acc, item, 1);
      assert ExecuteLoop(c, other, index, acc, code) == AfterItem(c, other, code, index, acc, item, 1);
    }
  }

  /** A parallel step with accumulation and no user code returns every
      element up to the limit, at once, complete. */
  lemma ParallelStep(c: Json, config: LoopConfig, index: nat, acc: seq<Json>, code: LoopCode)
    requires Plain(config) && config.mode == Parallel && config.accumulateResults
    requires !Exhausted(CollectionSize(c, config.collectionType), config.limit, index)
    ensures var size := CollectionSize(c, config.collectionType);
      var r := ExecuteLoop(c, config, index, acc, code);
      r.data == JArr(Elements(c, config.collectionType)[..Reach(size, config.limit)]) &&
      r.isComplete && r.isLastIteration == Some(true) && r.stats.processedItems == size
  {
    SizeAndItems(c, config.collectionType);
    ProcessAllUntransformed(c, config, code);
  }

  /** A parallel run whose transform fails on some item escapes to the
      global catch: complete, no current item, one more error, and the data
      is the accumulator with the current item already pushed. */
  lemma ParallelFailureCaught(c: Json, config: LoopConfig, index: nat, acc: seq<Json>, code: LoopCode, v: Json)
    requires config.mode == Parallel && config.accumulateResults && config.exitCondition == ""
    requires !Exhausted(CollectionSize(c, config.collectionType), config.limit, index)
    requires TransformItem(c, config, code, Elements(c, config.collectionType)[index], index) == Ok(v)
    requires ProcessAllItems(c, config, code).Err?
    ensures var r := ExecuteLoop(c, config, index, acc, code);
      r.isComplete && r.currentItem.None? && r.data == JArr(acc + [v]) && r.stats.errorCount == 1
  {
    SizeAndItems(c, config.collectionType);
  }

  /** In sequential mode the result transform waits for the last iteration:
      before it, unless `continue` skips ahead, the step is the one without
      a result transform. */
  lemma ResultTransformWaits(c: Json, config: LoopConfig, index: nat, acc: seq<Json>, code: LoopCode)
    requires config.mode == Sequential && config.errorHandling != Continue
    requires !IsLastIndex(CollectionSize(c, config.collectionType), config.limit, index)
    ensures ExecuteLoop(c, config, index, acc, code) == ExecuteLoop(c, config.(resultTransform := ""), index, acc, code)
  {
    var size := CollectionSize(c, config.collectionType);
    if !Exhausted(size, config.limit, index) {
      var item := ItemAt(c, index, config.collectionType).value;
      var v := TransformItem(c, config, code, item, index);
      if v.Ok? {
        AfterItemWaits(c, config, code, index, acc, v.value, 0);
      } else {
        AfterItemWaits(c, config, code, index, acc, item, 1);
      }
    }
  }

  /** Before the last sequential iteration, the step after the item
      transform is the one without a result transform. */
  lemma AfterItemWaits(c: Json, config: LoopConfig, code: LoopCode, index: nat, acc: seq<Json>, item: Json, errors: nat)
    requires config.mode == Sequential && index < CollectionSize(c, config.collectionType)
    requires !IsLastIndex(CollectionSize(c, config.collectionType), config.limit, index)
    ensures AfterItem(c, config, code, index, acc, item, errors) ==
      AfterItem(c, config.(resultTransform := ""), code, index, acc, item, errors)
  {
    var plain := config.(resultTransform := "");
    var size := CollectionSize(c, config.collectionType);
    var acc' := if config.accumulateResults then acc + [item] else acc;
    var stats := LoopStats(size, 1, 0, errors, index);
    var exit := if config.exitCondition == "" then Ok(JBool(false))
      else code.exitCondition(config.exitCondition, item, index, c, acc');
    var stats' := if exit.Err? then stats.(errorCount := errors + 1) else stats;
    AfterItemUnfold(c, config, code, index, acc, item, errors);
    AfterItemUnfold(c, plain, code, index, acc, item, errors);
    ShapeSameShape(c, config, plain, code, index, acc', item, false, stats');
  }

  lemma AfterItemFailedResult(c: Json, config: LoopConfig, code: LoopCode, index: nat, acc: seq<Json>,
                               item: Json, errors: nat)
    requires forall d, s :: code.resultTransform(config.resultTransform, d, c, s).Err?
    requires index < CollectionSize(c, config.collectionType)
    ensures AfterItem(c, config, code, index, acc, item, errors) ==
      AfterItem(c, config.(resultTransform := ""), code, index, acc, item, errors)
  {
    var size := CollectionSize(c, config.collectionType);
    var isLast := IsLastIndex(size, config.limit, index);
    var acc' := if config.accumulateResults then acc + [item] else acc;
    var stats := LoopStats(size, 1, 0, errors, index);
    ShapeSameShape(c, config, config.(resultTransform := ""), code, index, acc', item, isLast, stats);
    ShapeSameShape(c, config, config.(resultTransform := ""), code, index, acc', item, isLast, stats.(errorCount := errors + 1));
  }

  /** A failing result transform leaves the result as it was without one,
      error count included. */
  lemma {:induction false} ResultTransformFailureKeeps(c: Json, config: LoopConfig, index: nat, acc: seq<Json>, code: LoopCode)
    requires forall d, s :: code.resultTransform(config.resultTransform, d, c, s).Err?
    ensures ExecuteLoop(c, config, index, acc, code) == ExecuteLoop(c, config.(resultTransform := ""), index, acc, code)
    decreases CollectionSize(c, config.collectionType) - index
  {
    var size := CollectionSize(c, config.collectionType);
    var other := config.(resultTransform := "");
    if !Exhausted(size, config.limit, index) {
      var item := ItemAt(c, index, config.collectionType).value;
      var v := TransformItem(c, config, code, item, index);
      assert TransformItem(c, other, code, item, index) == v;
      if v.Ok? {
        AfterItemFailedResult(c, config, code, index, acc, v.value, 0);
        assert ExecuteLoop(c, config, index, acc, code) == AfterItem(c, config, code, index, acc, v.value, 0);
        assert ExecuteLoop(c, other, index, acc, code) == AfterItem(c, other, code, index, acc, v.value, 0);
      } else if config.errorHandling == Continue {
        ResultTransformFailureKeeps(c, config, index + 1, acc, code);
        assert ExecuteLoop(c, config, index, acc, code) == ExecuteLoop(c, config, index + 1, acc, code);
        assert ExecuteLoop(c, other, index, acc, code) == ExecuteLoop(c, other, index + 1, acc, code);
      } else if config.errorHandling != Break {
        AfterItemFailedResult(c, config, code, index, acc, item, 1);
        assert ExecuteLoop(c, config, index, acc, code) == AfterItem(c, config, code, index, acc, item, 1);
        assert ExecuteLoop(c, other, index, acc, code) == AfterItem(c, other, code, index, acc, item, 1);
      }
    }
  }

  // ---------------------------------------------------------------------
  // Batches
  // ---------------------------------------------------------------------

  /** Stepping through batches from `index`, each restart at the index after
      the previous batch's `currentIndex`, until a batch reports completion. */
  function RunBatches(c: Json, config: LoopConfig, code: LoopCode, index: nat): (batches: seq<seq<Json>>)
    ensures |batches| >= 1
    decreases CollectionSize(c, config.collectionType) - index
  {
    var step := ExecuteLoop(c, config, index, [], code);
    var batch := if step.data.JArr? then step.data.items else [];
    if step.isComplete || step.currentIndex.None? || step.currentIndex.value + 1 <= index then [batch]
    else [batch] + RunBatches(c, config, code, step.currentIndex.value + 1)
  }

  function Concat(batches: seq<seq<Json>>): seq<Json> {
    if |batches| == 0 then [] else batches[0] + Concat(batches[1..])
  }

  /** A batch step without user code returns the untransformed slice from
      `index`, reports the slice's last index, and completes when the slice
      reaches the end or the limit. */
  lemma BatchStep(c: Json, config: LoopConfig, index: nat, acc: seq<Json>, code: LoopCode)
    requires Plain(config) && config.mode == Batch
    requires !Exhausted(CollectionSize(c, config.collectionType), config.limit, index)
    ensures var size := CollectionSize(c, config.collectionType);
      var end := BatchEnd(config, size, index);
      var r := ExecuteLoop(c, config, index, acc, code);
      r.data == JArr(if index <= end then Elements(c, config.collectionType)[index..end] else []) &&
      r.currentIndex == Some(end - 1) &&
      r.isComplete == (end >= size || (config.limit > 0 && end >= config.limit)) &&
      r.stats.processedItems == end - index
  {
    var size := CollectionSize(c, config.collectionType);
    var end := BatchEnd(config, size, index);
    if index <= end {
      SliceIsElements(c, config.collectionType, index, end);
    }
  }

  /** One batch of a run without a limit, and where the run goes on. */
  lemma RunBatchesStep(c: Json, config: LoopConfig, code: LoopCode, index: nat)
    requires Plain(config) && config.mode == Batch && config.limit <= 0 && BatchSize(config) > 0
    requires index < CollectionSize(c, config.collectionType)
    ensures var size := CollectionSize(c, config.collectionType);
      var end := BatchEnd(config, size, index);
      var batch := Elements(c, config.collectionType)[index..end];
      index < end &&
      RunBatches(c, config, code, index) == if end < size then [batch] + RunBatches(c, config, code, end) else [batch]
  {
    BatchStep(c, config, index, [], code);
  }

  /** `batches` cut `xs` into contiguous slices of `k` items, the last one
      non-empty and at most `k` long. */
  predicate Partitions(batches: seq<seq<Json>>, xs: seq<Json>, k: int) {
    |batches| >= 1 && Concat(batches) == xs &&
    (forall i :: 0 <= i < |batches| - 1 ==> |batches[i]| == k) &&
    0 < |batches[|batches| - 1]| <= k
  }

  lemma PartitionsCons(batch: seq<Json>, rest: seq<seq<Json>>, xs: seq<Json>, k: int)
    requires |batch| == k && Partitions(rest, xs, k)
    ensures Partitions([batch] + rest, batch + xs, k)
  {
    var batches := [batch] + rest;
    assert batches[1..] == rest;
    assert forall i :: 1 <= i < |batches| ==> batches[i] == rest[i - 1];
  }

  /** Without a limit, the batches of a run partition the collection from
      `index` on into contiguous slices, each of the batch size except the
      last. */
  lemma {:induction false} BatchesPartition(c: Json, config: LoopConfig, code: LoopCode, index: nat)
    requires Plain(config) && config.mode == Batch && config.limit <= 0 && BatchSize(config) > 0
    requires index < CollectionSize(c, config.collectionType)
    ensures Partitions(RunBatches(c, config, code, index), Elements(c, config.collectionType)[index..], BatchSize(config))
    decreases CollectionSize(c, config.collectionType) - index
  {
    var size := CollectionSize(c, config.collectionType);
    var elems := Elements(c, config.collectionType);
    var end := BatchEnd(config, size, index);
    SizeAndItems(c, config.collectionType);
    RunBatchesStep(c, config, code, index);
    var batch := elems[index..end];
    if end < size {
      BatchesPartition(c, config, code, end);
      PartitionsCons(batch, RunBatches(c, config, code, end), elems[end..], BatchSize(config));
      SliceJoin(elems, index, end);
    } else {
      assert Concat([batch]) == batch + Concat([]);
    }
  }

  // ---------------------------------------------------------------------
  // The collections of the loop block's tests
  // ---------------------------------------------------------------------

  /** `{start: 5, end: 8}` as a range visits 5, 6, 7 and 8. */
  lemma RangeExample()
    ensures var c := JObj([Entry("start", JInt(5)), Entry("end", JInt(8))]);
      CollectionSize(c, RangeCollection) == 4 &&
      Elements(c, RangeCollection) == [JInt(5), JInt(6), JInt(7), JInt(8)]
  {
    var c := JObj([Entry("start", JInt(5)), Entry("end", JInt(8))]);
    assert Lookup(c.entries, "start") == Some(JInt(5));
    assert Lookup(c.entries, "end") == Some(JInt(8));
  }

  /** `{a: 1, b: 2}` as an object visits `{key: 'a', value: 1}` and
      `{key: 'b', value: 2}`. */
  lemma ObjectExample()
    ensures var c := JObj([Entry("a", JInt(1)), Entry("b", JInt(2))]);
      Elements(c, ObjectCollection) ==
        [JObj([Entry("key", JStr("a")), Entry("value", JInt(1))]), JObj([Entry("key", JStr("b")), Entry("value", JInt(2))])]
  {
  }

  /** A custom collection given as the number 3 visits 0, 1 and 2. */
  lemma CountExample()
    ensures Elements(JInt(3), CustomCollection) == [JInt(0), JInt(1), JInt(2)]
    ensures CollectionSize(JInt(-3), CustomCollection) == 0
  {
  }
}

=== FILE: merge_array_examples.dfy ===
/**
 * The array modes on the inputs of the merge engine's tests: union and
 * intersection of [1,2,3,4] and [3,4,5,6].
 */
module MergeArrayExamples {
  import opened Json
  import opened MergeArrays

  /** The inputs of the union and intersection tests. */
  const Low := [JInt(1), JInt(2), JInt(3), JInt(4)]
  const High := [JInt(3), JInt(4), JInt(5), JInt(6)]
  const Overlapping := [Entry("input1", JArr(Low)), Entry("input2", JArr(High))]
  const Spliced := [JInt(1), JInt(2), JInt(3), JInt(4), JInt(3), JInt(4), JInt(5), JInt(6)]

  lemma OverlappingSpliced()
    ensures ConcatInputs(Overlapping) == Spliced
  {
    var a := [Overlapping[0]];
    var b := [Overlapping[1]];
    assert a + b == Overlapping;
    ConcatSplits(a, b);
    ConcatSingle(a[0]);
    ConcatSingle(b[0]);
    assert Low + High == Spliced;
  }

  lemma SplicedLastDeduped()
    ensures DedupeFrom(Spliced[6..], ByValue, {JInt(1), JInt(2), JInt(3), JInt(4)}) == [JInt(5), JInt(6)]
  {
    var s4 := {JInt(1), JInt(2), JInt(3), JInt(4)};
    assert Spliced[8..] == [];
    DedupeStep(Spliced, 7, s4 + {JInt(5)});
    assert DedupeFrom(Spliced[8..], ByValue, s4 + {JInt(5)} + {JInt(6)}) == [];
    DedupeStep(Spliced, 6, s4);
  }

  lemma SplicedTailDeduped()
    ensures DedupeFrom(Spliced[3..], ByValue, {JInt(1), JInt(2), JInt(3)}) == [JInt(4), JInt(5), JInt(6)]
  {
    var s4 := {JInt(1), JInt(2), JInt(3), JInt(4)};
    SplicedLastDeduped();
    DedupeStep(Spliced, 5, s4);
    DedupeStep(Spliced, 4, s4);
    DedupeStep(Spliced, 3, {JInt(1), JInt(2), JInt(3)});
    assert {JInt(1), JInt(2), JInt(3)} + {JInt(4)} == s4;
  }

  lemma SplicedMiddleDeduped()
    ensures DedupeFrom(Spliced[1..], ByValue, {JInt(1)}) == [JInt(2), JInt(3), JInt(4), JInt(5), JInt(6)]
  {
    SplicedTailDeduped();
    DedupeStep(Spliced, 2, {JInt(1), JInt(2)});
    assert {JInt(1), JInt(2)} + {JInt(3)} == {JInt(1), JInt(2), JInt(3)};
    DedupeStep(Spliced, 1, {JInt(1)});
    assert {JInt(1)} + {JInt(2)} == {JInt(1), JInt(2)};
  }

  lemma SplicedDeduped()
    ensures DedupeFrom(Spliced, ByValue, {}) == [JInt(1), JInt(2), JInt(3), JInt(4), JInt(5), JInt(6)]
  {
    SplicedMiddleDeduped();
    DedupeStep(Spliced, 0, {});
    assert {} + {JInt(1)} == {JInt(1)};
    assert Spliced[0..] == Spliced;
  }

  /** `union` of [1,2,3,4] and [3,4,5,6] is [1..6]. */
  lemma UnionExample()
    ensures UnionArrays(Overlapping, NoOptions) == [JInt(1), JInt(2), JInt(3), JInt(4), JInt(5), JInt(6)]
  {
    UnionIsDedupeOfConcat(Overlapping);
    OverlappingSpliced();
    SplicedDeduped();
  }

  lemma OverlappingArrays()
    ensures NonEmptyArrays(Overlapping) == [Low, High]
  {
    assert Overlapping[1..] == [Overlapping[1]];
    assert [Overlapping[1]][1..] == [];
    assert AsArray(Overlapping[0].value) == Low;
    assert AsArray(Overlapping[1].value) == High;
    assert NonEmptyArrays([Overlapping[1]]) == [High] + NonEmptyArrays([]);
  }

  lemma OverlappingFlat()
    ensures Flat([Low, High]) == Spliced
  {
    assert [Low, High][1..] == [High];
    assert [High][1..] == [];
    assert Flat([High]) == High + Flat([]);
    assert Low + High == Spliced;
  }

  /** The `itemCounts` entry of `x`: one for each of the two inputs holding it. */
  lemma OverlappingCount(x: Json)
    ensures ArraysContaining(x, [Low, High]) == (if x in Low then 1 else 0) + (if x in High then 1 else 0)
  {
    assert [Low, High][1..] == [High];
    assert [High][1..] == [];
    assert ArraysContaining(x, [High]) == (if x in High then 1 else 0) + ArraysContaining(x, []);
  }

  /** `intersection` of [1,2,3,4] and [3,4,5,6] is [3,4]. */
  lemma IntersectionExample()
    ensures IntersectionArrays(Overlapping, NoOptions) == [JInt(3), JInt(4)]
  {
    OverlappingArrays();
    OverlappingFlat();
    SplicedDeduped();
    KeepCountedExample();
  }

  const Ones := [JInt(1), JInt(2), JInt(3), JInt(4), JInt(5), JInt(6)]

  lemma KeepCountedLast()
    ensures KeepCounted(Ones[4..], [Low, High]) == []
  {
    assert Ones[6..] == [];
    OverlappingCount(JInt(6));
    KeepCountedStep(Ones, [Low, High], 5);
    OverlappingCount(JInt(5));
    KeepCountedStep(Ones, [Low, High], 4);
  }

  lemma KeepCountedMiddle()
    ensures KeepCounted(Ones[2..], [Low, High]) == [JInt(3), JInt(4)]
  {
    KeepCountedLast();
    OverlappingCount(JInt(4));
    KeepCountedStep(Ones, [Low, High], 3);
    OverlappingCount(JInt(3));
    KeepCountedStep(Ones, [Low, High], 2);
  }

  lemma KeepCountedExample()
    ensures KeepCounted(Ones, [Low, High]) == [JInt(3), JInt(4)]
  {
    KeepCountedMiddle();
    OverlappingCount(JInt(2));
    KeepCountedStep(Ones, [Low, High], 1);
    OverlappingCount(JInt(1));
    KeepCountedStep(Ones, [Low, High], 0);
    assert Ones[0..] == Ones;
  }
}

=== FILE: merge_arrays.dfy ===
/**
 * The array side of the merge engine: coercing inputs to arrays, the
 * `concat`, `union` and `intersection` modes, and the array options applied
 * after concatenation (duplicate removal, then sort, then flatten).
 */
module MergeArrays {
  import opened Results
  import opened Json

  /** The named inputs of a merge, in `Object.keys` order. */
  type Inputs = seq<Entry>

  // ---------------------------------------------------------------------------
  // Coercion and concatenation
  // ---------------------------------------------------------------------------

  /** How every array mode reads one input: nothing for null, the elements of
      an array, and any other value as a one-element array. */
  function AsArray(v: Json): seq<Json> {
    match v
    case JNull => []
    case JArr(xs) => xs
    case _ => [v]
  }

  /** The number of items an input contributes once coerced. */
  function CoercedLength(inputs: Inputs): nat {
    if |inputs| == 0 then 0 else |AsArray(inputs[0].value)| + CoercedLength(inputs[1..])
  }

  /** The `reduce((acc, arr) => acc.concat(arr), acc0)` over the coerced inputs. */
  function ConcatOnto(acc: seq<Json>, inputs: Inputs): seq<Json>
    decreases |inputs|
  {
    if |inputs| == 0 then acc else ConcatOnto(acc + AsArray(inputs[0].value), inputs[1..])
  }

  /** All inputs coerced to arrays and spliced together in input order. */
  function ConcatInputs(inputs: Inputs): seq<Json> {
    ConcatOnto([], inputs)
  }

  /** The fold may start from any accumulator: it only appends to it. */
  lemma {:induction false} ConcatOntoAppends(acc: seq<Json>, inputs: Inputs)
    ensures ConcatOnto(acc, inputs) == acc + ConcatInputs(inputs)
    decreases |inputs|
  {
    if |inputs| > 0 {
      var first := AsArray(inputs[0].value);
      ConcatOntoAppends(acc + first, inputs[1..]);
      ConcatOntoAppends(first, inputs[1..]);
      assert ConcatOnto([], inputs) == ConcatOnto([] + first, inputs[1..]);
      assert [] + first == first;
    }
  }

  /** The first input's items come first, then those of the rest. */
  lemma ConcatFirst(inputs: Inputs)
    requires |inputs| > 0
    ensures ConcatInputs(inputs) == AsArray(inputs[0].value) + ConcatInputs(inputs[1..])
  {
    var first := AsArray(inputs[0].value);
    ConcatOntoAppends([] + first, inputs[1..]);
    assert [] + first == first;
  }

  /** Concatenation is a homomorphism from input lists to item lists: splitting
      the inputs splits the output at the same place. */
  lemma {:induction false} ConcatSplits(a: Inputs, b: Inputs)
    ensures ConcatInputs(a + b) == ConcatInputs(a) + ConcatInputs(b)
    decreases |a|
  {
    if |a| == 0 {
      assert a + b == b;
    } else {
      var first := AsArray(a[0].value);
      assert (a + b)[0] == a[0];
      assert (a + b)[1..] == a[1..] + b;
      ConcatFirst(a + b);
      ConcatFirst(a);
      ConcatSplits(a[1..], b);
      assert first + (ConcatInputs(a[1..]) + ConcatInputs(b)) == (first + ConcatInputs(a[1..])) + ConcatInputs(b);
    }
  }

  /** One input contributes exactly its coerced items. */
  lemma ConcatSingle(e: Entry)
    ensures ConcatInputs([e]) == AsArray(e.value)
  {
    assert [e][1..] == [];
    assert ConcatOnto([] + AsArray(e.value), []) == [] + AsArray(e.value);
    assert [] + AsArray(e.value) == AsArray(e.value);
  }

  /** Without array options the output has one item per coerced input item. */
  lemma {:induction false} ConcatLength(inputs: Inputs)
    ensures |ConcatInputs(inputs)| == CoercedLength(inputs)
    decreases |inputs|
  {
    if |inputs| > 0 {
      assert inputs == [inputs[0]] + inputs[1..];
      ConcatSplits([inputs[0]], inputs[1..]);
      ConcatSingle(inputs[0]);
      ConcatLength(inputs[1..]);
    }
  }

  // ---------------------------------------------------------------------------
  // Duplicate removal
  // ---------------------------------------------------------------------------

  /** Two ways of telling duplicates apart: by the value of an identifier
      field, or by the whole value (its JSON text). */
  datatype DedupeKey = ByField(field: string) | ByValue

  /** What an item is compared by, or None when the item has no identifier
      field and is therefore always kept. */
  function IdentityOf(item: Json, key: DedupeKey): Option<Json> {
    match key
    case ByValue => Some(item)
    case ByField(f) => if item.JObj? then Lookup(item.entries, f) else None
  }

  /** The `filter` with a `seen` set: keep an item when it has no identity or
      its identity was not seen before, and remember the identities kept. */
  function DedupeFrom(items: seq<Json>, key: DedupeKey, seen: set<Json>): (r: seq<Json>)
    ensures |r| <= |items|
    ensures forall x :: x in r ==> x in items
    decreases |items|
  {
    if |items| == 0 then []
    else
      match IdentityOf(items[0], key)
      case None => [items[0]] + DedupeFrom(items[1..], key, seen)
      case Some(id) =>
        if id in seen then DedupeFrom(items[1..], key, seen)
        else [items[0]] + DedupeFrom(items[1..], key, seen + {id})
  }

  /** No value occurs twice. */
  predicate NoRepeats(xs: seq<Json>) {
    forall p, q :: 0 <= p < q < |xs| ==> xs[p] != xs[q]
  }

  lemma NoRepeatsCons(x: Json, rest: seq<Json>)
    requires x !in rest && NoRepeats(rest)
    ensures NoRepeats([x] + rest)
  {
    var r := [x] + rest;
    forall p, q | 0 <= p < q < |r| ensures r[p] != r[q] {
      assert r[q] == rest[q - 1];
      if p > 0 { assert r[p] == rest[p - 1]; }
    }
  }

  lemma NoRepeatsTail(xs: seq<Json>)
    requires |xs| > 0 && NoRepeats(xs)
    ensures NoRepeats(xs[1..]) && xs[0] !in xs[1..]
  {
    forall p, q | 0 <= p < q < |xs[1..]| ensures xs[1..][p] != xs[1..][q] {
      assert xs[1..][p] == xs[p + 1] && xs[1..][q] == xs[q + 1];
    }
  }

  /** No two items of `r` share an identity. */
  predicate DistinctIdentities(r: seq<Json>, key: DedupeKey) {
    forall p, q :: 0 <= p < q < |r| && IdentityOf(r[p], key).Some? ==> IdentityOf(r[p], key) != IdentityOf(r[q], key)
  }

  lemma ConsDistinctIdentities(x: Json, rest: seq<Json>, key: DedupeKey)
    requires DistinctIdentities(rest, key)
    requires IdentityOf(x, key).Some? ==> forall y :: y in rest ==> IdentityOf(y, key) != IdentityOf(x, key)
    ensures DistinctIdentities([x] + rest, key)
  {
    var r := [x] + rest;
    forall p, q | 0 <= p < q < |r| && IdentityOf(r[p], key).Some?
      ensures IdentityOf(r[p], key) != IdentityOf(r[q], key)
    {
      assert r[q] == rest[q - 1];
      if p == 0 {
        assert r[q] in rest;
      } else {
        assert r[p] == rest[p - 1];
      }
    }
  }

  /** No kept item repeats an identity seen before, or one kept earlier. */
  lemma {:induction false} DedupeIdentitiesFresh(items: seq<Json>, key: DedupeKey, seen: set<Json>)
    ensures forall x :: x in DedupeFrom(items, key, seen) && IdentityOf(x, key).Some? ==> IdentityOf(x, key).value !in seen
    ensures DistinctIdentities(DedupeFrom(items, key, seen), key)
    decreases |items|
  {
    if |items| > 0 {
      match IdentityOf(items[0], key)
      case None =>
        DedupeIdentitiesFresh(items[1..], key, seen);
        ConsDistinctIdentities(items[0], DedupeFrom(items[1..], key, seen), key);
      case Some(id) =>
        if id in seen {
          DedupeIdentitiesFresh(items[1..], key, seen);
        } else {
          DedupeIdentitiesFresh(items[1..], key, seen + {id});
          var rest := DedupeFrom(items[1..], key, seen + {id});
          forall y | y in rest ensures IdentityOf(y, key) != IdentityOf(items[0], key) {
            if IdentityOf(y, key).Some? {
              assert IdentityOf(y, key).value !in seen + {id};
            }
          }
          ConsDistinctIdentities(items[0], rest, key);
        }
    }
  }

  /** Nothing is lost that should be kept: every item without an identity
      survives, and every identity not seen before is represented. */
  lemma {:induction false} DedupeComplete(items: seq<Json>, key: DedupeKey, seen: set<Json>)
    ensures forall x :: x in items && IdentityOf(x, key).None? ==> x in DedupeFrom(items, key, seen)
    ensures forall x :: x in items && IdentityOf(x, key).Some? && IdentityOf(x, key).value !in seen ==>
              exists y :: y in DedupeFrom(items, key, seen) && IdentityOf(y, key) == IdentityOf(x, key)
    decreases |items|
  {
    if |items| > 0 {
      var r := DedupeFrom(items, key, seen);
      assert forall x :: x in items ==> x == items[0] || x in items[1..];
      match IdentityOf(items[0], key)
      case None =>
        DedupeComplete(items[1..], key, seen);
      case Some(id) =>
        if id in seen {
          DedupeComplete(items[1..], key, seen);
        } else {
          DedupeComplete(items[1..], key, seen + {id});
          assert items[0] in r;
        }
    }
  }

  /** Duplicate removal over a whole array, starting with nothing seen. */
  function RemoveDuplicates(items: seq<Json>, key: DedupeKey): seq<Json> {
    DedupeFrom(items, key, {})
  }

  /** Reference definition: item `i` survives when it has no identity, or when
      no earlier item has the same identity. */
  predicate FirstOfIdentity(items: seq<Json>, key: DedupeKey, i: int)
    requires 0 <= i < |items|
  {
    IdentityOf(items[i], key).None? ||
    forall j :: 0 <= j < i ==> IdentityOf(items[j], key) != IdentityOf(items[i], key)
  }

  /** Reference definition: the surviving items from position `i` on, in input order. */
  function FirstOccurrencesFrom(items: seq<Json>, key: DedupeKey, i: nat): seq<Json>
    requires i <= |items|
    decreases |items| - i
  {
    if i == |items| then []
    else (if FirstOfIdentity(items, key, i) then [items[i]] else []) + FirstOccurrencesFrom(items, key, i + 1)
  }

  /** The identity of every item, in input order. */
  function Identities(items: seq<Json>, key: DedupeKey): (ids: seq<Option<Json>>)
    ensures |ids| == |items|
    ensures forall j :: 0 <= j < |items| ==> ids[j] == IdentityOf(items[j], key)
  {
    seq(|items|, j requires 0 <= j < |items| => IdentityOf(items[j], key))
  }

  /** The identities present among the first `i` entries of `ids`. */
  function Collected(ids: seq<Option<Json>>, i: nat): set<Json>
    requires i <= |ids|
  {
    if i == 0 then {}
    else Collected(ids, i - 1) + (match ids[i - 1] case None => {} case Some(id) => {id})
  }

  /** The identities of the first `i` items. */
  function SeenBefore(items: seq<Json>, key: DedupeKey, i: nat): set<Json>
    requires i <= |items|
  {
    Collected(Identities(items, key), i)
  }

  /** An identity present before `i` is collected at `i`. */
  lemma {:induction false} CollectedHas(ids: seq<Option<Json>>, i: nat, j: nat, id: Json)
    requires j < i <= |ids| && ids[j] == Some(id)
    ensures id in Collected(ids, i)
    decreases i
  {
    if j < i - 1 {
      CollectedHas(ids, i - 1, j, id);
    }
  }

  /** Every identity collected at `i` is present before `i`. */
  lemma {:induction false} CollectedWitness(ids: seq<Option<Json>>, i: nat, id: Json)
    requires i <= |ids| && id in Collected(ids, i)
    ensures exists j :: 0 <= j < i && ids[j] == Some(id)
    decreases i
  {
    if ids[i - 1] == Some(id) {
      assert 0 <= i - 1 < i;
    } else {
      CollectedWitness(ids, i - 1, id);
      var j :| 0 <= j < i - 1 && ids[j] == Some(id);
      assert 0 <= j < i;
    }
  }

  lemma SeenBeforeMembers(items: seq<Json>, key: DedupeKey, i: nat, id: Json)
    requires i <= |items|
    ensures id in SeenBefore(items, key, i) <==> exists j :: 0 <= j < i && IdentityOf(items[j], key) == Some(id)
  {
    var ids := Identities(items, key);
    if id in SeenBefore(items, key, i) {
      CollectedWitness(ids, i, id);
      var j :| 0 <= j < i && ids[j] == Some(id);
      assert IdentityOf(items[j], key) == Some(id);
    } else {
      forall j | 0 <= j < i ensures IdentityOf(items[j], key) != Some(id) {
        if ids[j] == Some(id) {
          CollectedHas(ids, i, j, id);
        }
      }
    }
  }

  lemma FirstOfIdentityIffUnseen(items: seq<Json>, key: DedupeKey, i: nat)
    requires i < |items| && IdentityOf(items[i], key).Some?
    ensures FirstOfIdentity(items, key, i) <==> IdentityOf(items[i], key).value !in SeenBefore(items, key, i)
  {
    var id := IdentityOf(items[i], key).value;
    SeenBeforeMembers(items, key, i, id);
    if id in SeenBefore(items, key, i) {
      var j :| 0 <= j < i && IdentityOf(items[j], key) == Some(id);
      assert !FirstOfIdentity(items, key, i);
    }
  }

  /** One step of duplicate removal, read at position `i`: the item is kept
      and its identity recorded exactly when that identity is unseen. */
  lemma DedupeAt(items: seq<Json>, key: DedupeKey, i: nat, seen: set<Json>)
    requires i < |items|
    ensures var id := IdentityOf(items[i], key);
      var rest := DedupeFrom(items[i + 1..], key, seen);
      (id.None? ==> DedupeFrom(items[i..], key, seen) == [items[i]] + rest) &&
      (id.Some? && id.value in seen ==> DedupeFrom(items[i..], key, seen) == rest) &&
      (id.Some? && id.value !in seen ==>
        DedupeFrom(items[i..], key, seen) == [items[i]] + DedupeFrom(items[i + 1..], key, seen + {id.value}))
  {
    var suffix := items[i..];
    assert suffix[0] == items[i];
    assert suffix[1..] == items[i + 1..];
  }

  /** The identities seen grow as `DedupeFrom` records them. */
  lemma SeenBeforeNext(items: seq<Json>, key: DedupeKey, i: nat)
    requires i < |items|
    ensures var id := IdentityOf(items[i], key);
      SeenBefore(items, key, i + 1) == if id.Some? then SeenBefore(items, key, i) + {id.value} else SeenBefore(items, key, i)
  {
    assert Identities(items, key)[i] == IdentityOf(items[i], key);
  }

  /** Item `i` survives exactly when its identity is absent or unseen. */
  lemma FirstOfIdentityAt(items: seq<Json>, key: DedupeKey, i: nat)
    requires i < |items|
    ensures var id := IdentityOf(items[i], key);
      FirstOfIdentity(items, key, i) <==> !(id.Some? && id.value in SeenBefore(items, key, i))
  {
    if IdentityOf(items[i], key).Some? {
      FirstOfIdentityIffUnseen(items, key, i);
    }
  }

  /** The filter run from item `i` on, with the identities of the items
      before `i` already seen, keeps what the reference keeps from `i` on. */
  predicate DedupeAgrees(items: seq<Json>, key: DedupeKey, i: nat)
    requires i <= |items|
  {
    DedupeFrom(items[i..], key, SeenBefore(items, key, i)) == FirstOccurrencesFrom(items, key, i)
  }

  lemma {:induction false} DedupeFromMatchesReference(items: seq<Json>, key: DedupeKey, i: nat)
    requires i <= |items|
    ensures DedupeAgrees(items, key, i)
    decreases |items| - i, 1
  {
    if i == |items| {
      DedupeMatchEnd(items, key, i);
    } else {
      DedupeMatchStep(items, key, i);
    }
  }

  /** Past the last item both sides are empty. */
  lemma DedupeMatchEnd(items: seq<Json>, key: DedupeKey, i: nat)
    requires i == |items|
    ensures DedupeAgrees(items, key, i)
  {
    assert items[i..] == [];
  }

  /** The inductive step of `DedupeFromMatchesReference`. */
  lemma {:induction false} DedupeMatchStep(items: seq<Json>, key: DedupeKey, i: nat)
    requires i < |items|
    ensures DedupeAgrees(items, key, i)
    decreases |items| - i, 0
  {
    DedupeFromMatchesReference(items, key, i + 1);
    var seen := SeenBefore(items, key, i);
    var tail := FirstOccurrencesFrom(items, key, i + 1);
    DedupeAt(items, key, i, seen);
    SeenBeforeNext(items, key, i);
    FirstOfIdentityAt(items, key, i);
    var first := FirstOfIdentity(items, key, i);
    assert FirstOccurrencesFrom(items, key, i) == (if first then [items[i]] else []) + tail;
    var id := IdentityOf(items[i], key);
    if id.Some? && id.value in seen {
      assert !first;
      assert SeenBefore(items, key, i + 1) == seen;
      assert [] + tail == tail;
    } else {
      assert first;
      assert DedupeFrom(items[i..], key, seen) == [items[i]] + DedupeFrom(items[i + 1..], key, SeenBefore(items, key, i + 1));
    }
  }

  /** Duplicate removal keeps exactly the items that lack an identity or are
      the first of their identity, in their input order. */
  lemma RemoveDuplicatesIsFirstOccurrences(items: seq<Json>, key: DedupeKey)
    ensures RemoveDuplicates(items, key) == FirstOccurrencesFrom(items, key, 0)
  {
    DedupeFromMatchesReference(items, key, 0);
    assert items[0..] == items;
  }

  /** Without an identifier field, duplicate removal keeps every distinct value
      once and nothing else. */
  lemma RemoveDuplicatesByValue(items: seq<Json>)
    ensures forall x :: x in RemoveDuplicates(items, ByValue) <==> x in items
    ensures NoRepeats(RemoveDuplicates(items, ByValue))
  {
    var r := RemoveDuplicates(items, ByValue);
    DedupeIdentitiesFresh(items, ByValue, {});
    DedupeComplete(items, ByValue, {});
    forall x | x in items ensures x in r {
      var y :| y in r && IdentityOf(y, ByValue) == IdentityOf(x, ByValue);
    }
    forall p, q | 0 <= p < q < |r| ensures r[p] != r[q] {
      assert IdentityOf(r[p], ByValue) != IdentityOf(r[q], ByValue);
    }
  }

  /** The counter the identifier-field branch increments: one per item dropped. */
  function DroppedCount(items: seq<Json>, key: DedupeKey, seen: set<Json>): nat
    decreases |items|
  {
    if |items| == 0 then 0
    else match IdentityOf(items[0], key)
      case None => DroppedCount(items[1..], key, seen)
      case Some(id) =>
        if id in seen then 1 + DroppedCount(items[1..], key, seen)
        else DroppedCount(items[1..], key, seen + {id})
  }

  /** Counting the dropped items one by one gives the same number as the
      length difference the whole-value branch computes. */
  lemma {:induction false} DroppedCountIsLengthDifference(items: seq<Json>, key: DedupeKey, seen: set<Json>)
    ensures DroppedCount(items, key, seen) == |items| - |DedupeFrom(items, key, seen)|
    decreases |items|
  {
    if |items| > 0 {
      match IdentityOf(items[0], key)
      case None => DroppedCountIsLengthDifference(items[1..], key, seen);
      case Some(id) =>
        if id in seen {
          DroppedCountIsLengthDifference(items[1..], key, seen);
        } else {
          DroppedCountIsLengthDifference(items[1..], key, seen + {id});
        }
    }
  }

  // ---------------------------------------------------------------------------
  // Sorting
  // ---------------------------------------------------------------------------

  datatype Direction = Asc | Desc

  /** The integer an item is ordered by: the item itself for the natural order
      (`sortField` empty), else the item's `sortField` property. Items with no
      integer key compare equal to everything. */
  function SortKey(item: Json, field: string): Option<int> {
    if field == "" then
      (if item.JInt? then Some(item.n) else None)
    else if item.JObj? && Lookup(item.entries, field).Some? && Lookup(item.entries, field).value.JInt? then
      Some(Lookup(item.entries, field).value.n)
    else None
  }

  /** The comparator handed to `Array.prototype.sort`. */
  function Compare(a: Json, b: Json, field: string, dir: Direction): int {
    match (SortKey(a, field), SortKey(b, field))
    case (Some(x), Some(y)) =>
      if x < y then (if dir == Asc then -1 else 1)
      else if x > y then (if dir == Asc then 1 else -1)
      else 0
    case _ => 0
  }

  /** `a` may stand before `b` in the requested direction. */
  predicate InOrder(a: Json, b: Json, field: string, dir: Direction) {
    match (SortKey(a, field), SortKey(b, field))
    case (Some(x), Some(y)) => if dir == Asc then x <= y else x >= y
    case _ => true
  }

  predicate Keyed(xs: seq<Json>, field: string) {
    forall i :: 0 <= i < |xs| ==> SortKey(xs[i], field).Some?
  }

  predicate SortedBy(xs: seq<Json>, field: string, dir: Direction) {
    forall i, j :: 0 <= i < j < |xs| ==> InOrder(xs[i], xs[j], field, dir)
  }

  /** Stable insertion of `x` after every item it does not precede. */
  function Insert(sorted: seq<Json>, x: Json, field: string, dir: Direction): (r: seq<Json>)
    ensures multiset(r) == multiset(sorted) + multiset{x}
    decreases |sorted|
  {
    if |sorted| == 0 then [x]
    else
      var init, last := sorted[..|sorted| - 1], sorted[|sorted| - 1];
      assert sorted == init + [last];
      if Compare(last, x, field, dir) > 0 then Insert(init, x, field, dir) + [last]
      else sorted + [x]
  }

  /** With integer keys the comparator decides `InOrder`, which is total and transitive. */
  lemma CompareDecidesOrder(a: Json, b: Json, c: Json, field: string, dir: Direction)
    requires SortKey(a, field).Some? && SortKey(b, field).Some? && SortKey(c, field).Some?
    ensures Compare(a, b, field, dir) > 0 <==> !InOrder(a, b, field, dir)
    ensures !InOrder(a, b, field, dir) ==> InOrder(b, a, field, dir)
    ensures InOrder(a, b, field, dir) && InOrder(b, c, field, dir) ==> InOrder(a, c, field, dir)
  {
  }

  lemma {:induction false} InsertKeepsSorted(sorted: seq<Json>, x: Json, field: string, dir: Direction)
    requires Keyed(sorted, field) && SortKey(x, field).Some? && SortedBy(sorted, field, dir)
    ensures SortedBy(Insert(sorted, x, field, dir), field, dir)
    decreases |sorted|
  {
    if |sorted| > 0 {
      var init, last := sorted[..|sorted| - 1], sorted[|sorted| - 1];
      assert sorted == init + [last];
      if Compare(last, x, field, dir) > 0 {
        InsertKeepsSorted(init, x, field, dir);
        var front := Insert(init, x, field, dir);
        assert Insert(sorted, x, field, dir) == front + [last];
        LastStaysLast(sorted, x, front, field, dir);
      } else {
        assert Insert(sorted, x, field, dir) == sorted + [x];
        AppendAfterLast(sorted, x, field, dir);
      }
    }
  }

  /** An item the last one does not precede goes on the end. */
  lemma AppendAfterLast(sorted: seq<Json>, x: Json, field: string, dir: Direction)
    requires Keyed(sorted, field) && SortKey(x, field).Some? && SortedBy(sorted, field, dir)
    requires |sorted| > 0 && Compare(sorted[|sorted| - 1], x, field, dir) <= 0
    ensures SortedBy(sorted + [x], field, dir)
  {
    var r := sorted + [x];
    var last := sorted[|sorted| - 1];
    forall i, j | 0 <= i < j < |r| ensures InOrder(r[i], r[j], field, dir) {
      if j == |r| - 1 {
        if i < |sorted| - 1 {
          CompareDecidesOrder(sorted[i], last, x, field, dir);
        } else {
          CompareDecidesOrder(last, x, x, field, dir);
        }
      }
    }
  }

  /** An item the last one precedes is inserted before it, which stays last. */
  lemma LastStaysLast(sorted: seq<Json>, x: Json, front: seq<Json>, field: string, dir: Direction)
    requires Keyed(sorted, field) && SortKey(x, field).Some? && SortedBy(sorted, field, dir)
    requires |sorted| > 0 && Compare(sorted[|sorted| - 1], x, field, dir) > 0
    requires SortedBy(front, field, dir)
    requires multiset(front) == multiset(sorted[..|sorted| - 1]) + multiset{x}
    ensures SortedBy(front + [sorted[|sorted| - 1]], field, dir)
  {
    var init, last := sorted[..|sorted| - 1], sorted[|sorted| - 1];
    var r := front + [last];
    CompareDecidesOrder(last, x, x, field, dir);
    forall y | y in front ensures InOrder(y, last, field, dir) {
      assert y in multiset(front);
      if y != x {
        assert y in multiset(init);
        var i :| 0 <= i < |init| && init[i] == y;
        assert sorted[i] == y;
      }
    }
    forall i, j | 0 <= i < j < |r| ensures InOrder(r[i], r[j], field, dir) {
      if j == |r| - 1 {
        assert r[i] == front[i];
        assert r[i] in front;
      } else {
        assert r[i] == front[i] && r[j] == front[j];
      }
    }
  }

  /** The sort option: a permutation of the items which, when every item has
      an integer key, is ordered by that key in the requested direction. */
  function SortItems(xs: seq<Json>, field: string, dir: Direction): (r: seq<Json>)
    ensures multiset(r) == multiset(xs)
    ensures Keyed(xs, field) ==> SortedBy(r, field, dir)
    decreases |xs|
  {
    if |xs| == 0 then []
    else
      var init := xs[..|xs| - 1];
      assert xs == init + [xs[|xs| - 1]];
      var s := SortItems(init, field, dir);
      assert Keyed(xs, field) ==> Keyed(s, field) by {
        if Keyed(xs, field) {
          forall i | 0 <= i < |s| ensures SortKey(s[i], field).Some? {
            assert s[i] in multiset(init);
            var j :| 0 <= j < |init| && init[j] == s[i];
            assert xs[j] == s[i];
          }
        }
      }
      assert Keyed(xs, field) ==> SortedBy(Insert(s, xs[|xs| - 1], field, dir), field, dir) by {
        if Keyed(xs, field) {
          InsertKeepsSorted(s, xs[|xs| - 1], field, dir);
        }
      }
      Insert(s, xs[|xs| - 1], field, dir)
  }

  // ---------------------------------------------------------------------------
  // Flattening
  // ---------------------------------------------------------------------------

  /** How many levels to flatten; `flattenDepth || Infinity` turns an absent
      or zero depth into Unbounded. */
  datatype Depth = Finite(levels: int) | Unbounded

  function DepthOf(flattenDepth: int): Depth {
    if flattenDepth == 0 then Unbounded else Finite(flattenDepth)
  }

  function Lower(d: Depth): Depth {
    match d
    case Finite(n) => Finite(n - 1)
    case Unbounded => Unbounded
  }

  /** `flattenArray`: a copy when the depth is below one, else every array
      element is spliced in, itself flattened one level less while levels remain. */
  function FlattenArray(xs: seq<Json>, depth: Depth): seq<Json>
    decreases xs
  {
    if depth.Finite? && depth.levels < 1 then xs
    else if |xs| == 0 then []
    else
      var head := match xs[0]
        case JArr(inner) =>
          if depth.Unbounded? || depth.levels > 1 then FlattenArray(inner, Lower(depth)) else inner
        case _ => [xs[0]];
      head + FlattenArray(xs[1..], depth)
  }

  function Max(a: nat, b: nat): nat {
    if a < b then b else a
  }

  /** How deeply arrays nest inside a list: 0 when no item is an array. */
  function NestingDepth(xs: seq<Json>): nat
    decreases xs
  {
    if |xs| == 0 then 0
    else
      var here := match xs[0] case JArr(inner) => 1 + NestingDepth(inner) case _ => 0;
      Max(here, NestingDepth(xs[1..]))
  }

  /** The non-array values of a nested list, left to right. */
  function Leaves(xs: seq<Json>): seq<Json>
    decreases xs
  {
    if |xs| == 0 then []
    else (match xs[0] case JArr(inner) => Leaves(inner) case _ => [xs[0]]) + Leaves(xs[1..])
  }

  lemma {:induction false} LeavesAppend(a: seq<Json>, b: seq<Json>)
    ensures Leaves(a + b) == Leaves(a) + Leaves(b)
    decreases |a|
  {
    if |a| > 0 {
      assert (a + b)[0] == a[0];
      assert (a + b)[1..] == a[1..] + b;
      LeavesAppend(a[1..], b);
    } else {
      assert a + b == b;
    }
  }

  lemma {:induction false} NestingDepthAppend(a: seq<Json>, b: seq<Json>)
    ensures NestingDepth(a + b) == Max(NestingDepth(a), NestingDepth(b))
    decreases |a|
  {
    if |a| > 0 {
      assert (a + b)[0] == a[0];
      assert (a + b)[1..] == a[1..] + b;
      NestingDepthAppend(a[1..], b);
    } else {
      assert a + b == b;
    }
  }

  /** Flattening never loses, adds or reorders a non-array value. */
  lemma {:induction false} FlattenKeepsLeaves(xs: seq<Json>, depth: Depth)
    ensures Leaves(FlattenArray(xs, depth)) == Leaves(xs)
    decreases xs
  {
    if !(depth.Finite? && depth.levels < 1) && |xs| > 0 {
      var head := match xs[0]
        case JArr(inner) =>
          if depth.Unbounded? || depth.levels > 1 then FlattenArray(inner, Lower(depth)) else inner
        case _ => [xs[0]];
      LeavesAppend(head, FlattenArray(xs[1..], depth));
      FlattenKeepsLeaves(xs[1..], depth);
      match xs[0]
      case JArr(inner) =>
        if depth.Unbounded? || depth.levels > 1 {
          FlattenKeepsLeaves(inner, Lower(depth));
        }
      case _ =>
        assert [xs[0]][1..] == [];
    }
  }

  /** Flattening by `d >= 1` levels removes exactly `d` levels of nesting. */
  lemma {:induction false} FlattenRemovesLevels(xs: seq<Json>, d: nat)
    requires d >= 1
    ensures NestingDepth(FlattenArray(xs, Finite(d))) == if NestingDepth(xs) >= d then NestingDepth(xs) - d else 0
    decreases xs
  {
    if |xs| > 0 {
      var head := match xs[0]
        case JArr(inner) => if d > 1 then FlattenArray(inner, Finite(d - 1)) else inner
        case _ => [xs[0]];
      NestingDepthAppend(head, FlattenArray(xs[1..], Finite(d)));
      FlattenRemovesLevels(xs[1..], d);
      match xs[0]
      case JArr(inner) =>
        if d > 1 {
          FlattenRemovesLevels(inner, d - 1);
        }
      case _ =>
        assert [xs[0]][1..] == [];
    }
  }

  /** Flattening without a depth bound yields exactly the non-array values. */
  lemma {:induction false} FlattenUnboundedIsLeaves(xs: seq<Json>)
    ensures FlattenArray(xs, Unbounded) == Leaves(xs)
    ensures NestingDepth(FlattenArray(xs, Unbounded)) == 0
    decreases xs
  {
    if |xs| > 0 {
      FlattenUnboundedIsLeaves(xs[1..]);
      match xs[0]
      case JArr(inner) =>
        FlattenUnboundedIsLeaves(inner);
        NestingDepthAppend(Leaves(inner), Leaves(xs[1..]));
      case _ =>
        assert [xs[0]][1..] == [];
        NestingDepthAppend([xs[0]], Leaves(xs[1..]));
    }
  }

  /** An array with no nested arrays is left as it is. */
  lemma {:induction false} FlattenFlatIsIdentity(xs: seq<Json>, depth: Depth)
    requires NestingDepth(xs) == 0
    ensures FlattenArray(xs, depth) == xs
    decreases xs
  {
    if |xs| > 0 {
      FlattenFlatIsIdentity(xs[1..], depth);
      assert xs == [xs[0]] + xs[1..];
    }
  }

  // ---------------------------------------------------------------------------
  // Array options and the array modes
  // ---------------------------------------------------------------------------

  /** The `arrayOptions` record; an empty `sortField` or `identifierField`
      counts as absent, as the source's truthiness tests do. */
  datatype ArrayOptions = ArrayOptions(
    sort: bool,
    sortField: string,
    sortDirection: Direction,
    removeDuplicates: bool,
    identifierField: string,
    flatten: bool,
    flattenDepth: int)

  function DedupeKeyOf(opts: ArrayOptions): DedupeKey {
    if opts.identifierField != "" then ByField(opts.identifierField) else ByValue
  }

  function SortIfRequested(xs: seq<Json>, opts: ArrayOptions): seq<Json> {
    if opts.sort then SortItems(xs, opts.sortField, opts.sortDirection) else xs
  }

  /** The post-processing of `concat`: remove duplicates, then sort, then flatten. */
  function ApplyArrayOptions(xs: seq<Json>, opts: ArrayOptions): seq<Json> {
    var deduped := if opts.removeDuplicates then RemoveDuplicates(xs, DedupeKeyOf(opts)) else xs;
    var sorted := SortIfRequested(deduped, opts);
    if opts.flatten then FlattenArray(sorted, DepthOf(opts.flattenDepth)) else sorted
  }

  /** `concatArrays`. */
  function ConcatArrays(inputs: Inputs, opts: ArrayOptions): seq<Json> {
    ApplyArrayOptions(ConcatInputs(inputs), opts)
  }

  /** With no option switched on, `concat` is plain concatenation of the
      coerced inputs, so its length is the sum of their lengths. */
  lemma ConcatWithoutOptions(inputs: Inputs, opts: ArrayOptions)
    requires !opts.removeDuplicates && !opts.sort && !opts.flatten
    ensures ConcatArrays(inputs, opts) == ConcatInputs(inputs)
    ensures |ConcatArrays(inputs, opts)| == CoercedLength(inputs)
  {
    ConcatLength(inputs);
  }

  /** Sorting only permutes and flattening only unnests, so with duplicate
      removal off the options keep the multiset of non-array values. */
  lemma ArrayOptionsKeepLeaves(xs: seq<Json>, opts: ArrayOptions)
    requires !opts.removeDuplicates && !opts.sort
    ensures Leaves(ApplyArrayOptions(xs, opts)) == Leaves(xs)
  {
    if opts.flatten {
      FlattenKeepsLeaves(xs, DepthOf(opts.flattenDepth));
    }
  }

  /** `unionArrays`' inner loop: push each unseen item and mark it seen. */
  function UnionItems(acc: seq<Json>, seen: set<Json>, items: seq<Json>): (seq<Json>, set<Json>)
    decreases |items|
  {
    if |items| == 0 then (acc, seen)
    else if items[0] in seen then UnionItems(acc, seen, items[1..])
    else UnionItems(acc + [items[0]], seen + {items[0]}, items[1..])
  }

  /** `unionArrays`' outer loop over the coerced inputs. */
  function UnionOnto(acc: seq<Json>, seen: set<Json>, inputs: Inputs): seq<Json>
    decreases |inputs|
  {
    if |inputs| == 0 then acc
    else
      var (acc', seen') := UnionItems(acc, seen, AsArray(inputs[0].value));
      UnionOnto(acc', seen', inputs[1..])
  }

  /** `unionArrays`: first-seen distinct items across all inputs, then sorted
      if requested (no duplicate-removal or flatten step). */
  function UnionArrays(inputs: Inputs, opts: ArrayOptions): seq<Json> {
    SortIfRequested(UnionOnto([], {}, inputs), opts)
  }

  function Elems(xs: seq<Json>): set<Json> {
    set x | x in xs
  }

  lemma {:induction false} UnionItemsIsDedupe(acc: seq<Json>, seen: set<Json>, items: seq<Json>)
    ensures UnionItems(acc, seen, items).0 == acc + DedupeFrom(items, ByValue, seen)
    ensures UnionItems(acc, seen, items).1 == seen + Elems(items)
    decreases |items|
  {
    if |items| == 0 {
      assert Elems(items) == {};
    } else {
      var x := items[0];
      assert Elems(items) == {x} + Elems(items[1..]);
      assert IdentityOf(x, ByValue) == Some(x);
      if x in seen {
        UnionItemsIsDedupe(acc, seen, items[1..]);
        assert UnionItems(acc, seen, items) == UnionItems(acc, seen, items[1..]);
        assert DedupeFrom(items, ByValue, seen) == DedupeFrom(items[1..], ByValue, seen);
      } else {
        UnionItemsIsDedupe(acc + [x], seen + {x}, items[1..]);
        assert UnionItems(acc, seen, items) == UnionItems(acc + [x], seen + {x}, items[1..]);
        assert DedupeFrom(items, ByValue, seen) == [x] + DedupeFrom(items[1..], ByValue, seen + {x});
        assert acc + [x] + DedupeFrom(items[1..], ByValue, seen + {x})
            == acc + ([x] + DedupeFrom(items[1..], ByValue, seen + {x}));
      }
    }
  }

  /** Removing duplicates from a concatenation: the second part is filtered
      against everything the first part contributed. */
  lemma {:induction false} DedupeByValueAppend(a: seq<Json>, b: seq<Json>, seen: set<Json>)
    ensures DedupeFrom(a + b, ByValue, seen) == DedupeFrom(a, ByValue, seen) + DedupeFrom(b, ByValue, seen + Elems(a))
    decreases |a|
  {
    if |a| == 0 {
      assert a + b == b;
      assert Elems(a) == {};
      assert seen + Elems(a) == seen;
    } else {
      assert (a + b)[0] == a[0];
      assert (a + b)[1..] == a[1..] + b;
      assert Elems(a) == {a[0]} + Elems(a[1..]);
      if a[0] in seen {
        DedupeByValueAppend(a[1..], b, seen);
        assert seen + Elems(a[1..]) == seen + Elems(a);
      } else {
        DedupeByValueAppend(a[1..], b, seen + {a[0]});
        assert seen + {a[0]} + Elems(a[1..]) == seen + Elems(a);
      }
    }
  }

  lemma {:induction false} UnionOntoIsDedupe(acc: seq<Json>, seen: set<Json>, inputs: Inputs)
    ensures UnionOnto(acc, seen, inputs) == acc + DedupeFrom(ConcatInputs(inputs), ByValue, seen)
    decreases |inputs|
  {
    if |inputs| == 0 {
      assert ConcatInputs(inputs) == [];
    } else {
      var first := AsArray(inputs[0].value);
      UnionItemsIsDedupe(acc, seen, first);
      UnionOntoIsDedupe(acc + DedupeFrom(first, ByValue, seen), seen + Elems(first), inputs[1..]);
      assert inputs == [inputs[0]] + inputs[1..];
      ConcatSplits([inputs[0]], inputs[1..]);
      ConcatSingle(inputs[0]);
      DedupeByValueAppend(first, ConcatInputs(inputs[1..]), seen);
    }
  }

  /** `union` before sorting is duplicate removal over the concatenation: the
      distinct values of all inputs, each once, in first-seen order. */
  lemma UnionIsDedupeOfConcat(inputs: Inputs)
    ensures UnionOnto([], {}, inputs) == RemoveDuplicates(ConcatInputs(inputs), ByValue)
    ensures forall x :: x in UnionOnto([], {}, inputs) <==> x in ConcatInputs(inputs)
    ensures NoRepeats(UnionOnto([], {}, inputs))
  {
    UnionOntoIsDedupe([], {}, inputs);
    assert [] + DedupeFrom(ConcatInputs(inputs), ByValue, {}) == RemoveDuplicates(ConcatInputs(inputs), ByValue);
    RemoveDuplicatesByValue(ConcatInputs(inputs));
  }

  /** The coerced inputs that are not empty; `intersectionArrays` ignores the rest. */
  function NonEmptyArrays(inputs: Inputs): (arrays: seq<seq<Json>>)
    ensures forall i :: 0 <= i < |arrays| ==> |arrays[i]| > 0
  {
    if |inputs| == 0 then []
    else if |AsArray(inputs[0].value)| == 0 then NonEmptyArrays(inputs[1..])
    else [AsArray(inputs[0].value)] + NonEmptyArrays(inputs[1..])
  }

  function Flat(arrays: seq<seq<Json>>): seq<Json> {
    if |arrays| == 0 then [] else arrays[0] + Flat(arrays[1..])
  }

  /** The `itemCounts` entry of an item: in how many arrays it occurs. */
  function ArraysContaining(x: Json, arrays: seq<seq<Json>>): nat {
    if |arrays| == 0 then 0
    else (if x in arrays[0] then 1 else 0) + ArraysContaining(x, arrays[1..])
  }

  lemma {:induction false} ArraysContainingBound(x: Json, arrays: seq<seq<Json>>)
    ensures ArraysContaining(x, arrays) <= |arrays|
    ensures ArraysContaining(x, arrays) == |arrays| <==> forall i :: 0 <= i < |arrays| ==> x in arrays[i]
  {
    if |arrays| > 0 {
      ArraysContainingBound(x, arrays[1..]);
      if forall i :: 0 <= i < |arrays[1..]| ==> x in arrays[1..][i] {
        if x in arrays[0] {
          forall i | 0 <= i < |arrays| ensures x in arrays[i] {
            if i > 0 { assert arrays[i] == arrays[1..][i - 1]; }
          }
        }
      } else {
        var i :| 0 <= i < |arrays[1..]| && x !in arrays[1..][i];
        assert x !in arrays[i + 1];
      }
    }
  }

  /** The entries of `itemCounts`, in insertion order, whose count equals the
      number of arrays. */
  function KeepCounted(keys: seq<Json>, arrays: seq<seq<Json>>): seq<Json> {
    if |keys| == 0 then []
    else (if ArraysContaining(keys[0], arrays) == |arrays| then [keys[0]] else []) + KeepCounted(keys[1..], arrays)
  }

  /** `intersectionArrays`: no non-empty input gives [], one gives that input
      unchanged (and unsorted); otherwise the items present in every
      non-empty input, in first-seen order, sorted if requested. */
  function IntersectionArrays(inputs: Inputs, opts: ArrayOptions): seq<Json> {
    var arrays := NonEmptyArrays(inputs);
    if |arrays| == 0 then []
    else if |arrays| == 1 then arrays[0]
    else SortIfRequested(KeepCounted(RemoveDuplicates(Flat(arrays), ByValue), arrays), opts)
  }

  lemma {:induction false} KeepCountedMembers(keys: seq<Json>, arrays: seq<seq<Json>>)
    ensures forall x :: x in KeepCounted(keys, arrays) <==>
              x in keys && forall i :: 0 <= i < |arrays| ==> x in arrays[i]
  {
    if |keys| > 0 {
      KeepCountedMembers(keys[1..], arrays);
      forall x ensures x in KeepCounted(keys, arrays) <==> x in keys && forall i :: 0 <= i < |arrays| ==> x in arrays[i] {
        ArraysContainingBound(x, arrays);
        assert x in keys <==> x == keys[0] || x in keys[1..];
      }
    }
  }

  lemma {:induction false} KeepCountedDistinct(keys: seq<Json>, arrays: seq<seq<Json>>)
    requires NoRepeats(keys)
    ensures NoRepeats(KeepCounted(keys, arrays))
  {
    if |keys| > 0 {
      NoRepeatsTail(keys);
      KeepCountedDistinct(keys[1..], arrays);
      KeepCountedMembers(keys[1..], arrays);
      var rest := KeepCounted(keys[1..], arrays);
      if ArraysContaining(keys[0], arrays) == |arrays| {
        NoRepeatsCons(keys[0], rest);
      } else {
        assert KeepCounted(keys, arrays) == [] + rest;
      }
    }
  }

  lemma {:induction false} FlatMembers(arrays: seq<seq<Json>>)
    ensures forall x :: x in Flat(arrays) <==> exists i :: 0 <= i < |arrays| && x in arrays[i]
  {
    if |arrays| > 0 {
      FlatMembers(arrays[1..]);
      assert Flat(arrays) == arrays[0] + Flat(arrays[1..]);
      forall x | x in Flat(arrays) ensures exists i :: 0 <= i < |arrays| && x in arrays[i] {
        if x !in arrays[0] {
          assert x in Flat(arrays[1..]);
          var i :| 0 <= i < |arrays[1..]| && x in arrays[1..][i];
          assert x in arrays[i + 1];
        }
      }
      forall x, i | 0 <= i < |arrays| && x in arrays[i] ensures x in Flat(arrays) {
        if i > 0 { assert x in arrays[1..][i - 1]; }
      }
    }
  }

  /** With two or more non-empty inputs and no sort, the intersection holds
      exactly the values common to every non-empty input, each once. */
  lemma IntersectionIsCommonValues(inputs: Inputs, opts: ArrayOptions)
    requires |NonEmptyArrays(inputs)| >= 2 && !opts.sort
    ensures forall x :: x in IntersectionArrays(inputs, opts) <==>
              forall i :: 0 <= i < |NonEmptyArrays(inputs)| ==> x in NonEmptyArrays(inputs)[i]
    ensures NoRepeats(IntersectionArrays(inputs, opts))
  {
    var arrays := NonEmptyArrays(inputs);
    var keys := RemoveDuplicates(Flat(arrays), ByValue);
    RemoveDuplicatesByValue(Flat(arrays));
    FlatMembers(arrays);
    KeepCountedMembers(keys, arrays);
    KeepCountedDistinct(keys, arrays);
    forall x | forall i :: 0 <= i < |arrays| ==> x in arrays[i]
      ensures x in keys
    {
      assert x in arrays[0];
    }
  }

  // ---------------------------------------------------------------------------
  // The behaviour the tests pin down
  // ---------------------------------------------------------------------------

  const NoOptions := ArrayOptions(false, "", Asc, false, "", false, 0)

  function Ints(ns: seq<int>): seq<Json> {
    seq(|ns|, i requires 0 <= i < |ns| => JInt(ns[i]))
  }

  /** Wrapping numbers commutes with appending. */
  lemma IntsAppend(a: seq<int>, b: seq<int>)
    ensures Ints(a) + Ints(b) == Ints(a + b)
  {
    assert forall i :: 0 <= i < |a| + |b| ==> (Ints(a) + Ints(b))[i] == Ints(a + b)[i];
  }

  /** `concat` of [1,2,3] and [4,5,6] is [1..6]. */
  lemma ConcatExample()
    ensures ConcatArrays([Entry("input1", JArr(Ints([1, 2, 3]))), Entry("input2", JArr(Ints([4, 5, 6])))], NoOptions)
         == Ints([1, 2, 3, 4, 5, 6])
  {
    var inputs := [Entry("input1", JArr(Ints([1, 2, 3]))), Entry("input2", JArr(Ints([4, 5, 6])))];
    ConcatWithoutOptions(inputs, NoOptions);
    ConcatFirst(inputs);
    assert inputs[1..] == [inputs[1]];
    ConcatSingle(inputs[1]);
    IntsAppend([1, 2, 3], [4, 5, 6]);
    assert [1, 2, 3] + [4, 5, 6] == [1, 2, 3, 4, 5, 6];
  }

  /** One step of duplicate removal by value, read at position `i`. */
  lemma DedupeStep(xs: seq<Json>, i: nat, seen: set<Json>)
    requires i < |xs|
    ensures DedupeFrom(xs[i..], ByValue, seen) ==
      if xs[i] in seen then DedupeFrom(xs[i + 1..], ByValue, seen)
      else [xs[i]] + DedupeFrom(xs[i + 1..], ByValue, seen + {xs[i]})
  {
    assert xs[i..][0] == xs[i];
    assert xs[i..][1..] == xs[i + 1..];
  }

  /** One step of `KeepCounted`, read at position `i`. */
  lemma KeepCountedStep(keys: seq<Json>, arrays: seq<seq<Json>>, i: nat)
    requires i < |keys|
    ensures KeepCounted(keys[i..], arrays) ==
      (if ArraysContaining(keys[i], arrays) == |arrays| then [keys[i]] else []) + KeepCounted(keys[i + 1..], arrays)
  {
    assert keys[i..][0] == keys[i];
    assert keys[i..][1..] == keys[i + 1..];
  }
}

=== FILE: merge_engine.dfy ===
/**
 * `executeMerge`: the top level of the merge engine. It counts the inputs,
 * runs the optional pre-transform, short-circuits in simulation mode,
 * dispatches on the mode, runs the optional post-transform, counts the
 * output, and turns a failure into the configured fallback.
 */
module MergeEngine {
  import opened Results
  import opened Json
  import opened MergeArrays
  import opened MergeObjects

  datatype MergeMode =
    | ConcatMode
    | ObjectMode
    | AutoMode
    | UnionMode
    | IntersectionMode
    | CustomMode
    | UnknownMode(name: string)

  datatype ObjectStrategy =
    | Replace
    | Keep
    | Deep
    | CustomStrategy
    | UnknownStrategy(name: string)

  datatype ErrorHandling = Ignore | Default | Stop

  datatype KeyPrefixOptions = KeyPrefixOptions(enabled: bool, prefixes: seq<Prefix>, separator: string)

  /** The merge configuration; an empty code string counts as absent, as the
      source's truthiness tests do. `batchProcessing` and `enableLogging` are
      carried but change no result. */
  datatype MergeConfig = MergeConfig(
    mode: MergeMode,
    objectStrategy: ObjectStrategy,
    arrayOptions: ArrayOptions,
    keyPrefix: KeyPrefixOptions,
    preTransform: string,
    postTransform: string,
    errorHandling: ErrorHandling,
    batchProcessing: bool,
    collectStats: bool,
    simulationMode: bool,
    customCode: string,
    enableLogging: bool)

  /** The user code the configuration names, each run by an opaque evaluator:
      the pre-transform, the post-transform, the custom object strategy and
      the custom merge mode. */
  datatype UserCode = UserCode(
    preTransform: (string, Inputs) -> Outcome<Inputs>,
    postTransform: (string, Json) -> Outcome<Json>,
    objectMerge: (string, seq<Json>) -> Outcome<Json>,
    customMerge: (string, Inputs, MergeConfig) -> Outcome<Json>)

  datatype MergeError = MergeError(message: string, source: string)

  /** The per-call statistics; `conflicts` is always 0 because the counters
      the strategies bump belong to a different, module-level record. */
  datatype MergeStats = MergeStats(
    inputCount: seq<Entry>,
    outputCount: nat,
    conflicts: nat,
    errors: seq<MergeError>)

  /** The returned data: a merged value, or the simulation echo
      `{simulation: true, inputs, config}`. */
  datatype MergeData = Value(value: Json) | Simulation(inputs: Inputs, config: MergeConfig)

  datatype MergeResult = MergeResult(data: MergeData, stats: Option<MergeStats>)

  // ---------------------------------------------------------------------------
  // Counting
  // ---------------------------------------------------------------------------

  /** How many items one input counts for: 0 for null, its length for an
      array, 1 for anything else. */
  function InputCount(v: Json): nat {
    match v
    case JNull => 0
    case JArr(xs) => |xs|
    case _ => 1
  }

  /** `stats.inputCount`: one count per input name. */
  function InputCounts(inputs: Inputs): (counts: seq<Entry>)
    ensures |counts| == |inputs|
    ensures forall i :: 0 <= i < |inputs| ==>
              counts[i] == Entry(inputs[i].key, JInt(InputCount(inputs[i].value)))
  {
    seq(|inputs|, i requires 0 <= i < |inputs| => Entry(inputs[i].key, JInt(InputCount(inputs[i].value))))
  }

  /** `stats.outputCount`: an array's length, an object's number of keys, and
      1 for anything else (null included). */
  function OutputCount(v: Json): nat {
    match v
    case JArr(xs) => |xs|
    case JObj(es) => |KeySet(es)|
    case _ => 1
  }

  // ---------------------------------------------------------------------------
  // The modes
  // ---------------------------------------------------------------------------

  const CustomObjectCodeRequired := "Code personnalisé requis pour la stratégie de fusion personnalisée"
  const CustomMergeCodeRequired := "Code personnalisé requis pour le mode de fusion personnalisé"
  const CustomCodeFailed := "Erreur dans le code personnalisé: "
  const UnknownStrategyPrefix := "Stratégie de fusion d'objets non reconnue: "
  const UnknownModePrefix := "Mode de fusion non reconnu: "
  const PreTransformFailed := "Erreur de pré-transformation: "
  const PostTransformFailed := "Erreur de post-transformation: "

  /** `mergeObjects`: the inputs coerced to objects, combined by the chosen
      strategy, then optionally re-keyed by source prefix. */
  function MergeObjectInputs(inputs: Inputs, config: MergeConfig, objectMerge: (string, seq<Json>) -> Outcome<Json>): Outcome<Json> {
    var objs := Objects(inputs);
    var merged: Outcome<Json> :=
      match config.objectStrategy
      case Replace => Ok(JObj(ReplaceAll(objs)))
      case Keep => Ok(JObj(KeepAll(objs)))
      case Deep => Ok(JObj(DeepAll(objs)))
      case CustomStrategy =>
        if config.customCode == "" then Err(CustomObjectCodeRequired)
        else
          (match objectMerge(config.customCode, seq(|objs|, i requires 0 <= i < |objs| => JObj(objs[i])))
           case Ok(v) => Ok(v)
           case Err(m) => Err(CustomCodeFailed + m))
      case UnknownStrategy(name) => Err(UnknownStrategyPrefix + name);
    match merged
    case Err(m) => Err(m)
    case Ok(v) =>
      if config.keyPrefix.enabled
      then Ok(JObj(ApplyKeyPrefixes(OwnEntries(v), config.keyPrefix.prefixes, config.keyPrefix.separator)))
      else Ok(v)
  }

  /** Every input is an array or null. */
  predicate AllArrays(inputs: Inputs) {
    forall i :: 0 <= i < |inputs| ==> inputs[i].value.JArr? || inputs[i].value.JNull?
  }

  /** Every input is a plain object or null. */
  predicate AllObjects(inputs: Inputs) {
    forall i :: 0 <= i < |inputs| ==> inputs[i].value.JObj? || inputs[i].value.JNull?
  }

  /** `autoMerge`: arrays (or nulls) are concatenated, objects (or nulls) are
      merged, and a mixture falls back to concatenation. */
  function AutoMerge(inputs: Inputs, config: MergeConfig, objectMerge: (string, seq<Json>) -> Outcome<Json>): Outcome<Json> {
    if AllArrays(inputs) then Ok(JArr(ConcatArrays(inputs, config.arrayOptions)))
    else if AllObjects(inputs) then MergeObjectInputs(inputs, config, objectMerge)
    else Ok(JArr(ConcatArrays(inputs, config.arrayOptions)))
  }

  /** `customMerge`: the user's merge function, its failure reported with a prefix. */
  function CustomMerge(inputs: Inputs, config: MergeConfig, customMerge: (string, Inputs, MergeConfig) -> Outcome<Json>): Outcome<Json> {
    if config.customCode == "" then Err(CustomMergeCodeRequired)
    else
      match customMerge(config.customCode, inputs, config)
      case Ok(v) => Ok(v)
      case Err(m) => Err(CustomCodeFailed + m)
  }

  /** The `switch (config.mode)` of `executeMerge`. */
  function RunMode(inputs: Inputs, config: MergeConfig, code: UserCode): Outcome<Json> {
    match config.mode
    case ConcatMode => Ok(JArr(ConcatArrays(inputs, config.arrayOptions)))
    case ObjectMode => MergeObjectInputs(inputs, config, code.objectMerge)
    case AutoMode => AutoMerge(inputs, config, code.objectMerge)
    case UnionMode => Ok(JArr(UnionArrays(inputs, config.arrayOptions)))
    case IntersectionMode => Ok(JArr(IntersectionArrays(inputs, config.arrayOptions)))
    case CustomMode => CustomMerge(inputs, config, code.customMerge)
    case UnknownMode(name) => Err(UnknownModePrefix + name)
  }

  // ---------------------------------------------------------------------------
  // executeMerge
  // ---------------------------------------------------------------------------

  /** A stage's output together with the errors it recorded. */
  datatype Staged<T> = Staged(value: T, errors: seq<MergeError>)

  /** The pre-transform: its result replaces the inputs; a failure aborts
      under `stop` and is otherwise recorded while the inputs stay as they were. */
  function PreStage(inputs: Inputs, config: MergeConfig, code: UserCode): Outcome<Staged<Inputs>> {
    if config.preTransform == "" then Ok(Staged(inputs, []))
    else
      match code.preTransform(config.preTransform, inputs)
      case Ok(p) => Ok(Staged(p, []))
      case Err(m) =>
        if config.errorHandling == Stop then Err(PreTransformFailed + m)
        else Ok(Staged(inputs, [MergeError(PreTransformFailed + m, "preTransform")]))
  }

  /** The post-transform, with the same failure policy as the pre-transform. */
  function PostStage(result: Json, config: MergeConfig, code: UserCode): Outcome<Staged<Json>> {
    if config.postTransform == "" then Ok(Staged(result, []))
    else
      match code.postTransform(config.postTransform, result)
      case Ok(v) => Ok(Staged(v, []))
      case Err(m) =>
        if config.errorHandling == Stop then Err(PostTransformFailed + m)
        else Ok(Staged(result, [MergeError(PostTransformFailed + m, "postTransform")]))
  }

  /** The outer `catch`: rethrow under `stop`; otherwise record the message and
      return `{}` under `default` or null under `ignore`. */
  function Fallback(message: string, counts: seq<Entry>, errors: seq<MergeError>, config: MergeConfig): (r: Outcome<MergeResult>)
    ensures r.Err? <==> config.errorHandling == Stop
  {
    if config.errorHandling == Stop then Err(message)
    else
      var data := if config.errorHandling == Default then JObj([]) else JNull;
      var stats := MergeStats(counts, 0, 0, errors + [MergeError(message, "execution")]);
      Ok(MergeResult(Value(data), if config.collectStats then Some(stats) else None))
  }

  /** `executeMerge`. A failure comes back as `Err` only under `stop`; a
      successful run returns the simulation echo exactly in simulation mode,
      and outside it returns statistics exactly when they are collected. */
  function ExecuteMerge(inputs: Inputs, config: MergeConfig, code: UserCode): (r: Outcome<MergeResult>)
    ensures r.Err? ==> config.errorHandling == Stop
    ensures r.Ok? ==> (r.value.data.Simulation? <==> config.simulationMode)
    ensures r.Ok? && !config.simulationMode ==> (r.value.stats.Some? <==> config.collectStats)
  {
    var counts := if config.collectStats then InputCounts(inputs) else [];
    match PreStage(inputs, config, code)
    case Err(m) => Err(m)
    case Ok(pre) => Proceed(pre, counts, config, code)
  }

  /** Everything after the pre-transform, given its result and the input counts. */
  function Proceed(pre: Staged<Inputs>, counts: seq<Entry>, config: MergeConfig, code: UserCode): (r: Outcome<MergeResult>)
    ensures r.Err? ==> config.errorHandling == Stop
    ensures r.Ok? ==> (r.value.data.Simulation? <==> config.simulationMode)
    ensures r.Ok? && !config.simulationMode ==> (r.value.stats.Some? <==> config.collectStats)
  {
    if config.simulationMode then
      Ok(MergeResult(Simulation(pre.value, config), Some(MergeStats(counts, 0, 0, pre.errors))))
    else
      match RunMode(pre.value, config, code)
      case Err(m) => Fallback(m, counts, pre.errors, config)
      case Ok(merged) =>
        match PostStage(merged, config, code)
        case Err(m) => Fallback(m, counts, pre.errors, config)
        case Ok(post) =>
          var stats := MergeStats(counts, OutputCount(post.value), 0, pre.errors + post.errors);
          Ok(MergeResult(Value(post.value), if config.collectStats then Some(stats) else None))
  }

  /** Errors recorded before the merge are carried in front of the later ones
      and change nothing else. */
  lemma ProceedCarriesErrors(v: Inputs, earlier: seq<MergeError>, counts: seq<Entry>, config: MergeConfig, code: UserCode)
    ensures var r := Proceed(Staged(v, earlier), counts, config, code);
            var plain := Proceed(Staged(v, []), counts, config, code);
            && r.Ok? == plain.Ok?
            && (r.Ok? ==> r.value.data == plain.value.data)
            && (r.Ok? && r.value.stats.Some? ==>
                  plain.value.stats.Some? && r.value.stats.value.errors == earlier + plain.value.stats.value.errors)
  {
    assert [] + earlier == earlier;
  }

  // ---------------------------------------------------------------------------
  // Properties of executeMerge
  // ---------------------------------------------------------------------------

  /** Simulation mode returns the inputs and the configuration before any
      merging: the mode and the merge code are never consulted, and the
      statistics come back even when they are not collected. */
  lemma SimulationShortCircuit(inputs: Inputs, config: MergeConfig, code: UserCode, other: UserCode)
    requires config.simulationMode && config.preTransform == ""
    ensures ExecuteMerge(inputs, config, code).Ok?
    ensures ExecuteMerge(inputs, config, code).value.data == Simulation(inputs, config)
    ensures ExecuteMerge(inputs, config, code).value.stats.Some?
    ensures ExecuteMerge(inputs, config, code).value.stats.value.outputCount == 0
    ensures ExecuteMerge(inputs, config, code).value.stats.value.errors == []
    ensures ExecuteMerge(inputs, config, code) == ExecuteMerge(inputs, config, other)
  {
  }

  /** A failing mode under each error policy: `stop` propagates the message,
      `default` returns `{}`, `ignore` returns null; the latter two record the
      message as an execution error and return statistics only when collected. */
  lemma ErrorPolicy(inputs: Inputs, config: MergeConfig, code: UserCode, m: string)
    requires !config.simulationMode && config.preTransform == ""
    requires RunMode(inputs, config, code) == Err(m)
    ensures config.errorHandling == Stop ==> ExecuteMerge(inputs, config, code) == Err(m)
    ensures config.errorHandling == Default ==>
              ExecuteMerge(inputs, config, code).Ok? && ExecuteMerge(inputs, config, code).value.data == Value(JObj([]))
    ensures config.errorHandling == Ignore ==>
              ExecuteMerge(inputs, config, code).Ok? && ExecuteMerge(inputs, config, code).value.data == Value(JNull)
    ensures config.errorHandling != Stop && config.collectStats ==>
              ExecuteMerge(inputs, config, code).value.stats.value.errors == [MergeError(m, "execution")]
  {
  }

  /** A successful mode with no post-transform returns the merged value, and
      its statistics count the inputs one by one and the output as a whole. */
  lemma SuccessfulMerge(inputs: Inputs, config: MergeConfig, code: UserCode, v: Json)
    requires !config.simulationMode && config.preTransform == "" && config.postTransform == ""
    requires RunMode(inputs, config, code) == Ok(v)
    requires config.collectStats
    ensures ExecuteMerge(inputs, config, code).Ok?
    ensures ExecuteMerge(inputs, config, code).value.data == Value(v)
    ensures var s := ExecuteMerge(inputs, config, code).value.stats.value;
      && |s.inputCount| == |inputs|
      && (forall i :: 0 <= i < |inputs| ==> s.inputCount[i].value == JInt(InputCount(inputs[i].value)))
      && (v.JArr? ==> s.outputCount == |v.items|)
      && (v.JObj? ==> s.outputCount == |KeySet(v.entries)|)
      && (!v.JArr? && !v.JObj? ==> s.outputCount == 1)
      && s.conflicts == 0 && s.errors == []
  {
  }

  /** A failing pre-transform aborts under `stop`; under the other policies
      the run goes on exactly as it would after a pre-transform that returned
      the inputs unchanged, with the failure recorded first among the errors. */
  lemma PreTransformFailure(inputs: Inputs, config: MergeConfig, code: UserCode, passThrough: UserCode, m: string)
    requires config.preTransform != "" && code.preTransform(config.preTransform, inputs) == Err(m)
    requires passThrough.preTransform(config.preTransform, inputs) == Ok(inputs)
    requires passThrough.postTransform == code.postTransform
    requires passThrough.objectMerge == code.objectMerge
    requires passThrough.customMerge == code.customMerge
    ensures config.errorHandling == Stop ==> ExecuteMerge(inputs, config, code) == Err(PreTransformFailed + m)
    ensures config.errorHandling != Stop ==>
              var r := ExecuteMerge(inputs, config, code);
              var plain := ExecuteMerge(inputs, config, passThrough);
              && r.Ok? && plain.Ok? && r.value.data == plain.value.data
              && (config.collectStats || config.simulationMode ==>
                    r.value.stats.value.errors == [MergeError(PreTransformFailed + m, "preTransform")] + plain.value.stats.value.errors)
  {
    if config.errorHandling != Stop {
      var counts := if config.collectStats then InputCounts(inputs) else [];
      var err := MergeError(PreTransformFailed + m, "preTransform");
      assert ExecuteMerge(inputs, config, code) == Proceed(Staged(inputs, [err]), counts, config, code);
      assert ExecuteMerge(inputs, config, passThrough) == Proceed(Staged(inputs, []), counts, config, passThrough);
      ProceedSameCode(Staged(inputs, []), counts, config, code, passThrough);
      ProceedCarriesErrors(inputs, [err], counts, config, code);
    }
  }

  /** The merge itself reads only the object-merge and custom-merge code. */
  lemma RunModeSameCode(inputs: Inputs, config: MergeConfig, code: UserCode, code': UserCode)
    requires code'.objectMerge == code.objectMerge && code'.customMerge == code.customMerge
    ensures RunMode(inputs, config, code) == RunMode(inputs, config, code')
  {
  }

  /** Everything after the pre-transform ignores the pre-transform code. */
  lemma ProceedSameCode(pre: Staged<Inputs>, counts: seq<Entry>, config: MergeConfig, code: UserCode, code': UserCode)
    requires code'.objectMerge == code.objectMerge && code'.customMerge == code.customMerge
    requires code'.postTransform == code.postTransform
    ensures Proceed(pre, counts, config, code) == Proceed(pre, counts, config, code')
  {
    RunModeSameCode(pre.value, config, code, code');
    forall v ensures PostStage(v, config, code) == PostStage(v, config, code') { }
  }

  /** A failing post-transform aborts under `stop`; under the other policies
      the merged value is returned untransformed and the failure recorded. */
  lemma PostTransformFailure(inputs: Inputs, config: MergeConfig, code: UserCode, v: Json, m: string)
    requires !config.simulationMode && config.preTransform == ""
    requires RunMode(inputs, config, code) == Ok(v)
    requires config.postTransform != "" && code.postTransform(config.postTransform, v) == Err(m)
    ensures config.errorHandling == Stop ==> ExecuteMerge(inputs, config, code) == Err(PostTransformFailed + m)
    ensures config.errorHandling != Stop ==>
              && ExecuteMerge(inputs, config, code).Ok?
              && ExecuteMerge(inputs, config, code).value.data == Value(v)
              && (config.collectStats ==>
                    ExecuteMerge(inputs, config, code).value.stats.value.errors == [MergeError(PostTransformFailed + m, "postTransform")])
  {
  }

  /** An unknown mode is reported by name. */
  lemma UnknownModeFails(inputs: Inputs, config: MergeConfig, code: UserCode, name: string)
    requires config.mode == UnknownMode(name)
    ensures RunMode(inputs, config, code) == Err(UnknownModePrefix + name)
  {
  }

  /** `auto` is `concat` when every input is an array or null, the object merge
      when every input is an object or null (and some input is not null), and
      `concat` otherwise. */
  lemma AutoMergeChoice(inputs: Inputs, config: MergeConfig, code: UserCode)
    ensures AllArrays(inputs) ==>
              AutoMerge(inputs, config, code.objectMerge) == RunMode(inputs, config.(mode := ConcatMode), code)
    ensures !AllArrays(inputs) && AllObjects(inputs) ==>
              AutoMerge(inputs, config, code.objectMerge) == RunMode(inputs, config.(mode := ObjectMode), code)
    ensures !AllArrays(inputs) && !AllObjects(inputs) ==>
              AutoMerge(inputs, config, code.objectMerge) == RunMode(inputs, config.(mode := ConcatMode), code)
  {
    assert RunMode(inputs, config.(mode := ConcatMode), code) == Ok(JArr(ConcatArrays(inputs, config.arrayOptions)));
    assert RunMode(inputs, config.(mode := ObjectMode), code) ==
      MergeObjectInputs(inputs, config.(mode := ObjectMode), code.objectMerge);
    ObjectMergeIgnoresMode(inputs, config, ObjectMode, code.objectMerge);
  }

  /** The object merge does not read the mode. */
  lemma ObjectMergeIgnoresMode(inputs: Inputs, config: MergeConfig, m: MergeMode, objectMerge: (string, seq<Json>) -> Outcome<Json>)
    ensures MergeObjectInputs(inputs, config.(mode := m), objectMerge) == MergeObjectInputs(inputs, config, objectMerge)
  {
    var other := config.(mode := m);
    assert other.objectStrategy == config.objectStrategy && other.customCode == config.customCode;
    assert other.keyPrefix == config.keyPrefix;
  }

  /** With `replace`, `keep` or `deep` and no prefixing, the object merge
      yields a well-formed object holding every key of every coerced input;
      with prefixing, it holds their new names instead. */
  lemma ObjectMergeKeys(inputs: Inputs, config: MergeConfig, code: UserCode)
    requires config.objectStrategy.Replace? || config.objectStrategy.Keep? || config.objectStrategy.Deep?
    ensures MergeObjectInputs(inputs, config, code.objectMerge).Ok?
    ensures MergeObjectInputs(inputs, config, code.objectMerge).value.JObj?
    ensures DistinctKeys(MergeObjectInputs(inputs, config, code.objectMerge).value.entries)
    ensures !config.keyPrefix.enabled ==>
              KeySet(MergeObjectInputs(inputs, config, code.objectMerge).value.entries) == AllKeys(Objects(inputs))
    ensures config.keyPrefix.enabled ==>
              KeySet(MergeObjectInputs(inputs, config, code.objectMerge).value.entries)
              == Renamed(AllKeys(Objects(inputs)), config.keyPrefix.prefixes, config.keyPrefix.separator)
  {
    var objs := Objects(inputs);
    var es;
    if config.objectStrategy.Replace? {
      ReplaceKeys(objs);
      es := ReplaceAll(objs);
    } else if config.objectStrategy.Keep? {
      KeepKeys(objs);
      es := KeepAll(objs);
    } else {
      DeepKeys(objs);
      es := DeepAll(objs);
    }
    PrefixedKeys(es, config.keyPrefix.prefixes, config.keyPrefix.separator);
    assert MergeObjectInputs(inputs, config, code.objectMerge) ==
      Ok(JObj(if config.keyPrefix.enabled then ApplyKeyPrefixes(es, config.keyPrefix.prefixes, config.keyPrefix.separator) else es));
  }

  /** With no options, `concat` with statistics counts as many output items as
      the inputs count together. */
  lemma ConcatCounts(inputs: Inputs, config: MergeConfig, code: UserCode)
    requires config.mode == ConcatMode && !config.simulationMode && config.collectStats
    requires config.preTransform == "" && config.postTransform == ""
    requires !config.arrayOptions.removeDuplicates && !config.arrayOptions.sort && !config.arrayOptions.flatten
    ensures ExecuteMerge(inputs, config, code).Ok?
    ensures ExecuteMerge(inputs, config, code).value.stats.value.outputCount == CoercedLength(inputs)
  {
    ConcatWithoutOptions(inputs, config.arrayOptions);
  }

  // ---------------------------------------------------------------------------
  // The behaviour the tests pin down
  // ---------------------------------------------------------------------------

  /** Custom code that throws "Erreur de test" under `default` with statistics
      gives `{}` and one recorded error whose message ends with that text. */
  lemma CustomErrorExample(inputs: Inputs, config: MergeConfig, code: UserCode)
    requires config.mode == CustomMode && config.errorHandling == Default && config.collectStats
    requires !config.simulationMode && config.preTransform == "" && config.customCode != ""
    requires code.customMerge(config.customCode, inputs, config) == Err("Erreur de test")
    ensures ExecuteMerge(inputs, config, code).Ok?
    ensures ExecuteMerge(inputs, config, code).value.data == Value(JObj([]))
    ensures var errors := ExecuteMerge(inputs, config, code).value.stats.value.errors;
      |errors| == 1 && errors[0].message == CustomCodeFailed + "Erreur de test"
  {
  }
}

=== FILE: merge_objects.dfy ===
/**
 * The object side of the merge engine: coercing inputs to objects, the
 * `replace`, `keep` and `deep` strategies of the `merge` mode, and the
 * optional renaming of result keys by source prefix.
 */
module MergeObjects {
  import opened Results
  import opened Json

  /** How the `merge` mode reads one input: null becomes `{}`, an object is
      taken as it is, and an array or a primitive is wrapped as `{value: x}`. */
  function AsObject(v: Json): (es: seq<Entry>)
    ensures v.JNull? ==> es == []
    ensures v.JObj? ==> es == v.entries
    ensures !v.JNull? && !v.JObj? ==> es == [Entry("value", v)]
  {
    match v
    case JNull => []
    case JObj(es) => es
    case _ => [Entry("value", v)]
  }

  /** The coerced inputs, in input order. */
  function Objects(inputs: seq<Entry>): (objs: seq<seq<Entry>>)
    ensures |objs| == |inputs|
    ensures forall i :: 0 <= i < |inputs| ==> objs[i] == AsObject(inputs[i].value)
  {
    seq(|inputs|, i requires 0 <= i < |inputs| => AsObject(inputs[i].value))
  }

  // ---------------------------------------------------------------------------
  // Key sets and lookups read from the back
  // ---------------------------------------------------------------------------

  lemma KeySetAppend(a: seq<Entry>, b: seq<Entry>)
    ensures KeySet(a + b) == KeySet(a) + KeySet(b)
  {
    forall k | k in KeySet(a + b) ensures k in KeySet(a) + KeySet(b) {
      var i :| 0 <= i < |a + b| && (a + b)[i].key == k;
      if i < |a| {
        assert a[i] == (a + b)[i];
      } else {
        assert b[i - |a|] == (a + b)[i];
      }
    }
    forall k | k in KeySet(a) + KeySet(b) ensures k in KeySet(a + b) {
      if k in KeySet(a) {
        var i :| 0 <= i < |a| && a[i].key == k;
        assert (a + b)[i] == a[i];
      } else {
        var i :| 0 <= i < |b| && b[i].key == k;
        assert (a + b)[|a| + i] == b[i];
      }
    }
  }

  /** The value of the last entry under `k`: what an object literal or a
      spread keeps when a key is written more than once. */
  function LastLookup(es: seq<Entry>, k: string): (r: Option<Json>)
    ensures r.Some? <==> k in KeySet(es)
    decreases |es|
  {
    if |es| == 0 then None
    else
      var n := |es| - 1;
      KeySetAppend(es[..n], [es[n]]);
      assert es[..n] + [es[n]] == es;
      if es[n].key == k then Some(es[n].value) else LastLookup(es[..n], k)
  }

  /** In a well-formed object the first and the last entry under a key are
      the same entry. */
  lemma {:induction false} LastLookupIsLookup(es: seq<Entry>, k: string)
    requires DistinctKeys(es)
    ensures LastLookup(es, k) == Lookup(es, k)
    decreases |es|
  {
    if |es| > 0 {
      var n := |es| - 1;
      if n > 0 {
        assert es[1..][..n - 1] == es[..n][1..];
        assert es[1..][n - 1] == es[n];
        DistinctPrefix(es, n);
        LastLookupIsLookup(es[..n], k);
        if es[0].key == k {
          assert es[n].key != k by {
            assert es[n] == es[1..][n - 1];
          }
        }
        LookupPrefix(es, n, k);
      }
    }
  }

  lemma {:induction false} DistinctPrefix(es: seq<Entry>, n: nat)
    requires DistinctKeys(es) && n <= |es|
    ensures DistinctKeys(es[..n])
  {
    if n > 0 {
      var front := es[..n];
      assert front[0] == es[0];
      assert front[1..] == es[1..][..n - 1];
      DistinctPrefix(es[1..], n - 1);
      KeySetPrefix(es[1..], n - 1);
    }
  }

  lemma KeySetPrefix(s: seq<Entry>, n: nat)
    requires n <= |s|
    ensures KeySet(s[..n]) <= KeySet(s)
  {
    forall k | k in KeySet(s[..n]) ensures k in KeySet(s) {
      var i :| 0 <= i < n && s[..n][i].key == k;
      assert s[i] == s[..n][i];
    }
  }

  /** Reading a key of a well-formed object from a prefix: the key found there
      is found in the whole at the same value, and a key that only the last
      entry holds is found there. */
  lemma {:induction false} LookupPrefix(es: seq<Entry>, n: nat, k: string)
    requires DistinctKeys(es) && 0 < n == |es| - 1
    ensures Lookup(es, k) == if es[n].key == k then Some(es[n].value) else Lookup(es[..n], k)
  {
    if n == 1 {
      assert es[..n][1..] == [];
      assert es[1..] == [es[1]];
    } else {
      assert es[..n][1..] == es[1..][..n - 1];
      assert es[1..][n - 1] == es[n];
      if es[0].key != k {
        LookupPrefix(es[1..], n - 1, k);
      } else {
        assert es[n].key != k by {
          assert es[n] == es[1..][n - 1];
        }
      }
    }
  }

  // ---------------------------------------------------------------------------
  // Spread: `{ ...acc, ...obj }`
  // ---------------------------------------------------------------------------

  /** `{ ...acc, ...es }`: every entry of `es`, left to right, assigned onto a
      copy of `acc` (written as the fold over the prefix of `es`). */
  function Spread(acc: seq<Entry>, es: seq<Entry>): (r: seq<Entry>)
    ensures KeySet(r) == KeySet(acc) + KeySet(es)
    ensures DistinctKeys(acc) ==> DistinctKeys(r)
    ensures forall k :: Lookup(r, k) == if k in KeySet(es) then LastLookup(es, k) else Lookup(acc, k)
    decreases |es|
  {
    if |es| == 0 then acc
    else
      var n := |es| - 1;
      KeySetAppend(es[..n], [es[n]]);
      assert es[..n] + [es[n]] == es;
      Put(Spread(acc, es[..n]), es[n].key, es[n].value)
  }

  // ---------------------------------------------------------------------------
  // The `replace` and `keep` strategies
  // ---------------------------------------------------------------------------

  /** The union of the key sets of all objects. */
  function AllKeys(objs: seq<seq<Entry>>): (ks: set<string>)
    ensures forall k :: k in ks <==> exists j :: 0 <= j < |objs| && k in KeySet(objs[j])
    decreases |objs|
  {
    if |objs| == 0 then {}
    else
      var n := |objs| - 1;
      var ks := AllKeys(objs[..n]) + KeySet(objs[n]);
      assert forall k :: k in ks <==> exists j :: 0 <= j < |objs| && k in KeySet(objs[j]) by {
        forall k | k in ks ensures exists j :: 0 <= j < |objs| && k in KeySet(objs[j]) {
          if k !in KeySet(objs[n]) {
            var j :| 0 <= j < n && k in KeySet(objs[..n][j]);
            assert objs[..n][j] == objs[j];
          }
        }
        forall k, j | 0 <= j < |objs| && k in KeySet(objs[j]) ensures k in ks {
          if j < n {
            assert objs[..n][j] == objs[j];
            assert 0 <= j < |objs[..n]| && k in KeySet(objs[..n][j]);
          }
        }
      }
      ks
  }

  /** `replace`: `objects.reduce((acc, obj) => ({ ...acc, ...obj }), {})`. */
  function ReplaceAll(objs: seq<seq<Entry>>): seq<Entry>
    decreases |objs|
  {
    if |objs| == 0 then [] else Spread(ReplaceAll(objs[..|objs| - 1]), objs[|objs| - 1])
  }

  /** `replace` keeps every key of every input, each once. */
  lemma {:induction false} ReplaceKeys(objs: seq<seq<Entry>>)
    ensures KeySet(ReplaceAll(objs)) == AllKeys(objs)
    ensures DistinctKeys(ReplaceAll(objs))
    decreases |objs|
  {
    if |objs| > 0 {
      ReplaceKeys(objs[..|objs| - 1]);
    }
  }

  /** One `replace` step: the last object decides the keys it has. */
  lemma ReplaceLastStep(objs: seq<seq<Entry>>, k: string)
    requires |objs| > 0
    ensures var n := |objs| - 1;
      Lookup(ReplaceAll(objs), k) == if k in KeySet(objs[n]) then LastLookup(objs[n], k) else Lookup(ReplaceAll(objs[..n]), k)
  {
    var n := |objs| - 1;
    assert ReplaceAll(objs) == Spread(ReplaceAll(objs[..n]), objs[n]);
  }

  /** The prefix of the objects keeps object `i` and the absence of `k` after it. */
  lemma FrontAvoids(objs: seq<seq<Entry>>, i: nat, k: string)
    requires i < |objs| - 1
    requires forall j :: i < j < |objs| ==> k !in KeySet(objs[j])
    ensures var front := objs[..|objs| - 1];
      front[i] == objs[i] && forall j :: i < j < |front| ==> k !in KeySet(front[j])
  {
    var front := objs[..|objs| - 1];
    forall j | i < j < |front| ensures k !in KeySet(front[j]) {
      assert front[j] == objs[j];
    }
  }

  /** Under `replace` a key takes its value from the last input that has it. */
  lemma {:induction false} ReplaceLastWins(objs: seq<seq<Entry>>, i: nat, k: string)
    requires i < |objs| && k in KeySet(objs[i])
    requires forall j :: i < j < |objs| ==> k !in KeySet(objs[j])
    ensures Lookup(ReplaceAll(objs), k) == LastLookup(objs[i], k)
    decreases |objs|
  {
    ReplaceLastStep(objs, k);
    if i < |objs| - 1 {
      FrontAvoids(objs, i, k);
      ReplaceLastWins(objs[..|objs| - 1], i, k);
    }
  }

  /** The entries of `es` whose key is not in `ks`. */
  function Without(es: seq<Entry>, ks: set<string>): (r: seq<Entry>)
    ensures KeySet(r) == KeySet(es) - ks
    ensures forall k :: LastLookup(r, k) == if k in ks then None else LastLookup(es, k)
    decreases |es|
  {
    if |es| == 0 then []
    else
      var n := |es| - 1;
      KeySetAppend(es[..n], [es[n]]);
      assert es[..n] + [es[n]] == es;
      var front := Without(es[..n], ks);
      if es[n].key in ks then front
      else
        KeySetAppend(front, [es[n]]);
        assert (front + [es[n]])[..|front|] == front;
        front + [es[n]]
  }

  /** One step of `keep`: the keys already present are deleted from a copy of
      the new object before it is spread over the accumulator. */
  function KeepStep(acc: seq<Entry>, obj: seq<Entry>): seq<Entry> {
    Spread(acc, Without(obj, KeySet(acc)))
  }

  /** `keep`: `objects.reduce(KeepStep, {})`. */
  function KeepAll(objs: seq<seq<Entry>>): seq<Entry>
    decreases |objs|
  {
    if |objs| == 0 then [] else KeepStep(KeepAll(objs[..|objs| - 1]), objs[|objs| - 1])
  }

  /** `keep` also keeps every key of every input, each once. */
  lemma {:induction false} KeepKeys(objs: seq<seq<Entry>>)
    ensures KeySet(KeepAll(objs)) == AllKeys(objs)
    ensures DistinctKeys(KeepAll(objs))
    decreases |objs|
  {
    if |objs| > 0 {
      KeepKeys(objs[..|objs| - 1]);
    }
  }

  /** One `keep` step: the last object only decides the keys not yet kept. */
  lemma KeepLastStep(objs: seq<seq<Entry>>, k: string)
    requires |objs| > 0
    ensures var acc := KeepAll(objs[..|objs| - 1]);
      Lookup(KeepAll(objs), k) == if k in KeySet(acc) then Lookup(acc, k) else LastLookup(objs[|objs| - 1], k)
  {
    var n := |objs| - 1;
    var acc := KeepAll(objs[..n]);
    assert KeepAll(objs) == Spread(acc, Without(objs[n], KeySet(acc)));
  }

  /** A key no earlier object has is read from the last object. */
  lemma KeepNewKey(objs: seq<seq<Entry>>, k: string)
    requires |objs| > 0
    requires forall j :: 0 <= j < |objs| - 1 ==> k !in KeySet(objs[j])
    ensures Lookup(KeepAll(objs), k) == LastLookup(objs[|objs| - 1], k)
  {
    var front := objs[..|objs| - 1];
    KeepLastStep(objs, k);
    KeepKeys(front);
    forall j | 0 <= j < |front| ensures k !in KeySet(front[j]) {
      assert front[j] == objs[j];
    }
  }

  /** A key some earlier object has keeps the value it already had. */
  lemma KeepKeptKey(objs: seq<seq<Entry>>, i: nat, k: string)
    requires i < |objs| - 1 && k in KeySet(objs[i])
    ensures Lookup(KeepAll(objs), k) == Lookup(KeepAll(objs[..|objs| - 1]), k)
  {
    var front := objs[..|objs| - 1];
    KeepLastStep(objs, k);
    KeepKeys(front);
    assert front[i] == objs[i];
  }

  /** The prefix of the objects keeps object `i` and the absence of `k`
      before it. */
  lemma FrontLacks(objs: seq<seq<Entry>>, i: nat, k: string)
    requires i < |objs| - 1
    requires forall j :: 0 <= j < i ==> k !in KeySet(objs[j])
    ensures var front := objs[..|objs| - 1];
      front[i] == objs[i] && forall j :: 0 <= j < i ==> k !in KeySet(front[j])
  {
    var front := objs[..|objs| - 1];
    forall j | 0 <= j < i ensures k !in KeySet(front[j]) {
      assert front[j] == objs[j];
    }
  }

  /** Under `keep` a key takes its value from the first input that has it. */
  lemma {:induction false} KeepFirstWins(objs: seq<seq<Entry>>, i: nat, k: string)
    requires i < |objs| && k in KeySet(objs[i])
    requires forall j :: 0 <= j < i ==> k !in KeySet(objs[j])
    ensures Lookup(KeepAll(objs), k) == LastLookup(objs[i], k)
    decreases |objs|
  {
    var n := |objs| - 1;
    if i == n {
      KeepNewKey(objs, k);
    } else {
      FrontLacks(objs, i, k);
      KeepFirstWins(objs[..n], i, k);
      KeepKeptKey(objs, i, k);
    }
  }

  // ---------------------------------------------------------------------------
  // The `deep` strategy
  // ---------------------------------------------------------------------------

  /** `deepMerge(target, source)`: each source key, in order, is written onto a
      copy of the target; where both sides hold a plain object under that key
      the two are merged recursively, otherwise the source value wins. */
  function DeepMerge(target: seq<Entry>, source: seq<Entry>): (r: seq<Entry>)
    ensures KeySet(r) == KeySet(target) + KeySet(source)
    ensures DistinctKeys(target) ==> DistinctKeys(r)
    decreases source
  {
    if |source| == 0 then target
    else
      var e := source[0];
      var current := Lookup(target, e.key);
      var v :=
        if current.Some? && current.value.JObj? && e.value.JObj?
        then JObj(DeepMerge(current.value.entries, e.value.entries))
        else e.value;
      DeepMerge(Put(target, e.key, v), source[1..])
  }

  /** Merging in an empty source gives the target back. */
  lemma DeepMergeEmpty(target: seq<Entry>)
    ensures DeepMerge(target, []) == target
  {
  }

  /** The value a well-formed source puts under each of its keys: the
      recursive merge where both sides hold objects, else the source value;
      keys the source lacks keep the target's value. */
  lemma {:induction false} DeepMergeValues(target: seq<Entry>, source: seq<Entry>, k: string)
    requires DistinctKeys(source)
    ensures Lookup(DeepMerge(target, source), k) ==
      if k !in KeySet(source) then Lookup(target, k)
      else
        var s := Lookup(source, k).value;
        var t := Lookup(target, k);
        if t.Some? && t.value.JObj? && s.JObj? then Some(JObj(DeepMerge(t.value.entries, s.entries)))
        else Some(s)
    decreases source
  {
    if |source| > 0 {
      var e := source[0];
      var current := Lookup(target, e.key);
      var v :=
        if current.Some? && current.value.JObj? && e.value.JObj?
        then JObj(DeepMerge(current.value.entries, e.value.entries))
        else e.value;
      DeepMergeValues(Put(target, e.key, v), source[1..], k);
    }
  }

  /** `deep`: `objects.reduce((acc, obj) => deepMerge(acc, obj), {})`. */
  function DeepAll(objs: seq<seq<Entry>>): seq<Entry>
    decreases |objs|
  {
    if |objs| == 0 then [] else DeepMerge(DeepAll(objs[..|objs| - 1]), objs[|objs| - 1])
  }

  /** `deep` too keeps every key of every input, each once. */
  lemma {:induction false} DeepKeys(objs: seq<seq<Entry>>)
    ensures KeySet(DeepAll(objs)) == AllKeys(objs)
    ensures DistinctKeys(DeepAll(objs))
    decreases |objs|
  {
    if |objs| > 0 {
      DeepKeys(objs[..|objs| - 1]);
    }
  }

  // ---------------------------------------------------------------------------
  // Key prefixes
  // ---------------------------------------------------------------------------

  /** One entry of `keyPrefix.prefixes`: keys starting with `source` get
      `prefix` and the separator put in front of them. */
  datatype Prefix = Prefix(source: string, prefix: string)

  /** The new name of a key: the first configured source name that the key
      starts with decides its prefix; a key no source name starts with is kept. */
  function Rename(key: string, prefixes: seq<Prefix>, separator: string): string {
    if |prefixes| == 0 then key
    else if prefixes[0].source <= key then prefixes[0].prefix + separator + key
    else Rename(key, prefixes[1..], separator)
  }

  /** What a key becomes, stated through the first matching source name. */
  lemma {:induction false} RenameFirstMatch(key: string, prefixes: seq<Prefix>, separator: string)
    ensures (forall i :: 0 <= i < |prefixes| ==> !(prefixes[i].source <= key)) ==>
              Rename(key, prefixes, separator) == key
    ensures forall i :: (0 <= i < |prefixes| && prefixes[i].source <= key &&
              forall j :: 0 <= j < i ==> !(prefixes[j].source <= key)) ==>
              Rename(key, prefixes, separator) == prefixes[i].prefix + separator + key
  {
    if |prefixes| > 0 {
      RenameFirstMatch(key, prefixes[1..], separator);
      forall i | 0 < i < |prefixes| && prefixes[i].source <= key &&
          (forall j :: 0 <= j < i ==> !(prefixes[j].source <= key))
        ensures Rename(key, prefixes, separator) == prefixes[i].prefix + separator + key
      {
        assert prefixes[1..][i - 1] == prefixes[i];
        assert !(prefixes[0].source <= key);
        forall j | 0 <= j < i - 1 ensures !(prefixes[1..][j].source <= key) {
          assert prefixes[1..][j] == prefixes[j + 1];
        }
      }
      if forall i :: 0 <= i < |prefixes| ==> !(prefixes[i].source <= key) {
        forall i | 0 <= i < |prefixes[1..]| ensures !(prefixes[1..][i].source <= key) {
          assert prefixes[1..][i] == prefixes[i + 1];
        }
      }
    }
  }

  /** `applyKeyPrefixes`: every own key renamed, values untouched, written in
      key order into a fresh object (a later key landing on the same new name
      overwrites the earlier one). */
  function ApplyKeyPrefixes(es: seq<Entry>, prefixes: seq<Prefix>, separator: string): seq<Entry>
    decreases |es|
  {
    if |es| == 0 then []
    else
      var n := |es| - 1;
      Put(ApplyKeyPrefixes(es[..n], prefixes, separator), Rename(es[n].key, prefixes, separator), es[n].value)
  }

  /** The new names of a set of keys. */
  function Renamed(ks: set<string>, prefixes: seq<Prefix>, separator: string): set<string> {
    set k | k in ks :: Rename(k, prefixes, separator)
  }

  /** The keys of an entry list are those of its prefix and its last key. */
  lemma KeySetLast(es: seq<Entry>)
    requires |es| > 0
    ensures KeySet(es) == KeySet(es[..|es| - 1]) + {es[|es| - 1].key}
  {
    var n := |es| - 1;
    KeySetAppend(es[..n], [es[n]]);
    assert es[..n] + [es[n]] == es;
  }

  /** The keys of the prefixed object are exactly the renamed keys. */
  lemma {:induction false} PrefixedKeys(es: seq<Entry>, prefixes: seq<Prefix>, separator: string)
    ensures KeySet(ApplyKeyPrefixes(es, prefixes, separator)) == Renamed(KeySet(es), prefixes, separator)
    ensures DistinctKeys(ApplyKeyPrefixes(es, prefixes, separator))
    decreases |es|
  {
    if |es| > 0 {
      var n := |es| - 1;
      PrefixedKeys(es[..n], prefixes, separator);
      KeySetLast(es);
      RenamedAdd(KeySet(es[..n]), es[n].key, prefixes, separator);
    }
  }

  lemma RenamedAdd(ks: set<string>, k: string, prefixes: seq<Prefix>, separator: string)
    ensures Renamed(ks + {k}, prefixes, separator) == Renamed(ks, prefixes, separator) + {Rename(k, prefixes, separator)}
  {
  }

  /** Reading a new name after the last key is written. */
  lemma PrefixedLastStep(es: seq<Entry>, prefixes: seq<Prefix>, separator: string, name: string)
    requires |es| > 0
    ensures var n := |es| - 1;
      Lookup(ApplyKeyPrefixes(es, prefixes, separator), name) ==
        if name == Rename(es[n].key, prefixes, separator) then Some(es[n].value)
        else Lookup(ApplyKeyPrefixes(es[..n], prefixes, separator), name)
  {
  }

  /** The renaming hypothesis of `PrefixedValues` holds for a prefix. */
  lemma RenamingApartPrefix(es: seq<Entry>, prefixes: seq<Prefix>, separator: string)
    requires |es| > 0
    requires forall a, b :: a in KeySet(es) && b in KeySet(es) && a != b ==>
               Rename(a, prefixes, separator) != Rename(b, prefixes, separator)
    ensures forall a, b :: a in KeySet(es[..|es| - 1]) && b in KeySet(es[..|es| - 1]) && a != b ==>
               Rename(a, prefixes, separator) != Rename(b, prefixes, separator)
  {
    KeySetLast(es);
  }

  /** When no two keys of a well-formed object are renamed to the same name,
      each value is found under its key's new name. */
  lemma {:induction false} PrefixedValues(es: seq<Entry>, prefixes: seq<Prefix>, separator: string, k: string)
    requires DistinctKeys(es)
    requires forall a, b :: a in KeySet(es) && b in KeySet(es) && a != b ==>
               Rename(a, prefixes, separator) != Rename(b, prefixes, separator)
    requires k in KeySet(es)
    ensures Lookup(ApplyKeyPrefixes(es, prefixes, separator), Rename(k, prefixes, separator)) == Lookup(es, k)
    decreases |es|
  {
    var n := |es| - 1;
    KeySetLast(es);
    PrefixedLastStep(es, prefixes, separator, Rename(k, prefixes, separator));
    if n == 0 {
      assert es[0].key == k;
    } else {
      LookupPrefix(es, n, k);
      if es[n].key != k {
        DistinctPrefix(es, n);
        RenamingApartPrefix(es, prefixes, separator);
        PrefixedValues(es[..n], prefixes, separator, k);
      }
    }
  }

  // ---------------------------------------------------------------------------
  // The behaviour the tests pin down
  // ---------------------------------------------------------------------------

  const Ab := [Entry("a", JInt(1)), Entry("b", JInt(2))]
  const Bc := [Entry("b", JInt(3)), Entry("c", JInt(4))]

  lemma ExampleKeySets()
    ensures KeySet(Ab) == {"a", "b"} && KeySet(Bc) == {"b", "c"}
  {
  }

  lemma ExampleLastLookups()
    ensures LastLookup(Ab, "a") == Some(JInt(1)) && LastLookup(Ab, "b") == Some(JInt(2))
    ensures LastLookup(Bc, "b") == Some(JInt(3)) && LastLookup(Bc, "c") == Some(JInt(4))
  {
    assert Ab[..1] == [Ab[0]] && Bc[..1] == [Bc[0]];
  }

  lemma ExampleKeys()
    ensures AllKeys([Ab, Bc]) == {"a", "b", "c"}
  {
    ExampleKeySets();
    assert [Ab, Bc][0] == Ab && [Ab, Bc][1] == Bc;
  }

  /** `replace` and `keep` of {a:1, b:2} and {b:3, c:4} both have keys a, b, c. */
  lemma ObjectExampleKeys()
    ensures KeySet(ReplaceAll([Ab, Bc])) == {"a", "b", "c"}
    ensures KeySet(KeepAll([Ab, Bc])) == {"a", "b", "c"}
  {
    ExampleKeys();
    ReplaceKeys([Ab, Bc]);
    KeepKeys([Ab, Bc]);
  }

  /** `replace` of {a:1, b:2} and {b:3, c:4} is {a:1, b:3, c:4} (compared, as
      the test does, without regard to key order). */
  lemma ReplaceExample()
    ensures Lookup(ReplaceAll([Ab, Bc]), "a") == Some(JInt(1))
    ensures Lookup(ReplaceAll([Ab, Bc]), "b") == Some(JInt(3))
    ensures Lookup(ReplaceAll([Ab, Bc]), "c") == Some(JInt(4))
  {
    ReplaceLastWins([Ab, Bc], 0, "a");
    ReplaceLastWins([Ab, Bc], 1, "b");
    ReplaceLastWins([Ab, Bc], 1, "c");
  }

  /** `keep` of {a:1, b:2} and {b:3, c:4} is {a:1, b:2, c:4}. */
  lemma KeepExample()
    ensures Lookup(KeepAll([Ab, Bc]), "a") == Some(JInt(1))
    ensures Lookup(KeepAll([Ab, Bc]), "b") == Some(JInt(2))
    ensures Lookup(KeepAll([Ab, Bc]), "c") == Some(JInt(4))
  {
    ExampleKeySets();
    ExampleLastLookups();
    KeepExampleKey(Ab, "a", JInt(1));
    KeepExampleKey(Ab, "b", JInt(2));
    KeepExampleKey(Bc, "c", JInt(4));
  }

  /** A key of the example's first object, or of its second object only,
      keeps the value it has there. */
  lemma KeepExampleKey(obj: seq<Entry>, k: string, v: Json)
    requires obj == Ab || (obj == Bc && k !in KeySet(Ab))
    requires k in KeySet(obj) && LastLookup(obj, k) == Some(v)
    ensures Lookup(KeepAll([Ab, Bc]), k) == Some(v)
  {
    var objs := [Ab, Bc];
    if obj == Ab {
      assert objs[0] == Ab;
      KeepFirstWins(objs, 0, k);
    } else {
      assert objs[0] == Ab && objs[1] == Bc;
      KeepFirstWins(objs, 1, k);
    }
  }

  const Xy := [Entry("x", JInt(1)), Entry("y", JInt(2))]
  const Yz := [Entry("y", JInt(3)), Entry("z", JInt(4))]

  /** Deep-merging the nested objects {x:1, y:2} and {y:3, z:4} of the deep
      merge test: the colliding key y takes the source's value 3. */
  lemma DeepCollisionExample()
    ensures Lookup(DeepMerge(Xy, Yz), "y") == Some(JInt(3))
  {
    DeepMergeValues(Xy, Yz, "y");
  }

  const Abcd := [Entry("a", JInt(1)), Entry("b", JInt(2)), Entry("c", JInt(3)), Entry("d", JInt(4))]
  const InputPrefixes := [Prefix("input1", "src1"), Prefix("input2", "src2")]

  lemma AbcdKeptNames()
    ensures KeySet(Abcd) == {"a", "b", "c", "d"}
    ensures forall k :: k in KeySet(Abcd) ==> Rename(k, InputPrefixes, "_") == k
  {
  }

  lemma AbcdRenamed()
    ensures Renamed(KeySet(Abcd), InputPrefixes, "_") == {"a", "b", "c", "d"}
  {
    AbcdKeptNames();
  }

  /** With sources "input1" and "input2", none of the keys a, b, c and d starts
      with a source name, so prefixing leaves {a:1, b:2, c:3, d:4} with its
      keys: no "src1_a" key appears. */
  lemma PrefixExample()
    ensures KeySet(ApplyKeyPrefixes(Abcd, InputPrefixes, "_")) == {"a", "b", "c", "d"}
    ensures "src1_a" !in KeySet(ApplyKeyPrefixes(Abcd, InputPrefixes, "_"))
  {
    AbcdRenamed();
    PrefixedKeys(Abcd, InputPrefixes, "_");
  }

  /** ... and the values stay under the unchanged keys. */
  lemma PrefixExampleValues()
    ensures Lookup(ApplyKeyPrefixes(Abcd, InputPrefixes, "_"), "a") == Some(JInt(1))
    ensures Lookup(ApplyKeyPrefixes(Abcd, InputPrefixes, "_"), "d") == Some(JInt(4))
  {
    AbcdKeptNames();
    PrefixedValues(Abcd, InputPrefixes, "_", "a");
    PrefixedValues(Abcd, InputPrefixes, "_", "d");
  }
}

=== FILE: results.dfy ===
/** Failure-carrying values shared by the four engines. */
module Results {

  /** A value that may be absent: an optional configuration field, or a
      result field the engine leaves undefined. */
  datatype Option<+T> = None | Some(value: T)

  /** What a piece of user code, or an engine step that can throw, produces:
      either a value or the message of the exception it raised. */
  datatype Outcome<+T> = Ok(value: T) | Err(msg: string)
}

=== FILE: stop_error.dfy ===
/**
 * The stop-and-error block: a decision over simulation mode, an optional
 * condition and the logging flags, and the text of the line it logs. The
 * condition is user code, a function parameter that returns `Ok` or `Err`;
 * the clock reading is the `now` parameter.
 */
module StopError {
  import opened Results
  import opened Json

  datatype Severity = Warning | Error | Fatal

  datatype StopStrategy = Block | Branch | Workflow

  datatype Destination = Console | File | Both

  datatype LoggingOptions = LoggingOptions(
    enableLogging: bool,
    logDestination: Option<Destination>,
    logFilePath: Option<string>,
    includeTimestamp: bool,
    includeStackTrace: bool)

  /** An absent condition is the empty string, which is falsy. */
  datatype StopErrorConfig = StopErrorConfig(
    errorMessage: string,
    severity: Severity,
    stopStrategy: StopStrategy,
    errorCode: Option<string>,
    errorData: Option<Json>,
    loggingOptions: LoggingOptions,
    simulationMode: bool,
    condition: string)

  datatype StopErrorStats = StopErrorStats(
    timestamp: int,
    severity: Severity,
    stopStrategy: StopStrategy,
    conditionEvaluated: Option<bool>,
    conditionResult: Option<Json>,
    errorLogged: bool,
    errorThrown: bool)

  datatype StopErrorResult = StopErrorResult(
    stopped: bool,
    errorThrown: bool,
    errorMessage: Option<string>,
    errorCode: Option<string>,
    severity: Option<Severity>,
    stopStrategy: Option<StopStrategy>,
    errorData: Option<Json>,
    stats: StopErrorStats)

  /** The condition code run on the block's input. */
  type Condition = (string, Json) -> Outcome<Json>

  /** `executeStopError`. */
  function ExecuteStopError(input: Json, config: StopErrorConfig, now: int, condition: Condition): (r: StopErrorResult)
    ensures r.stopped == r.errorThrown == r.stats.errorThrown
    ensures r.stats.timestamp == now
    ensures r.stats.severity == config.severity && r.stats.stopStrategy == config.stopStrategy
  {
    var logging := config.loggingOptions.enableLogging;
    var stats := StopErrorStats(now, config.severity, config.stopStrategy, None, None, false, false);
    if config.simulationMode then
      StopErrorResult(false, false, Some(config.errorMessage), config.errorCode, Some(config.severity),
        Some(config.stopStrategy), config.errorData, stats.(errorLogged := logging))
    else if config.condition != "" && condition(config.condition, input).Err? then
      // the catch: the condition threw
      StopErrorResult(false, false, Some(condition(config.condition, input).msg), None, None, None, None,
        stats.(conditionEvaluated := Some(true), errorLogged := logging))
    else
      var stats' := if config.condition == "" then stats
        else stats.(conditionEvaluated := Some(true), conditionResult := Some(condition(config.condition, input).value));
      if config.condition != "" && !Truthy(condition(config.condition, input).value) then
        StopErrorResult(false, false, None, None, None, None, None, stats')
      else
        StopErrorResult(true, true, Some(config.errorMessage), config.errorCode, Some(config.severity),
          Some(config.stopStrategy), config.errorData, stats'.(errorLogged := logging, errorThrown := true))
  }

  // ---------------------------------------------------------------------
  // The outcomes
  // ---------------------------------------------------------------------

  /** When the block fires: not simulating, and either no condition or a
      condition that returns a truthy value. */
  predicate Fires(input: Json, config: StopErrorConfig, condition: Condition) {
    !config.simulationMode &&
    (config.condition == "" ||
     (condition(config.condition, input).Ok? && Truthy(condition(config.condition, input).value)))
  }

  /** The block stops the workflow exactly when it fires, and then echoes the
      configured message, code, severity, strategy and data; a condition that
      made it fire is recorded as evaluated, with its value. */
  lemma StopsIffFires(input: Json, config: StopErrorConfig, now: int, condition: Condition)
    ensures var r := ExecuteStopError(input, config, now, condition);
      (r.stopped <==> Fires(input, config, condition)) &&
      (r.stopped ==>
        r.errorMessage == Some(config.errorMessage) && r.errorCode == config.errorCode &&
        r.severity == Some(config.severity) && r.stopStrategy == Some(config.stopStrategy) &&
        r.errorData == config.errorData && r.stats.errorThrown) &&
      (r.stopped && config.condition != "" ==>
        r.stats.conditionEvaluated == Some(true) &&
        r.stats.conditionResult == Some(condition(config.condition, input).value))
  {
  }

  /** On the firing path the error is logged exactly when logging is on. */
  lemma LoggedIffEnabled(input: Json, config: StopErrorConfig, now: int, condition: Condition)
    requires Fires(input, config, condition)
    ensures ExecuteStopError(input, config, now, condition).stats.errorLogged <==> config.loggingOptions.enableLogging
  {
  }

  /** Simulation mode decides before the condition is looked at: whatever
      the input and the condition code, nothing stops, and the configuration
      is echoed. */
  lemma SimulationEchoes(input: Json, input': Json, config: StopErrorConfig, now: int, condition: Condition, condition': Condition)
    requires config.simulationMode
    ensures var r := ExecuteStopError(input, config, now, condition);
      r == ExecuteStopError(input', config, now, condition') &&
      !r.stopped && !r.errorThrown &&
      r.errorMessage == Some(config.errorMessage) && r.errorCode == config.errorCode &&
      r.severity == Some(config.severity) && r.stopStrategy == Some(config.stopStrategy) &&
      r.errorData == config.errorData &&
      r.stats.errorLogged == config.loggingOptions.enableLogging
  {
  }

  /** A condition that returns a falsy value stops nothing, logs nothing,
      echoes no message, and records that it was evaluated and its value. */
  lemma ConditionFalse(input: Json, config: StopErrorConfig, now: int, condition: Condition)
    requires !config.simulationMode && config.condition != ""
    requires condition(config.condition, input).Ok? && !Truthy(condition(config.condition, input).value)
    ensures var r := ExecuteStopError(input, config, now, condition);
      !r.stopped && r.errorMessage.None? && r.errorCode.None? && !r.stats.errorLogged &&
      r.stats.conditionEvaluated == Some(true) && r.stats.conditionResult == Some(condition(config.condition, input).value)
  {
  }

  /** A condition that throws stops nothing and reports the exception's text;
      the error counts as logged when logging is on. */
  lemma ConditionThrows(input: Json, config: StopErrorConfig, now: int, condition: Condition)
    requires !config.simulationMode && config.condition != ""
    requires condition(config.condition, input).Err?
    ensures var r := ExecuteStopError(input, config, now, condition);
      !r.stopped && !r.errorThrown &&
      r.errorMessage == Some(condition(config.condition, input).msg) &&
      r.stats.errorLogged == config.loggingOptions.enableLogging &&
      r.stats.conditionResult.None?
  {
  }

  /** Without a condition the condition code is never run. */
  lemma NoConditionIgnoresCode(input: Json, config: StopErrorConfig, now: int, condition: Condition, condition': Condition)
    requires config.condition == ""
    ensures ExecuteStopError(input, config, now, condition) == ExecuteStopError(input, config, now, condition')
    ensures ExecuteStopError(input, config, now, condition).stats.conditionEvaluated.None?
  {
  }

  // ---------------------------------------------------------------------
  // The log line
  // ---------------------------------------------------------------------

  /** The severity as configured. */
  function SeverityName(s: Severity): string {
    match s
    case Warning => "warning"
    case Error => "error"
    case Fatal => "fatal"
  }

  /** `toUpperCase` on ASCII letters. */
  function Upper(s: string): (u: string)
    ensures |u| == |s|
    ensures forall i :: 0 <= i < |s| ==> u[i] == if 'a' <= s[i] <= 'z' then (s[i] as int - 32) as char else s[i]
  {
    if |s| == 0 then [] else [if 'a' <= s[0] <= 'z' then (s[0] as int - 32) as char else s[0]] + Upper(s[1..])
  }

  /** The label that opens a log line: the upper-cased severity. */
  function Label(s: Severity): string {
    Upper(SeverityName(s))
  }

  lemma LabelValues()
    ensures Label(Warning) == "WARNING" && Label(Error) == "ERROR" && Label(Fatal) == "FATAL"
  {
    UpperWarning();
    UpperError();
    UpperFatal();
  }

  lemma UpperWarning()
    ensures Upper("warning") == "WARNING"
  {
    var u := Upper("warning");
    assert u[0] == 'W' && u[1] == 'A' && u[2] == 'R' && u[3] == 'N' && u[4] == 'I' && u[5] == 'N' && u[6] == 'G';
  }

  lemma UpperError()
    ensures Upper("error") == "ERROR"
  {
    var u := Upper("error");
    assert u[0] == 'E' && u[1] == 'R' && u[2] == 'R' && u[3] == 'O' && u[4] == 'R';
  }

  lemma UpperFatal()
    ensures Upper("fatal") == "FATAL"
  {
    var u := Upper("fatal");
    assert u[0] == 'F' && u[1] == 'A' && u[2] == 'T' && u[3] == 'A' && u[4] == 'L';
  }

  /** The ` (Code: …)` suffix, present when the code is non-empty. */
  function CodeSuffix(code: Option<string>): string {
    if code.Some? && code.value != "" then " (Code: " + code.value + ")" else ""
  }

  /** The line logged when the block fires with logging on; `iso` is the
      timestamp as `toISOString` writes it. */
  function LogMessage(config: StopErrorConfig, iso: string): string {
    (if config.loggingOptions.includeTimestamp then "[" + iso + "] " else "") +
    Label(config.severity) + ": " + config.errorMessage + CodeSuffix(config.errorCode)
  }

  /** The severity a log line without a timestamp opens with. */
  function ReadSeverity(line: string): Option<Severity> {
    if "WARNING: " <= line then Some(Warning)
    else if "ERROR: " <= line then Some(Error)
    else if "FATAL: " <= line then Some(Fatal)
    else None
  }

  /** The parts of a log line: the optional timestamp prefix, then the label,
      `": "` and the message, then the code suffix exactly when a non-empty
      code is configured. */
  lemma LogMessageParts(config: StopErrorConfig, iso: string)
    ensures var line := LogMessage(config, iso);
      var prefix := if config.loggingOptions.includeTimestamp then "[" + iso + "] " else "";
      var body := Label(config.severity) + ": " + config.errorMessage;
      prefix <= line &&
      line[|prefix|..|prefix| + |body|] == body &&
      (config.errorCode.Some? && config.errorCode.value != "" <==> |line| > |prefix| + |body|) &&
      (config.errorCode.Some? && config.errorCode.value != "" ==>
        line[|prefix| + |body|..] == " (Code: " + config.errorCode.value + ")")
  {
    var prefix := if config.loggingOptions.includeTimestamp then "[" + iso + "] " else "";
    var body := Label(config.severity) + ": " + config.errorMessage;
    var suffix := CodeSuffix(config.errorCode);
    assert LogMessage(config, iso) == prefix + body + suffix by {
      assert prefix + Label(config.severity) + ": " + config.errorMessage == prefix + body;
    }
    JoinParts(prefix, body, suffix);
  }

  /** Reading back the three parts of a joined string. */
  lemma JoinParts(p: string, b: string, x: string)
    ensures var line := p + b + x;
      p <= line && line[|p|..|p| + |b|] == b && line[|p| + |b|..] == x && |line| == |p| + |b| + |x|
  {
    var line := p + b + x;
    assert line[..|p|] == p;
    assert line[|p|..|p| + |b|] == b;
    assert line[|p| + |b|..] == x;
  }

  /** A line opening with a label and `": "` gives back that severity. */
  lemma ReadSeverityOfLabel(s: Severity, rest: string)
    ensures ReadSeverity(Label(s) + ": " + rest) == Some(s)
  {
    LabelValues();
    var opening := Label(s) + ": ";
    var line := opening + rest;
    PrefixOfJoin(opening, rest);
    match s {
      case Warning =>
        assert opening == "WARNING: ";
      case Error =>
        assert opening == "ERROR: ";
        assert line[0] == 'E';
      case Fatal =>
        assert opening == "FATAL: ";
        assert line[0] == 'F' && line[1] == 'A';
    }
  }

  lemma PrefixOfJoin(p: string, r: string)
    ensures p <= p + r && (p + r)[..|p|] == p
  {
    assert (p + r)[..|p|] == p;
  }

  /** Without a timestamp, a log line is the label, `": "`, and the rest. */
  lemma LogMessageUntimed(config: StopErrorConfig, iso: string)
    requires !config.loggingOptions.includeTimestamp
    ensures LogMessage(config, iso) == Label(config.severity) + ": " + (config.errorMessage + CodeSuffix(config.errorCode))
  {
    var opening := Label(config.severity) + ": ";
    assert "" + Label(config.severity) == Label(config.severity);
    assert (opening + config.errorMessage) + CodeSuffix(config.errorCode) == opening + (config.errorMessage + CodeSuffix(config.errorCode));
  }

  /** A log line without a timestamp gives back its severity. */
  lemma ReadSeverityOfLog(config: StopErrorConfig, iso: string)
    requires !config.loggingOptions.includeTimestamp
    ensures ReadSeverity(LogMessage(config, iso)) == Some(config.severity)
  {
    LogMessageUntimed(config, iso);
    ReadSeverityOfLabel(config.severity, config.errorMessage + CodeSuffix(config.errorCode));
  }

  /** The line of the tests' coded error, without timestamp. */
  lemma LogExample()
    ensures LogMessage(StopErrorConfig("Erreur avec code", Error, Block, Some("ERR_001"), None,
      LoggingOptions(true, None, None, false, false), false, ""), "") == "ERROR: Erreur avec code (Code: ERR_001)"
  {
    var config := StopErrorConfig("Erreur avec code", Error, Block, Some("ERR_001"), None,
      LoggingOptions(true, None, None, false, false), false, "");
    LabelValues();
    LogMessageUntimed(config, "");
    assert CodeSuffix(config.errorCode) == " (Code: ERR_001)";
    ExampleLineJoin();
  }

  lemma ExampleLineJoin()
    ensures "ERROR" + ": " + ("Erreur avec code" + " (Code: ERR_001)") == "ERROR: Erreur avec code (Code: ERR_001)"
  {
    var line := "ERROR" + ": " + ("Erreur avec code" + " (Code: ERR_001)");
    assert |line| == 39;
    assert forall i :: 0 <= i < 39 ==> line[i] == "ERROR: Erreur avec code (Code: ERR_001)"[i];
  }
}

=== FILE: wait_engine.dfy ===
/**
 * The wait block: the fixed delay in a time unit, the wait until a target
 * time, and the wait on a condition, none of which actually sleeps. The
 * clock is two parameters: `now`, read when the block starts, and `later`,
 * any later reading; the target date is given already converted to
 * milliseconds; the condition is user code returning `Ok` or `Err`.
 */
module WaitEngine {
  import opened Results
  import opened Json

  datatype WaitMode = Fixed | Until | ConditionMode | UnknownMode(name: string)

  datatype TimeUnit = Ms | Seconds | Minutes | Hours | UnknownUnit(name: string)

  /** An absent timeout is 0, which is falsy. */
  datatype ConditionOptions = ConditionOptions(checkInterval: int, timeout: int, retryCount: int)

  /** An absent delay is 0 and an absent condition the empty string; an
      absent time unit is `None`. */
  datatype WaitConfig = WaitConfig(
    mode: WaitMode,
    delay: int,
    timeUnit: Option<TimeUnit>,
    targetDate: Option<int>,
    condition: string,
    conditionOptions: Option<ConditionOptions>,
    simulationMode: bool)

  datatype WaitStats = WaitStats(
    startTime: int,
    endTime: Option<int>,
    duration: Option<int>,
    mode: WaitMode,
    conditionChecks: Option<nat>,
    interrupted: Option<bool>,
    interruptReason: Option<string>,
    errors: Option<seq<string>>)

  datatype WaitResult = WaitResult(
    completed: bool,
    interrupted: Option<bool>,
    interruptReason: Option<string>,
    stats: WaitStats,
    error: Option<string>)

  /** The condition code run on the block's input. */
  type Condition = (string, Json) -> Outcome<Json>

  const UntilTargetRequired := "Date/heure cible requise pour le mode \"until\""
  const ConditionRequired := "Condition requise pour le mode \"condition\""
  const UnknownModePrefix := "Mode d'attente non reconnu: "
  const TimeoutReason := "timeout"

  /** The name the configuration gives a mode. */
  function ModeName(m: WaitMode): string {
    match m
    case Fixed => "fixed"
    case Until => "until"
    case ConditionMode => "condition"
    case UnknownMode(name) => name
  }

  /** `calculateFixedDelay`: the value in milliseconds. */
  function CalculateFixedDelay(value: int, unit: TimeUnit): int {
    match unit
    case Ms => value
    case Seconds => value * 1000
    case Minutes => value * 60 * 1000
    case Hours => value * 60 * 60 * 1000
    case UnknownUnit(_) => value
  }

  /** A larger value never gives a shorter delay, in any unit. */
  lemma FixedDelayMonotone(a: int, b: int, unit: TimeUnit)
    requires a <= b
    ensures CalculateFixedDelay(a, unit) <= CalculateFixedDelay(b, unit)
  {
  }

  /** The conversion keeps the sign, and each unit is the next smaller one
      scaled: an hour is 60 minutes, a minute 60 seconds, a second 1000
      milliseconds. */
  lemma FixedDelayUnits(value: int)
    ensures forall u :: (CalculateFixedDelay(value, u) > 0 <==> value > 0)
    ensures CalculateFixedDelay(value, Hours) == CalculateFixedDelay(60 * value, Minutes)
    ensures CalculateFixedDelay(value, Minutes) == CalculateFixedDelay(60 * value, Seconds)
    ensures CalculateFixedDelay(value, Seconds) == CalculateFixedDelay(1000 * value, Ms)
  {
  }

  /** The outer catch: the wait fails with the message, the clock read again. */
  function Failed(stats: WaitStats, later: int, message: string): WaitResult {
    WaitResult(false, None, None,
      stats.(endTime := Some(later), duration := Some(later - stats.startTime), errors := Some([message])),
      Some(message))
  }

  /** A wait that is over at once. */
  function Immediate(stats: WaitStats): WaitResult {
    WaitResult(true, None, None, stats.(endTime := Some(stats.startTime), duration := Some(0)), None)
  }

  /** A wait of `ms` milliseconds from the start, or none when `ms` is not
      positive. */
  function WaitFor(stats: WaitStats, ms: int): WaitResult {
    if ms <= 0 then Immediate(stats)
    else WaitResult(true, None, None, stats.(endTime := Some(stats.startTime + ms), duration := Some(ms)), None)
  }

  /** The timeout a condition wait uses: `conditionOptions.timeout || 0`. */
  function Timeout(config: WaitConfig): int {
    if config.conditionOptions.Some? then config.conditionOptions.value.timeout else 0
  }

  /** `executeConditionalWait`: the condition is checked once; a timeout
      ends the wait as interrupted, no timeout leaves it open. */
  function ExecuteConditionalWait(input: Json, config: WaitConfig, stats: WaitStats, later: int, condition: Condition): (r: WaitResult)
    ensures !r.completed || r.error.None?
    ensures r.stats.startTime == stats.startTime
  {
    var timeout := Timeout(config);
    if config.condition == "" then
      var failed := Failed(stats, later, ConditionRequired);
      failed.(stats := failed.stats.(conditionChecks := Some(0)))
    else
      match condition(config.condition, input)
      case Err(m) =>
        var failed := Failed(stats, later, m);
        failed.(stats := failed.stats.(conditionChecks := Some(0)))
      case Ok(v) =>
        if Truthy(v) then
          WaitResult(true, None, None,
            stats.(endTime := Some(later), duration := Some(later - stats.startTime), conditionChecks := Some(1)), None)
        else if timeout > 0 then
          WaitResult(false, Some(true), Some(TimeoutReason),
            stats.(endTime := Some(stats.startTime + timeout), duration := Some(timeout), conditionChecks := Some(1),
              interrupted := Some(true), interruptReason := Some(TimeoutReason)), None)
        else
          WaitResult(false, None, None, stats.(conditionChecks := Some(1)), None)
  }

  /** `executeWait`. */
  function ExecuteWait(input: Json, config: WaitConfig, now: int, later: int, condition: Condition): (r: WaitResult)
    ensures r.stats.startTime == now && r.stats.mode == config.mode
    ensures r.stats.endTime.Some? ==> r.stats.duration.Some? && r.stats.endTime.value == now + r.stats.duration.value
    ensures r.error.Some? ==> !r.completed && r.stats.errors == Some([r.error.value])
    ensures r.completed ==> r.error.None? && r.interrupted.None?
  {
    var stats := WaitStats(now, None, None, config.mode, None, None, None, None);
    if config.simulationMode then Immediate(stats)
    else
      match config.mode
      case Fixed =>
        var unit := if config.timeUnit.Some? then config.timeUnit.value else Ms;
        WaitFor(stats, CalculateFixedDelay(config.delay, unit))
      case Until =>
        if config.targetDate.None? then Failed(stats, later, UntilTargetRequired)
        else WaitFor(stats, config.targetDate.value - now)
      case ConditionMode =>
        if config.condition == "" then Failed(stats, later, ConditionRequired)
        else ExecuteConditionalWait(input, config, stats, later, condition)
      case UnknownMode(name) => Failed(stats, later, UnknownModePrefix + name)
  }

  // ---------------------------------------------------------------------
  // The outcomes
  // ---------------------------------------------------------------------

  /** Simulation mode completes at once in every mode, whatever the
      condition code and the clock's later reading. */
  lemma SimulationCompletes(input: Json, config: WaitConfig, now: int, later: int, later': int, condition: Condition, condition': Condition)
    requires config.simulationMode
    ensures var r := ExecuteWait(input, config, now, later, condition);
      r == ExecuteWait(input, config, now, later', condition') &&
      r.completed && r.stats.duration == Some(0) && r.stats.endTime == Some(now)
  {
  }

  /** A fixed wait completes after the converted delay, or at once when that
      is not positive. */
  lemma FixedWait(input: Json, config: WaitConfig, now: int, later: int, condition: Condition)
    requires !config.simulationMode && config.mode == Fixed
    ensures var ms := CalculateFixedDelay(config.delay, if config.timeUnit.Some? then config.timeUnit.value else Ms);
      var r := ExecuteWait(input, config, now, later, condition);
      r.completed && r.stats.duration == Some(if ms > 0 then ms else 0) &&
      r.stats.endTime == Some(if ms > 0 then now + ms else now)
  {
  }

  /** A wait until a target completes at the target, or at once when the
      target is not in the future. */
  lemma UntilWait(input: Json, config: WaitConfig, now: int, later: int, condition: Condition)
    requires !config.simulationMode && config.mode == Until && config.targetDate.Some?
    ensures var t := config.targetDate.value;
      var r := ExecuteWait(input, config, now, later, condition);
      r.completed && r.stats.duration == Some(if t > now then t - now else 0) &&
      r.stats.endTime == Some(if t > now then t else now)
  {
  }

  /** The modes that fail before waiting: `until` without a target,
      `condition` without a condition, and a mode not recognised. */
  lemma ConfigurationErrors(input: Json, config: WaitConfig, now: int, later: int, condition: Condition)
    requires !config.simulationMode
    ensures var r := ExecuteWait(input, config, now, later, condition);
      (config.mode == Until && config.targetDate.None? ==> !r.completed && r.error == Some(UntilTargetRequired)) &&
      (config.mode == ConditionMode && config.condition == "" ==> !r.completed && r.error == Some(ConditionRequired)) &&
      (config.mode.UnknownMode? ==> !r.completed && r.error == Some(UnknownModePrefix + ModeName(config.mode)))
  {
  }

  /** The error of an unrecognised mode names the mode. */
  lemma UnknownModeMessage(input: Json, name: string, config: WaitConfig, now: int, later: int, condition: Condition)
    requires !config.simulationMode && config.mode == UnknownMode(name)
    ensures var e := ExecuteWait(input, config, now, later, condition).error;
      e.Some? && UnknownModePrefix <= e.value && e.value[|UnknownModePrefix|..] == name
  {
  }

  /** A condition wait checks its condition exactly once: true completes it,
      false with a timeout interrupts it at the timeout, false without one
      leaves it open. */
  lemma ConditionWaitOutcomes(input: Json, config: WaitConfig, now: int, later: int, condition: Condition)
    requires !config.simulationMode && config.mode == ConditionMode && config.condition != ""
    requires condition(config.condition, input).Ok?
    ensures var holds := Truthy(condition(config.condition, input).value);
      var r := ExecuteWait(input, config, now, later, condition);
      r.stats.conditionChecks == Some(1) && r.error.None? &&
      (r.completed <==> holds) &&
      (r.interrupted == Some(true) <==> !holds && Timeout(config) > 0) &&
      (r.interrupted == Some(true) ==>
        r.interruptReason == Some(TimeoutReason) && r.stats.duration == Some(Timeout(config)) &&
        r.stats.endTime == Some(now + Timeout(config))) &&
      (!holds && Timeout(config) <= 0 ==> r.stats.endTime.None? && r.interrupted.None?)
  {
  }

  /** A condition that throws fails the wait with its message, recorded as
      the one error, before any check is counted. */
  lemma ConditionWaitThrows(input: Json, config: WaitConfig, now: int, later: int, condition: Condition)
    requires !config.simulationMode && config.mode == ConditionMode && config.condition != ""
    requires condition(config.condition, input).Err?
    ensures var m := condition(config.condition, input).msg;
      var r := ExecuteWait(input, config, now, later, condition);
      !r.completed && r.error == Some(m) && r.stats.errors == Some([m]) && r.stats.conditionChecks == Some(0)
  {
  }
}
